=== FILE: README.md ===
# Tower defense: configuration loading and game rules

This project models the core of xpdustry's tower-defense plugins for
Mindustry, in Dafny. It covers the tower plugin and its MoMo variant. It
has three parts.

**Configuration loading.**
- The SnakeYAML loader turns a composed YAML tree into gestalt's node tree.
- The patched record decoder binds a map node to a Java record, component
  by component.
- The sealed-interface decoder picks a record variant by its `type` key.
- The content decoder looks game content up by name.
- The configuration provider reloads and keeps the current configuration.
- The hand-written readers of the two plugins (`parseDrop`, `parseUnit`,
  `load`, the game mode, `isActive`) read the same file through
  Configurate.

**Drops.** The bounty an enemy leaves: a simple drop adds one item, a
random drop applies one of its choices.

**Game rules and pathfinding.**
- Guards refuse player actions: interacting with cores, building on the
  floors enemies walk on, and `ubind` in logic code.
- The spawn search finds the nearest valid tile.
- The path-cost wrapper steers enemies onto their spawn floors. It sets bit
  30 of the packed tile word and charges 6000 extra off that path.

Every operation is a pure function or a short method over immutable data.
Collaborators the code calls but does not own become function-typed
parameters: the path lexer, the decoder service, Configurate's scalar
conversions, zlib, the logic assembler, the engine's tile packing and path
costs. Reflection becomes descriptor datatypes (`ClassInfo`, `RecordType`).
Randomness becomes a sequence of draws.

Modules, one per concern:
- `Wrappers`: `Option` and `Result`.
- `Nodes`: gestalt's node, path and error types.
- `World`: tiles, blocks and player actions.
- `YamlLoader`, `RecordDecoder`, `SealedDecoder`, `ContentDecoder` and
  `ConfigProvider`: the gestalt side.
- `Drops`.
- `PluginConfig` (the tower plugin's readers) and `MomoConfig`.
- `TowerLogic`, `Pathfinder` and `MomoPathfinder`.

## Model

| member | source | states |
|---|---|---|
| Nodes.ForKey | src/main/java/com/xpdustry/tower/SnakeYamlLoader.java:124-128 | the path of a key is the parent path followed by one key step per token, in order |
| Nodes.ForKeyAppend | src/main/java/com/xpdustry/tower/SnakeYamlLoader.java:124-128 | extending a path by two token groups in turn equals extending it by their concatenation |
| Nodes.NotLevel | src/main/java/com/xpdustry/tower/config/PatchedRecordDecoder.java:108 | the kept errors are exactly those of the input whose level differs from the filtered one, never more of them |
| World.SpawnFloors | src/main/java/com/xpdustry/tower/TowerPathfinder.java:67-74 | the collected set holds exactly the floors that carry a spawn overlay somewhere on the map |
| World.BlockIds | src/main/java/com/xpdustry/tower/TowerPathfinder.java:76-83 | the collected set holds exactly the ids of the configured blocks |
| YamlLoader.Tokens | src/main/java/com/xpdustry/tower/SnakeYamlLoader.java:124-125 | the key yields one token per token of the lexer, each the normalised form of that lexer token, in order |
| YamlLoader.Construct | src/main/java/com/xpdustry/tower/SnakeYamlLoader.java:92-155 | a node yields a result exactly when it is a scalar, sequence, mapping or an anchor to one; no result comes with at least one error; conversion throws only the `getFirst` exception of a converting value under a key with no tokens, so never with a lexer that tokenises every key |
| YamlLoader.ResolvedIndices | src/main/java/com/xpdustry/tower/SnakeYamlLoader.java:101-106 | the indices of the elements before `k` that convert, in increasing order, each once |
| YamlLoader.ConstructItems | src/main/java/com/xpdustry/tower/SnakeYamlLoader.java:94-109 | a sequence converts without throwing only when each element converts; a throw is the empty-key exception of some element; with a lexer that tokenises every key it never throws |
| YamlLoader.ConstructEntries | src/main/java/com/xpdustry/tower/SnakeYamlLoader.java:113-146 | the mapping loop throws only the empty-key exception, and never when every key tokenises; its branches are stated by the append lemmas below |
| YamlLoader.LoadSource | src/main/java/com/xpdustry/tower/SnakeYamlLoader.java:71-90 | a source without a stream and an empty document throw their own exceptions; otherwise the document converts, with a root exactly when the root node converts |
| YamlLoader.ScalarBecomesLeaf | src/main/java/com/xpdustry/tower/SnakeYamlLoader.java:147-149 | a scalar becomes a leaf with its text, error-free |
| YamlLoader.AnchorIsTransparent | src/main/java/com/xpdustry/tower/SnakeYamlLoader.java:110-112 | an anchor converts exactly as its target at the same path |
| YamlLoader.WrapDownIsNest | src/main/java/com/xpdustry/tower/SnakeYamlLoader.java:133-138 | the downward wrapping loop builds the nested map chain of the key's tokens after the first |
| YamlLoader.NestAppend | src/main/java/com/xpdustry/tower/SnakeYamlLoader.java:133-140 | nesting under a concatenation of tokens is nesting under the second part inside the first |
| YamlLoader.SequenceConvertsElementwise | src/main/java/com/xpdustry/tower/SnakeYamlLoader.java:94-109 | a converted sequence is an array holding, in order, the results of exactly the elements that convert; its errors are each element's errors followed by a no-results error at the index of every failing element; it is complete exactly when every element converts |
| YamlLoader.ItemsKeepResolvedElements | src/main/java/com/xpdustry/tower/SnakeYamlLoader.java:98-106 | the elements kept after `k` steps are the results of exactly the converting elements before `k`, in order |
| YamlLoader.ItemsReportEveryElement | src/main/java/com/xpdustry/tower/SnakeYamlLoader.java:98-106 | the errors after `k` steps are, element by element, its own errors followed by a no-results error at its index when it fails |
| YamlLoader.ItemsDependOnPrefix | src/main/java/com/xpdustry/tower/SnakeYamlLoader.java:98-106 | the elements converted so far depend only on the elements seen so far |
| YamlLoader.SequenceAppend | src/main/java/com/xpdustry/tower/SnakeYamlLoader.java:98-108 | appending an element appends its result and errors when it converts, keeps the array and adds its errors and a no-results error when it fails, and propagates its throw |
| YamlLoader.EntriesDependOnPrefix | src/main/java/com/xpdustry/tower/SnakeYamlLoader.java:117-142 | the entries processed so far depend only on the pairs seen so far |
| YamlLoader.NonScalarKeyIsSkipped | src/main/java/com/xpdustry/tower/SnakeYamlLoader.java:118-122 | a pair whose key is not a scalar leaves the map unchanged and adds one unknown-node-type error at the mapping's path |
| YamlLoader.LaterEntryReplacesEarlier | src/main/java/com/xpdustry/tower/SnakeYamlLoader.java:140 | a later key with the same first token replaces the earlier entry with the nested value of the later one |
| YamlLoader.FailingValueIsDropped | src/main/java/com/xpdustry/tower/SnakeYamlLoader.java:128-131 | a pair whose value fails leaves the map unchanged and adds the value's errors and a no-results error at the key's path |
| YamlLoader.EmptyKeyThrows | src/main/java/com/xpdustry/tower/SnakeYamlLoader.java:133-140 | a converting value under a key with no tokens makes the mapping throw at `getFirst` |
| YamlLoader.SingleEntry | src/main/java/com/xpdustry/tower/SnakeYamlLoader.java:124-145 | a one-pair mapping converts to one entry under the first token, holding the value nested under the remaining tokens, with the value's errors |
| YamlLoader.DottedKeyEqualsNestedMapping | src/main/java/com/xpdustry/tower/SnakeYamlLoader.java:124-145 | a compound key `a.b` and the nested mapping `a: {b: v}` load to the same tree and errors when the value converts |
| YamlLoader.DottedAndNestedDifferWhenValueFails | src/main/java/com/xpdustry/tower/SnakeYamlLoader.java:128-131 | when the value fails, the compound key `a.b` and the nested mapping report the same two errors at path `a.b`, but the compound key leaves no entry while the nested mapping keeps `a: {}` |
| RecordDecoder.Lower | src/main/java/com/xpdustry/tower/config/PatchedRecordDecoder.java:178 | lower-casing maps each ASCII capital to its small letter, keeps every other character, and leaves no ASCII capital |
| RecordDecoder.CanDecode | src/main/java/com/xpdustry/tower/config/PatchedRecordDecoder.java:68-70 | the decoder claims exactly the record types, whatever the path and node |
| RecordDecoder.ClaimedTargetDecodes | src/main/java/com/xpdustry/tower/config/PatchedRecordDecoder.java:68-77 | a claimed target is a record and stays claimed for every path and node; met with a node that is not a map, decoding it gives exactly the expected-leaf error and no value |
| RecordDecoder.ResolveAll | src/main/java/com/xpdustry/tower/config/PatchedRecordDecoder.java:86-162 | the component loop yields one value per component, in index order, each that component's own result, and an error list that is exactly the union of the components' errors |
| RecordDecoder.Decode | src/main/java/com/xpdustry/tower/config/PatchedRecordDecoder.java:73-173 | a non-map node is one expected-leaf error; otherwise the record is built exactly when no collected error is ERROR or MISSING_VALUE, the errors are the components' errors, and the record has one value per component, each that component's result |
| RecordDecoder.KeyIsConfigPathOrName | src/main/java/com/xpdustry/tower/config/PatchedRecordDecoder.java:90-100 | a component is looked up under its non-empty `@Config` path, else under its name |
| RecordDecoder.PresentChildDecides | src/main/java/com/xpdustry/tower/config/PatchedRecordDecoder.java:104-117 | a present child's decode gives the component its result, all that decode's errors are kept, and the `@Config` default plays no part |
| RecordDecoder.AbsentComponentTakesDefault | src/main/java/com/xpdustry/tower/config/PatchedRecordDecoder.java:119-132 | an absent component with a non-empty default that decodes gets the default, its errors and one optional-missing notice |
| RecordDecoder.AbsentComponentWithoutDefault | src/main/java/com/xpdustry/tower/config/PatchedRecordDecoder.java:133-146 | an absent component without a default is decoded from nothing; a result keeps its errors that are not MISSING_OPTIONAL_VALUE plus one notice, and no result drops them all |
| RecordDecoder.UnresolvedComponent | src/main/java/com/xpdustry/tower/config/PatchedRecordDecoder.java:149-161 | an unresolved component is null and adds a blocking no-results error unless an annotation is nullable, in which case it adds a non-blocking notice |
| RecordDecoder.LookupMissingValueErrorsDropped | src/main/java/com/xpdustry/tower/config/PatchedRecordDecoder.java:107-108 | a MISSING_VALUE error of the lookup is filtered out: it reaches the component's errors only if a later stage reports it again |
| RecordDecoder.NullableIgnoresCase | src/main/java/com/xpdustry/tower/config/PatchedRecordDecoder.java:175-179 | a component counts as nullable exactly when one of its annotation names contains a stretch that lower-cases to `nullable`, whatever its case |
| RecordDecoder.ContainsAt | src/main/java/com/xpdustry/tower/config/PatchedRecordDecoder.java:178 | `contains` holds exactly when the part occurs at some offset |
| RecordDecoder.LowerContainsIffSpelled | src/main/java/com/xpdustry/tower/config/PatchedRecordDecoder.java:178 | the lower-cased name contains a word exactly when some stretch of the name lower-cases to that word |
| RecordDecoder.NullableExamples | src/main/java/com/xpdustry/tower/config/PatchedRecordDecoder.java:175-179 | `NULLABLE` counts as nullable, while `NonNull` and `Config` do not |
| RecordDecoder.MissingRequiredComponentBlocksRecord | src/main/java/com/xpdustry/tower/config/PatchedRecordDecoder.java:149-170 | one unresolved non-nullable component means no record, and a no-results error at its path |
| RecordDecoder.RecordBuiltIffNoComponentBlocks | src/main/java/com/xpdustry/tower/config/PatchedRecordDecoder.java:164-172 | the record is built exactly when no component contributes a blocking error |
| RecordDecoder.OtherComponentsUnaffected | src/main/java/com/xpdustry/tower/config/PatchedRecordDecoder.java:86-162 | changing what one component finds leaves every other component's errors in the record's error list as they were |
| ContentDecoder.Capitalize | src/main/java/com/xpdustry/tower/MindustryContentDecoder.java:57 | `_` and `-` become spaces; the first character and each one after a separator are upper-cased, a small letter becoming its capital; every other character is kept; the result holds no separator and never starts with a small letter |
| ContentDecoder.Name | src/main/java/com/xpdustry/tower/MindustryContentDecoder.java:56-58 | the decoder's name is "Mindustry" followed by the capitalised content type |
| ContentDecoder.CapitalizeWithoutSeparators | src/main/java/com/xpdustry/tower/MindustryContentDecoder.java:57 | a name without separators only has its first letter upper-cased |
| ContentDecoder.CapitalizeInjective | src/main/java/com/xpdustry/tower/MindustryContentDecoder.java:57 | capitalising is one-to-one on names without `_` or `-` that do not start with a capital |
| ContentDecoder.NamesAreDistinct | src/main/java/com/xpdustry/tower/MindustryContentDecoder.java:56-58 | two different content types without `_` or `-` that do not start with a capital, such as `item`, `block` and `unit`, give decoders with different names |
| ContentDecoder.SeparatorsMerge | src/main/java/com/xpdustry/tower/MindustryContentDecoder.java:56-58 | `a_b` and `a-b` give the same decoder name "MindustryA B", and `mech_UNUSED` capitalises to "Mech UNUSED" |
| ContentDecoder.CanDecode | src/main/java/com/xpdustry/tower/MindustryContentDecoder.java:61-63 | a target is claimed exactly when the content class is assignable from it, so the content class itself is claimed when the relation is reflexive |
| ContentDecoder.CanDecodeIgnoresPathAndNode | src/main/java/com/xpdustry/tower/MindustryContentDecoder.java:61-63 | the claim is the same for every path and node: only the target type decides it |
| ContentDecoder.LeafDecode | src/main/java/com/xpdustry/tower/MindustryContentDecoder.java:67-74 | a leaf decodes exactly when its text, or "" without one, names registered content; success carries no error, failure one ERROR-level error |
| ContentDecoder.DecodeEncode | src/main/java/com/xpdustry/tower/TowerConfigProvider.java:155-162 | every registered content decodes back to itself from its name, with no errors |
| ContentDecoder.DecodedIsNamedContent | src/main/java/com/xpdustry/tower/MindustryContentDecoder.java:67-74 | decoded content is the registry's entry for the leaf's text and carries that name |
| ContentDecoder.UnknownNameIsReported | src/main/java/com/xpdustry/tower/MindustryContentDecoder.java:70-72 | an unregistered name is one unknown-content error at the path carrying the name, and it blocks the record |
| ContentDecoder.MissingValueLooksUpEmptyName | src/main/java/com/xpdustry/tower/MindustryContentDecoder.java:68 | a leaf without text is looked up as the empty name |
| SealedDecoder.TableWith | src/main/java/com/xpdustry/tower/SealedConfigDecoder.java:109-129 | a built table satisfies the variant invariants and maps each variant's annotated name to that variant |
| SealedDecoder.TableHoldsOnlyVariants | src/main/java/com/xpdustry/tower/SealedConfigDecoder.java:109-129 | a built table's keys are exactly the variants' annotated names |
| SealedDecoder.TableFailureNamesFaultyVariant | src/main/java/com/xpdustry/tower/SealedConfigDecoder.java:112-126 | a refusal names a variant that lacks the annotation, has a blank or repeated name, or has a conflicting `type` field |
| SealedDecoder.TableWithSucceeds | src/main/java/com/xpdustry/tower/SealedConfigDecoder.java:109-129 | the table builds exactly when all variants are annotated, non-blank, distinctly named and free of a `type` field |
| SealedDecoder.TableFor | src/main/java/com/xpdustry/tower/SealedConfigDecoder.java:109-129 | under the given `type` check, the table builds exactly when the variants are valid; its keys are the variants' names, each mapped to its variant, and no variant in it conflicts |
| SealedDecoder.TableAsWritten | src/main/java/com/xpdustry/tower/SealedConfigDecoder.java:109-129 | the table as written builds exactly when the variants are valid under the public-field check, and no variant in it has a public `type` field |
| SealedDecoder.Table | src/main/java/com/xpdustry/tower/SealedConfigDecoder.java:109-129 | the corrected table: it builds exactly when the variants are valid, with a field named `type` refused whatever its visibility; its keys are the variants' names, each mapped to its variant, and no variant in it has a `type` field |
| SealedDecoder.CanDecode | src/main/java/com/xpdustry/tower/SealedConfigDecoder.java:56-74 | under either `type` check: only a sealed, annotated type with a map node is claimed; a claimed type never answers false but throws instead; it is accepted exactly when its table builds and the default is a non-blank variant name; a table refusal and a blank default throw their own errors |
| SealedDecoder.Decode | src/main/java/com/xpdustry/tower/SealedConfigDecoder.java:78-106 | under either `type` check, the result is some variant's decoding of the whole node or a single invalid-type error |
| SealedDecoder.MissingTypeSelectsDefault | src/main/java/com/xpdustry/tower/SealedConfigDecoder.java:89-92 | under either `type` check, without a `type` key the whole node is decoded as the default variant |
| SealedDecoder.TypeWithoutValueIsInvalid | src/main/java/com/xpdustry/tower/SealedConfigDecoder.java:94-97 | under either `type` check, a `type` key without a value is one invalid-type error with the empty value |
| SealedDecoder.UnknownTypeIsInvalid | src/main/java/com/xpdustry/tower/SealedConfigDecoder.java:98-101 | under either `type` check, a `type` naming no variant is one ERROR-level invalid-type error with that value and no result |
| SealedDecoder.KnownTypeDelegatesWholeNode | src/main/java/com/xpdustry/tower/SealedConfigDecoder.java:98-105 | under either `type` check, a `type` naming a variant hands the unchanged node, `type` key included, to that variant's decoder |
| SealedDecoder.ResolverErrorsBlock | src/main/java/com/xpdustry/tower/SealedConfigDecoder.java:78-106 | under either `type` check, a result always comes from one of the variants; otherwise the decoder's own error is ERROR level |
| SealedDecoder.TableRoundTrip | src/main/java/com/xpdustry/tower/SealedConfigDecoder.java:109-129 | a name is in the table exactly when it is some variant's annotated name, and it maps back to a variant with that name |
| SealedDecoder.PrivateTypeFieldSlipsThrough | src/main/java/com/xpdustry/tower/SealedConfigDecoder.java:122-126 | a sealed type whose one variant is a record with a component `type` (a private field) is accepted by the table and `canDecode` as written, but refused by the corrected table and the corrected `canDecode` |
| ConfigProvider.GetConfig | src/main/java/com/xpdustry/tower/TowerConfigProvider.java:106-126 | the configuration is produced exactly when the root result exists and no error is ERROR or MISSING_VALUE, and it is that result |
| ConfigProvider.Reload | src/main/java/com/xpdustry/tower/TowerConfigProvider.java:92-128 | the file exists afterwards if it did or the resource was present; a reload throws exactly when the file cannot be made or gestalt refuses; success stores the configuration and posts one event; a throw leaves configuration and events as they were |
| ConfigProvider.OnPluginInit | src/main/java/com/xpdustry/tower/TowerConfigProvider.java:66-73 | start-up succeeds exactly when the reload does, then holds a configuration and one more event; a failure wraps the reload's exception |
| ConfigProvider.TdReload | src/main/java/com/xpdustry/tower/TowerConfigProvider.java:77-84 | the command appends exactly one log line, the "reloaded" info line exactly when the reload succeeded and the error line otherwise, and a failed reload keeps the old configuration |
| ConfigProvider.Get | src/main/java/com/xpdustry/tower/TowerConfigProvider.java:87-90 | `get` yields a configuration exactly when one is stored |
| ConfigProvider.DiscretionaryErrorsTolerated | src/main/java/com/xpdustry/tower/TowerConfigProvider.java:106 | MISSING_OPTIONAL_VALUE errors alone never reject a configuration |
| ConfigProvider.GetAfterInit | src/main/java/com/xpdustry/tower/TowerConfigProvider.java:66-90 | after a successful start-up, `get` returns the configuration that the load decoded and `getConfig` accepted |
| ConfigProvider.GetAfterTdReload | src/main/java/com/xpdustry/tower/TowerConfigProvider.java:77-90 | after a successful `td-reload`, `get` returns the configuration that reload accepted; after a failed one, what it returned before |
| ConfigProvider.ReloadsKeepLastGoodConfig | src/main/java/com/xpdustry/tower/TowerConfigProvider.java:77-128 | over any run of `td-reload` commands the stored configuration is that of the last accepted attempt, one event is posted per accepted attempt, and one log line is written per command |
| Drops.MakeSimple | src/main/java/com/xpdustry/tower/TowerDrop.java:40-42 | a simple drop is built exactly when the amount is at least one, and otherwise the amount is reported |
| Drops.MakeRandom | src/main/java/com/xpdustry/tower/TowerDrop.java:55-60 | a random drop is built exactly when its list is non-empty, keeping the list in order |
| Drops.MakeRandomPreservesWellFormed | src/main/java/com/xpdustry/tower/TowerDrop.java:50-60 | a random drop built from well-formed drops is well-formed |
| Drops.Add | src/main/java/com/xpdustry/tower/TowerDrop.java:45-47 | adding changes the count of that item by the amount and no other count |
| Drops.LeavesArePositive | src/main/java/com/xpdustry/tower/TowerDrop.java:40-42 | every simple drop reachable inside a well-formed drop has an amount of at least one |
| Drops.Apply | src/main/java/com/xpdustry/tower/TowerDrop.java:44-47 | applying a well-formed drop never lowers the amount of any item |
| Drops.ApplyAddsOneLeaf | src/main/java/com/xpdustry/tower/TowerDrop.java:44-65 | applying a drop adds exactly one of its simple leaves, whatever is drawn |
| Drops.ApplyDependsOnLaterDraws | src/main/java/com/xpdustry/tower/TowerDrop.java:62-65 | the result depends only on the draws from the current call on |
| Drops.ReachableThroughChoice | src/main/java/com/xpdustry/tower/TowerDrop.java:62-65 | what a random drop's chosen element can reach, the random drop can reach |
| Drops.LeafReachable | src/main/java/com/xpdustry/tower/TowerDrop.java:44-65 | every leaf of a drop is added under some sequence of draws |
| Drops.EveryLeafReachable | src/main/java/com/xpdustry/momo/tower/TowerDrop.java:42-62 | every leaf of a drop is added under some sequence of draws, so no choice is dead |
| Drops.DropGainsOneItem | src/main/java/com/xpdustry/momo/tower/TowerDrop.java:42-62 | a drop raises one item's count by at least one and changes no other |
| Drops.DropTypeIsDecodable | src/main/java/com/xpdustry/tower/TowerDrop.java:32-51 | under either `type` check, the drop interface is accepted for every map node, and its table maps "simple" and "random" to the two records |
| PluginConfig.GetFloat | src/main/java/com/xpdustry/tower/TowerPlugin.java:170 | an absent or null node reads as the default; a present value reads as its float conversion, or the default when it does not convert |
| PluginConfig.GetBool | src/main/java/com/xpdustry/tower/TowerPlugin.java:171-173 | an absent or null node reads as the default; a present value reads as its boolean conversion, or the default when it does not convert |
| PluginConfig.ConstructorError | src/main/java/com/xpdustry/tower/TowerPlugin.java:189-194 | a constructor's refusal passes through as the reader's exception, its success unchanged |
| PluginConfig.ParseSimple | src/main/java/com/xpdustry/tower/TowerPlugin.java:182-190 | a simple drop reads exactly when the item names a registered item, the amount node exists and its amount is at least one; the drop holds that item and amount |
| PluginConfig.ParseDrop | src/main/java/com/xpdustry/tower/TowerPlugin.java:179-198 | every drop read is well-formed; any type but "simple" and "random" is refused with that type; a random drop reads exactly when `items` is non-empty and every element reads, and holds each element's own drop in order |
| PluginConfig.ParseItemsUpTo | src/main/java/com/xpdustry/tower/TowerPlugin.java:192-194 | a successful list has one drop per element, each that element's reading; a failure is the failure of the first element that does not read |
| PluginConfig.ParseDropList | src/main/java/com/xpdustry/tower/TowerPlugin.java:154-156 | a list reads exactly when every element does, one well-formed drop per element, in order |
| PluginConfig.ListReadsAreWellFormed | src/main/java/com/xpdustry/tower/TowerPlugin.java:154-156 | every drop of a list that reads is well-formed |
| PluginConfig.ParseEncodeDrop | src/main/java/com/xpdustry/tower/TowerPlugin.java:179-198 | writing a well-formed drop of registered items as YAML and reading it back gives the drop |
| PluginConfig.TypeDefaultsToSimple | src/main/java/com/xpdustry/tower/TowerPlugin.java:180 | a drop without `type` reads exactly like the same drop with `type: simple` |
| PluginConfig.RandomWithoutItemsRefused | src/main/java/com/xpdustry/tower/TowerPlugin.java:191-194 | a random drop with no items is refused by the constructor's empty-list check |
| PluginConfig.ReadEntries | src/main/java/com/xpdustry/tower/TowerPlugin.java:148-167 | a map reads exactly when every entry does, under the same keys with each entry's value; a failure names exactly the failing keys |
| PluginConfig.SplitDropName | src/main/java/com/xpdustry/tower/TowerPlugin.java:204-209 | a name splits exactly when it holds an underscore, into the underscore-free text before the first one and the rest |
| PluginConfig.SplitJoinDropName | src/main/java/com/xpdustry/tower/TowerPlugin.java:204-209 | splitting `category_tier` gives back the category and the tier when the category has no underscore |
| PluginConfig.ParseUnit | src/main/java/com/xpdustry/tower/TowerPlugin.java:200-230 | a unit reads exactly when its drop name splits into a known category and tier and any downgrade names a unit; it holds that tier's list and that unit |
| PluginConfig.UnitGetsNamedTier | src/main/java/com/xpdustry/tower/TowerPlugin.java:200-219 | a unit naming `category_tier` gets that tier's drop list |
| PluginConfig.DropNameNeedsUnderscore | src/main/java/com/xpdustry/tower/TowerPlugin.java:204-207 | a drop name without an underscore is refused with that name |
| PluginConfig.ParseBlocks | src/main/java/com/xpdustry/tower/TowerPlugin.java:141-146 | a null node gives no list; otherwise the list reads exactly when every element names a block, one block per element, in order |
| PluginConfig.LookupBlocks | src/main/java/com/xpdustry/tower/TowerPlugin.java:142-146 | the names look up exactly when every one names a block, in order; a failure is an unknown block |
| PluginConfig.TowerLoad | src/main/java/com/xpdustry/tower/TowerPlugin.java:139-177 | a load succeeds exactly when the block names are known, every drop list reads and every unit key names a unit whose entry reads against the drop table; it then holds the four settings with their defaults, the block list, the drop table and, per unit key, that entry's unit |
| PluginConfig.EmptyConfigurationDefaults | src/main/java/com/xpdustry/tower/TowerPlugin.java:169-176 | an empty file gives health multiplier 1.03, mitosis and downgrade on, unit binding off, no block list, no drops and no units |
| PluginConfig.UnknownUnitFailsLoad | src/main/java/com/xpdustry/tower/TowerPlugin.java:160-167 | a unit key that names no unit makes the load fail |
| PluginConfig.ReadTiers | src/main/java/com/xpdustry/tower/TowerPlugin.java:151-157 | a category's tiers read exactly when every tier's list reads, under the same tier keys, each tier holding its list's drops |
| PluginConfig.ReadDropTable | src/main/java/com/xpdustry/tower/TowerPlugin.java:148-158 | the drop table is built exactly when every list reads, with the categories and tiers of the file and each list's drops |
| PluginConfig.ReadUnit | src/main/java/com/xpdustry/tower/TowerPlugin.java:160-167 | a unit entry reads exactly when its key names a unit and its value parses; an unknown key is refused with its name |
| PluginConfig.LoadedDropsAreWellFormed | src/main/java/com/xpdustry/tower/TowerPlugin.java:148-158 | every drop in a loaded drop table is well-formed |
| PluginConfig.UnitDropsComeFromTable | src/main/java/com/xpdustry/tower/TowerPlugin.java:160-167 | each loaded unit's drop list is the loaded table's list for the category and tier its drop name gives |
| MomoConfig.ParseUnit | src/main/java/com/xpdustry/momo/MoMoPlugin.java:149-154 | a unit reads exactly when its drop text is a bundle name, and gets that bundle; a missing drop field is its own error |
| MomoConfig.UnitGetsNamedBundle | src/main/java/com/xpdustry/momo/MoMoPlugin.java:149-154 | a unit naming a bundle gets that bundle |
| MomoConfig.ParseGameMode | src/main/java/com/xpdustry/momo/MoMoPlugin.java:114-123 | an absent mode is no mode; the tower-defense mode results exactly from the text "tower-defense"; a present entry never reads as no mode |
| MomoConfig.OtherGameModeRefused | src/main/java/com/xpdustry/momo/MoMoPlugin.java:119-121 | any other mode text is refused with that text |
| MomoConfig.IsActive | src/main/java/com/xpdustry/momo/MoMoPlugin.java:76-78 | no mode is active when none is configured |
| MomoConfig.ReadUnits | src/main/java/com/xpdustry/momo/MoMoPlugin.java:102-110 | the units read exactly when every key names a unit and every entry's drop names a bundle; they keep the keys, and each unit gets its named bundle |
| MomoConfig.ReadUnit | src/main/java/com/xpdustry/momo/MoMoPlugin.java:102-109 | a unit entry reads exactly when its key names a unit and its value parses; an unknown key is refused with its name |
| MomoConfig.ReadBundles | src/main/java/com/xpdustry/momo/MoMoPlugin.java:97-101 | the bundles read exactly when every bundle's list reads, under the same keys, each holding its list's drops |
| MomoConfig.MomoLoad | src/main/java/com/xpdustry/momo/MoMoPlugin.java:84-126 | a load succeeds exactly when every bundle reads, every unit key names a unit whose drop names a bundle, and the game mode reads; it holds that bundle table, those units and that mode |
| MomoConfig.UnitDropsComeFromBundles | src/main/java/com/xpdustry/momo/MoMoPlugin.java:97-110 | each loaded unit names a unit, and its drop is the loaded bundle its drop text names, which is that bundle's list as read |
| MomoConfig.GameModeGatesTowerDefense | src/main/java/com/xpdustry/momo/MoMoPlugin.java:76-78 | tower defense is active exactly when the file says "tower-defense", so never without a `game-mode` entry |
| Pathfinder.Wrap32 | src/main/java/com/xpdustry/tower/TowerPathfinder.java:121 | Java's `int` sum: the exact value inside the 32-bit range, and always congruent to it modulo 2^32 |
| Pathfinder.GetCost | src/main/java/com/xpdustry/tower/TowerPathfinder.java:115-125 | the wave team pays the 32-bit sum of the inner cost and 6000 on a passable tile without bit 30; everything else pays the inner cost |
| Pathfinder.CostChangesOnlyByTheSurcharge | src/main/java/com/xpdustry/tower/TowerPathfinder.java:118-124 | away from overflow the cost is the inner cost or exactly 6000 more, the latter exactly off path for the wave team; impassable stays impassable, other teams are never charged |
| Pathfinder.SurchargeWrapsNearMaxInt | src/main/java/com/xpdustry/tower/TowerPathfinder.java:120-121 | an inner cost above `MAX_INT - 6000` wraps to a negative, impassable cost |
| Pathfinder.SetPassableBitIf | src/main/java/com/xpdustry/tower/TowerPathfinder.java:110 | the other 31 bits are kept, and bit 30 ends up set exactly when it was or the condition holds |
| Pathfinder.PackTile | src/main/java/com/xpdustry/tower/TowerPathfinder.java:106-113 | bit 30 ends up set exactly when the engine set it or the floor is a spawn floor without a static block; other bits unchanged |
| Pathfinder.SurchargeExactlyOffSpawnFloors | src/main/java/com/xpdustry/tower/TowerPathfinder.java:106-124 | the wave team is charged 6000 extra on a packed tile exactly when it is not a spawn floor free of static blocks |
| Pathfinder.OnGenericLoad | src/main/java/com/xpdustry/tower/TowerPathfinder.java:67-74 | after a load the passable floors are exactly the new map's spawn floors |
| Pathfinder.UpdateConfiguration | src/main/java/com/xpdustry/tower/TowerPathfinder.java:76-83 | the whitelist becomes exactly the configured blocks' ids |
| Pathfinder.GuardedBlock | src/main/java/com/xpdustry/tower/TowerPathfinder.java:87-90 | a block is considered exactly for placements and payload drops: the action's block first, air for a unit payload |
| Pathfinder.PassableFloorGuard | src/main/java/com/xpdustry/tower/TowerPathfinder.java:85-104 | actions placing nothing, whitelisted blocks and blocks covering no passable floor are allowed |
| Pathfinder.PassableFloorGuardRefusals | src/main/java/com/xpdustry/tower/TowerPathfinder.java:85-104 | the guard refuses exactly a non-whitelisted, non-air block whose footprint covers a passable floor |
| Pathfinder.GuardsAgree | src/main/java/com/xpdustry/tower/TowerPathfinder.java:85-104 | the pathfinder's guard decides like the game logic's unless a payload drop also names a block |
| Pathfinder.SpawnFloorsAreProtected | src/main/java/com/xpdustry/tower/TowerPathfinder.java:67-104 | after a load, a non-whitelisted block covering any spawn floor is refused |
| MomoPathfinder.GetCost | src/main/java/com/xpdustry/momo/tower/TowerPathfinder.java:52-64 | with the mode off the inner cost; with it on the tower plugin's surcharge rule |
| MomoPathfinder.CostIsTowerCostWhileActive | src/main/java/com/xpdustry/momo/tower/TowerPathfinder.java:52-64 | with the mode on the cost equals the tower plugin's wrapper; off, the inner cost |
| MomoPathfinder.PackTile | src/main/java/com/xpdustry/momo/tower/TowerPathfinder.java:97-104 | with the mode off the engine's word; on, bit 30 also set on every spawn floor, other bits unchanged |
| MomoPathfinder.PackingComparedWithTower | src/main/java/com/xpdustry/momo/tower/TowerPathfinder.java:97-104 | the packings agree without a static block; under one, MoMo marks the floor and the tower plugin does not |
| MomoPathfinder.OnGenericLoad | src/main/java/com/xpdustry/momo/tower/TowerPathfinder.java:78-88 | with the mode on the floors become the old ones plus the new map's spawn floors; off, none |
| MomoPathfinder.Guard | src/main/java/com/xpdustry/momo/tower/TowerPathfinder.java:90-95 | with the mode off, for anything but a placement, and off passable floors, the action is allowed |
| MomoPathfinder.GuardRefusals | src/main/java/com/xpdustry/momo/tower/TowerPathfinder.java:90-95 | the guard refuses exactly a placement on a passable floor with the mode on; payload drops always pass |
| MomoPathfinder.TwoLoadsAccumulate | src/main/java/com/xpdustry/momo/tower/TowerPathfinder.java:78-95 | with the mode on, two loads keep the old floors and protect the spawn floors of both maps |
| TowerLogic.RingMembership | src/main/java/com/xpdustry/tower/TowerLogic.java:321-341 | ring r of the search visits exactly the offsets at Chebyshev distance r |
| TowerLogic.RingSize | src/main/java/com/xpdustry/tower/TowerLogic.java:322-341 | ring r visits 8r offsets |
| TowerLogic.RingNoDuplicates | src/main/java/com/xpdustry/tower/TowerLogic.java:322-341 | no offset of a ring is visited twice |
| TowerLogic.ScanOffsets | src/main/java/com/xpdustry/tower/TowerLogic.java:323-339 | a hit is the first valid tile among the offsets tried; a miss means none of them is valid |
| TowerLogic.RingStepHit | src/main/java/com/xpdustry/tower/TowerLogic.java:322-341 | a valid tile found in one step, after invalid earlier steps, is the first valid tile of the ring |
| TowerLogic.RingStepMiss | src/main/java/com/xpdustry/tower/TowerLogic.java:322-341 | a step without a valid tile extends the ring's invalid prefix over that step |
| TowerLogic.ScanRing | src/main/java/com/xpdustry/tower/TowerLogic.java:322-341 | one ring yields its first valid tile in visiting order, or none is valid |
| TowerLogic.FoundInRing | src/main/java/com/xpdustry/tower/TowerLogic.java:321-341 | the first valid tile of a ring, after inner rings held none, is a correct search result |
| TowerLogic.FindNearestValidSpawn | src/main/java/com/xpdustry/tower/TowerLogic.java:316-351 | the result is the origin if valid; else a valid tile at the least distance up to 4, first in visiting order; else the origin when nothing within 4 is valid |
| TowerLogic.HasNoNearbyCore | src/main/java/com/xpdustry/tower/TowerLogic.java:295-313 | allowed exactly when no core or core-linked storage lies in the block's footprint widened by one tile |
| TowerLogic.OnCoreBuildInteract | src/main/java/com/xpdustry/tower/TowerLogic.java:140-149 | deposits and withdrawals are refused exactly at a core; placements and block payloads exactly near one; everything else is allowed |
| TowerLogic.PlacedBlock | src/main/java/com/xpdustry/tower/TowerLogic.java:153-158 | a block is considered exactly for placements and payload drops |
| TowerLogic.FloorGuard | src/main/java/com/xpdustry/tower/TowerLogic.java:152-173 | actions placing nothing, whitelisted blocks and air are allowed; other blocks are refused exactly when their footprint covers a passable floor |
| TowerLogic.OnConfigUpdate | src/main/java/com/xpdustry/tower/TowerLogic.java:119-124 | the whitelist becomes exactly the configured blocks' ids |
| TowerLogic.ReadInt | src/main/java/com/xpdustry/tower/TowerLogic.java:198 | four bytes are read exactly when available, as the big-endian 32-bit two's-complement value: congruent to the unsigned value modulo 2^32, negative exactly when the first byte is 0x80 or more |
| TowerLogic.ParseLogicData | src/main/java/com/xpdustry/tower/TowerLogic.java:192-213 | version 0 is an I/O failure; a negative length is reported exactly when the header declares one; code is parsed exactly when the version is not 0, the declared length is between 0 and 102400, the link count follows the code and every link reads; parsed code is the declared number of bytes after the header |
| TowerLogic.ReadIntBytes | src/main/java/com/xpdustry/tower/TowerLogic.java:198 | the four big-endian bytes of a 32-bit value read back as that value wherever they sit |
| TowerLogic.ParseEncodeLogicData | src/main/java/com/xpdustry/tower/TowerLogic.java:192-211 | a header with a non-zero version and a length of at most 102400, followed by the code and no links, parses to that code |
| TowerLogic.ConfiguredBlock | src/main/java/com/xpdustry/tower/TowerLogic.java:177-184 | a block is inspected exactly for placements and configurations |
| TowerLogic.UBindGuard | src/main/java/com/xpdustry/tower/TowerLogic.java:176-236 | the corrected guard: exempt actions pass, and a payload is refused exactly when it inflates, parses and assembles to code containing `ubind` |
| TowerLogic.UBindGuardAsWritten | src/main/java/com/xpdustry/tower/TowerLogic.java:176-236 | the guard as written: exempt actions pass, and a payload is refused exactly when it inflates, parses and assembles to code containing `ubind` |
| TowerLogic.MalformedHeaderAllowed | src/main/java/com/xpdustry/tower/TowerLogic.java:193-201 | version 0 and over-long code are allowed without assembling, both as written and corrected |
| TowerLogic.GuardsAgreeElsewhere | src/main/java/com/xpdustry/tower/TowerLogic.java:192-235 | the guard as written throws exactly on a negative declared length, and otherwise agrees with the corrected guard |
| TowerLogic.NegativeLengthEscapes | src/main/java/com/xpdustry/tower/TowerLogic.java:198-204 | a concrete placement declaring length -1 makes the handler as written throw, while the corrected guard allows it |

## Left out

- The gestalt library itself is not part of this model: the builder, the
  environment-variable source and loader, the source overlay, the path
  mapper and the other decoders. They appear only through the collaborator
  parameters.
- The validation levels of gestalt's own error classes come from the
  library, which is not part of this model. The model assumes these
  levels:
  - ERROR for unknown node types and expected-leaf errors;
  - MISSING_VALUE for the no-results errors;
  - MISSING_OPTIONAL_VALUE for the optional-missing notices.
- SnakeYAML's parser and composer, and the stream and reader handling of
  `loadSource`, are not modelled. The composed tree is the input, and an
  I/O exception is not modelled as a separate case.
- Java reflection is replaced by descriptors: record components with
  their annotations and sealed classes with their permitted subclasses and
  fields. The canonical constructor call is the list of component values.
- RecordDecoder.Decode: the record's own constructor checks are not run,
  so the decoded record is built from any component values. The
  constructor call (PatchedRecordDecoder.java:172) throws when a compact
  constructor refuses its values, as `TowerDrop.Simple` does for an amount
  below one (TowerDrop.java:40-42) and `TowerDrop.Random` for an empty
  list (TowerDrop.java:55-60). So `amount: 0` decodes to a record here,
  where the program throws. `Drops.MakeSimple` and `Drops.MakeRandom`
  state those checks on their own.
- SealedDecoder.Decode: requires that `CanDecode` accepted the type, as
  gestalt's decoder service guarantees before it calls `decode`.
- `HashMap` iteration order is unspecified. Where Java stops at the first
  failing entry, `PluginConfig.ReadEntries` reports the set of every
  failing key.
- PluginConfig.TowerLoad: map keys are modelled as strings, so two YAML
  keys that are different values but print the same (`1:` and `"1":`
  under `drops` or under a category) are one key here. The plugin turns
  each key into a string with `toString()` (TowerPlugin.java:150, 153) and
  `Collectors.toUnmodifiableMap` then throws `IllegalStateException` on the
  duplicate; the model does not show that throw.
- MomoConfig.MomoLoad: the same holds for the bundle keys under `drops`
  (MoMoPlugin.java:99); a clash of printed keys throws there and is not
  shown here.
- The file bootstrap is reduced to one flag: `config.yaml` is copied from
  the bundled resource when absent. The paths and the streams are left
  out.
- Randomness is a sequence of draws, `java.util.Random` is not modelled,
  and a draw is taken modulo the list's size.
- Floating point is left out. The health multiplier is a `real`, and the
  compounding in `onEnemyHealthMultiply` is not modelled.
- `ItemSeq.add` uses unbounded integers, so a 32-bit overflow of an item
  count is not modelled.
- Configurate's scalar conversions (`getInt`, `getFloat`, `getBoolean`)
  are parameters.
- Zlib inflation, `readUTF`'s name check and `LAssembler` are parameters
  of `TowerLogic.UBindGuard`. `InflaterInputStream` inflates lazily, so the
  inflation parameter yields the bytes the stream delivers before it
  fails, and the header is read from those. So is the engine's `getLinkedTilesAs`
  footprint, for the floor guards.
- Chat labels, rate-limited warnings, logging detail, `Call.*` and the
  event bus are side effects without a bearing on the decisions, so they
  are left out. A reload event is counted.
- `onUnitDeath`, mitosis, the downgrade spawn, `onUnitSpawn`, `onGameStart`,
  `onPlayerQuit` and `onEnemyHealthMultiply` are not modelled. They act on
  live units and the game state, not on the modelled data.
- `onServerLoadEvent`'s replacement of every path cost type is not
  modelled. Each wrapper is modelled one cost at a time.
- `toLowerCase(Locale.ROOT)` and the `Character.toUpperCase` inside
  `Strings.capitalize` are modelled on ASCII letters only.
- ContentDecoder.Capitalize: arc's `Strings` is not part of this model.
  The member follows its published rule: `_` and `-` become spaces, and
  the first character and each character after a separator are
  upper-cased. A decoder is registered for every content type key
  (TowerConfigProvider.java:120-122), so content types whose names differ
  only in their separators share a decoder name
  (`ContentDecoder.SeparatorsMerge`). The types the configuration reads,
  `item`, `block` and `unit`, have no separator.
- The nested copies of the content decoder and the sealed decoder inside
  `TowerConfigProvider` are identical in behaviour. They are modelled by
  the same members.
- Both `TowerDrop` files share one model, `Drops`. They differ only in
  the random record's component name and in the MoMo copy lacking the
  annotations.
- The choice of a decoder by priority is left out: it belongs to gestalt's
  decoder service. The priority value itself is defined, as
  `ContentDecoder.ContentPriority`, and so are the decoders' names
  (`ContentDecoder.Name`, `RecordDecoder.DecoderName`,
  `SealedDecoder.DecoderName`).
- YamlLoader.Accepts: the test for the formats "yml" and "yaml"
  (SnakeYamlLoader.java:66-68) is a definition that needs no proof; which
  loader gestalt picks for a file belongs to gestalt.
- MoMo's `MoGameMode` is restricted to `TOWER_DEFENSE`, the only mode
  `load` can produce.
- Content is identified by name. The numeric content ids of the engine
  are written as names.
- Pathfinder.CostChangesOnlyByTheSurcharge: requires an inner cost of at
  most `MAX_INT - 6000`. Above that bound the sum wraps, which
  `Pathfinder.SurchargeWrapsNearMaxInt` states separately.

## Findings

| source | as written | input that shows it | evidently intended | confidence | as-written member | corrected member |
|---|---|---|---|---|---|---|
| src/main/java/com/xpdustry/tower/SealedConfigDecoder.java:122-126 | the conflict check uses `getField("type")`, which sees public fields only; `canDecode` and `decode` are stated for both checks, the public-only one being the code as written | a record variant with a component named `type`, whose field is private | a variant with any field named `type`, which would clash with the discriminator key, is refused | medium, not executed | SealedDecoder.PrivateTypeFieldSlipsThrough | SealedDecoder.Table |
| src/main/java/com/xpdustry/tower/TowerLogic.java:198-204 | `new byte[length]` with a negative length throws `NegativeArraySizeException`, which the `catch (IOException)` does not catch | an inflated payload `01 FF FF FF FF` (version 1, length -1) on a placed logic processor | a malformed payload is allowed like any other unreadable one | high, not executed | TowerLogic.NegativeLengthEscapes | TowerLogic.UBindGuard |

=== FILE: config_provider.dfy ===
/** `TowerConfigProvider`: owns the current configuration. A reload copies
    the bundled `config.yaml` into the plugin directory when none is there,
    runs gestalt over it, and on success stores the result and posts one
    reload event. The first load at start-up is fatal when it fails; a
    `td-reload` command only logs its failure and keeps the old
    configuration. */
module ConfigProvider {
  import opened Wrappers
  import opened Nodes

  const ConfigFileName: string := "config.yaml"
  const BundledResource: string := "com/xpdustry/tower/config.yaml"
  const EnvironmentPrefix: string := "XP_TOWER_DEFENSE"
  const ReloadCommand: string := "td-reload"

  /** The builder turns this gestalt option off: MISSING_OPTIONAL_VALUE
      errors never make `getConfig` fail. */
  const TreatMissingDiscretionaryValuesAsErrors: bool := false

  const ReloadedMessage: string := "TD configuration reloaded!"
  const ReloadFailedMessage: string := "Failed to reload TD configuration!"

  datatype LogLine = Info(message: string) | LogError(message: string)

  /** What a reload can throw. */
  datatype ReloadError =
    | MissingBundledResource       // `requireNonNull` on the resource stream
    | LoadFailed                   // `loadConfigs` threw (unreadable file, bad YAML...)
    | DecodeFailed(errors: seq<ValidationError>)   // `getConfig` refused the result

  /** `onPluginInit` wraps any failure in "Failed to load TD config". */
  datatype InitError = FailedToLoad(cause: ReloadError)

  /** What gestalt gives for one reload: either loading threw, or the root
      decode produced this result. Both come from code outside the model. */
  datatype Attempt<C> = LoadThrew | Decoded(result: GResult<C>)

  /** The provider's field, the reload events posted so far, the plugin
      log, and whether `config.yaml` exists in the plugin directory. */
  datatype Provider<C> = Provider(config: Option<C>, events: nat, log: seq<LogLine>, fileExists: bool)

  /** A reload's new state and the exception it threw, if any. */
  datatype Step<C> = Step(state: Provider<C>, thrown: Option<ReloadError>)

  /** An error `getConfig` does not tolerate: ERROR and MISSING_VALUE, and
      MISSING_OPTIONAL_VALUE only when the discretionary option is on. */
  predicate FailsConfig(e: ValidationError) {
    || Blocking(e)
    || (TreatMissingDiscretionaryValuesAsErrors && e.Severity() == MissingOptionalValue)
  }

  /** gestalt's `getConfig` on the root result: a value with no error it
      must fail on is returned, anything else throws. */
  function GetConfig<C>(g: GResult<C>): (r: Result<C, ReloadError>)
    ensures r.Success? <==> g.result.Some? && !AnyBlocking(g.errors)
    ensures r.Success? ==> r.value == g.result.value
  {
    if g.result.Some? && (forall e :: e in g.errors ==> !FailsConfig(e)) then Success(g.result.value)
    else Failure(DecodeFailed(g.errors))
  }

  /** `reload`: the file copy happens first and persists even if what
      follows throws; the field and the event change only on success. */
  function Reload<C>(p: Provider<C>, resourcePresent: bool, attempt: Attempt<C>): (r: Step<C>)
    ensures r.state.fileExists == (p.fileExists || resourcePresent)
    ensures r.thrown.None? <==>
      (p.fileExists || resourcePresent) && attempt.Decoded? && GetConfig(attempt.result).Success?
    ensures r.thrown.None? ==>
      r.state == p.(config := Some(attempt.result.result.value), events := p.events + 1, fileExists := true)
    ensures r.thrown.Some? ==> r.state.config == p.config && r.state.events == p.events
    ensures r.state.log == p.log
  {
    if !p.fileExists && !resourcePresent then Step(p, Some(MissingBundledResource))
    else
      var copied := p.(fileExists := true);
      match attempt
      case LoadThrew => Step(copied, Some(LoadFailed))
      case Decoded(g) =>
        match GetConfig(g)
        case Failure(e) => Step(copied, Some(e))
        case Success(c) => Step(copied.(config := Some(c), events := copied.events + 1), None)
  }

  /** `onPluginInit`: the start-up load; any failure is fatal. */
  function OnPluginInit<C>(p: Provider<C>, resourcePresent: bool, attempt: Attempt<C>): (r: Result<Provider<C>, InitError>)
    ensures r.Success? <==> Reload(p, resourcePresent, attempt).thrown.None?
    ensures r.Success? ==> r.value.config.Some? && r.value.events == p.events + 1
    ensures r.Failure? ==> r.error.cause == Reload(p, resourcePresent, attempt).thrown.value
  {
    var step := Reload(p, resourcePresent, attempt);
    if step.thrown.Some? then Failure(FailedToLoad(step.thrown.value)) else Success(step.state)
  }

  /** The `td-reload` server command: never throws; logs one line saying
      whether the reload worked. */
  function TdReload<C>(p: Provider<C>, resourcePresent: bool, attempt: Attempt<C>): (r: Provider<C>)
    ensures |r.log| == |p.log| + 1 && r.log[..|p.log|] == p.log
    ensures r.log[|p.log|] == Info(ReloadedMessage) <==> Reload(p, resourcePresent, attempt).thrown.None?
    ensures r.log[|p.log|] != Info(ReloadedMessage) ==> r.log[|p.log|] == LogError(ReloadFailedMessage)
    ensures Reload(p, resourcePresent, attempt).thrown.Some? ==> r.config == p.config && r.events == p.events
  {
    var step := Reload(p, resourcePresent, attempt);
    var line := if step.thrown.None? then Info(ReloadedMessage) else LogError(ReloadFailedMessage);
    step.state.(log := p.log + [line])
  }

  /** `get`: the stored configuration; `requireNonNull` throws before the
      first successful load. */
  function Get<C>(p: Provider<C>): (r: Option<C>)
    ensures r.Some? <==> p.config.Some?
  {
    p.config
  }

  // ---------------------------------------------------------------------
  // Properties
  // ---------------------------------------------------------------------

  /** A MISSING_OPTIONAL_VALUE error alone never makes a reload fail. */
  lemma DiscretionaryErrorsTolerated<C>(c: C, errors: seq<ValidationError>)
    requires forall e :: e in errors ==> e.Severity() == MissingOptionalValue
    ensures GetConfig(GResult(Some(c), errors)) == Success(c)
  {
  }

  /** After a successful start-up, `get` returns the configuration that
      load decoded and `getConfig` accepted. */
  lemma GetAfterInit<C>(p: Provider<C>, resourcePresent: bool, attempt: Attempt<C>)
    requires OnPluginInit(p, resourcePresent, attempt).Success?
    ensures attempt.Decoded? && GetConfig(attempt.result).Success?
    ensures Get(OnPluginInit(p, resourcePresent, attempt).value) == Some(GetConfig(attempt.result).value)
  {
  }

  /** After `td-reload`, `get` returns the configuration that reload
      accepted, or, when the reload failed, whatever it returned before. */
  lemma GetAfterTdReload<C>(p: Provider<C>, resourcePresent: bool, attempt: Attempt<C>)
    ensures Reload(p, resourcePresent, attempt).thrown.None? ==>
      attempt.Decoded? && GetConfig(attempt.result).Success?
      && Get(TdReload(p, resourcePresent, attempt)) == Some(GetConfig(attempt.result).value)
    ensures Reload(p, resourcePresent, attempt).thrown.Some? ==>
      Get(TdReload(p, resourcePresent, attempt)) == Get(p)
  {
  }

  /** Running `td-reload` once per attempt, in order. */
  function ReloadAll<C>(p: Provider<C>, resourcePresent: bool, attempts: seq<Attempt<C>>): Provider<C>
    decreases |attempts|
  {
    if |attempts| == 0 then p
    else ReloadAll(TdReload(p, resourcePresent, attempts[0]), resourcePresent, attempts[1..])
  }

  /** Whether an attempt would be accepted once the file exists. */
  predicate Accepted<C>(a: Attempt<C>) {
    a.Decoded? && GetConfig(a.result).Success?
  }

  /** The number of accepted attempts in a run. */
  function CountAccepted<C>(attempts: seq<Attempt<C>>): nat
    decreases |attempts|
  {
    if |attempts| == 0 then 0
    else (if Accepted(attempts[0]) then 1 else 0) + CountAccepted(attempts[1..])
  }

  /** The configuration after the last accepted attempt, or `current` if
      none was accepted. */
  function LastAccepted<C>(current: Option<C>, attempts: seq<Attempt<C>>): Option<C>
    decreases |attempts|
  {
    if |attempts| == 0 then current
    else LastAccepted(if Accepted(attempts[0]) then Some(attempts[0].result.result.value) else current, attempts[1..])
  }

  /** Over a run of `td-reload` commands, once `config.yaml` exists: the
      configuration held is the last accepted one (failed reloads keep the
      old one), one event is posted per accepted reload, and one log line
      is written per command. */
  lemma {:induction false} ReloadsKeepLastGoodConfig<C>(p: Provider<C>, resourcePresent: bool, attempts: seq<Attempt<C>>)
    requires p.fileExists
    ensures var q := ReloadAll(p, resourcePresent, attempts);
      && q.config == LastAccepted(p.config, attempts)
      && q.events == p.events + CountAccepted(attempts)
      && |q.log| == |p.log| + |attempts|
      && q.fileExists
    decreases |attempts|
  {
    if |attempts| > 0 {
      var p' := TdReload(p, resourcePresent, attempts[0]);
      ReloadsKeepLastGoodConfig(p', resourcePresent, attempts[1..]);
    }
  }
}

=== FILE: content_decoder.dfy ===
/** `MindustryContentDecoder` (and its verbatim nested copy in
    `TowerConfigProvider`): one leaf decoder per content type. It resolves
    a leaf's string to the game content of that type with that name. */
module ContentDecoder {
  import opened Wrappers
  import opened Nodes

  /** A named piece of game content (an item, a unit type, a block...). */
  datatype Content = Content(contentType: string, name: string)

  /** The game's registry for one content type, keyed by name: what
      `Vars.content.getByName(type, name)` looks up. */
  type Catalog = map<string, Content>

  /** The registry keeps each entry under its own name, and holds only
      content of the decoder's type. */
  ghost predicate WellFormed(contentType: string, catalog: Catalog) {
    forall n :: n in catalog ==> catalog[n].name == n && catalog[n].contentType == contentType
  }

  /** gestalt's decoder priorities. */
  datatype Priority = VeryLow | Low | Medium | High | VeryHigh

  const ContentPriority: Priority := Medium

  /** The word separators of `Strings.capitalize`. */
  predicate IsSeparator(c: char) {
    c == '_' || c == '-'
  }

  /** `Character.toUpperCase` on ASCII letters. */
  function Upper(c: char): (r: char)
    ensures 'a' <= c <= 'z' ==> r as int == c as int - 32
    ensures !('a' <= c <= 'z') ==> r == c
    ensures !('a' <= r <= 'z')
  {
    if 'a' <= c <= 'z' then (c as int - 32) as char else c
  }

  /** Character `i` of the capitalised string: a separator becomes a
      space, the first character and every character after a separator
      are upper-cased, the others are kept. */
  function CapitalizedAt(s: string, i: nat): char
    requires i < |s|
  {
    if IsSeparator(s[i]) then ' '
    else if i == 0 || IsSeparator(s[i - 1]) then Upper(s[i])
    else s[i]
  }

  /** arc's `Strings.capitalize`, which turns a snake- or kebab-case name
      into words: `_` and `-` become spaces and each word starts with a
      capital. */
  function Capitalize(s: string): (r: string)
    ensures |r| == |s|
    ensures forall i :: 0 <= i < |s| && IsSeparator(s[i]) ==> r[i] == ' '
    ensures forall i :: 0 <= i < |s| && !IsSeparator(s[i]) && (i == 0 || IsSeparator(s[i - 1])) ==> r[i] == Upper(s[i])
    ensures forall i :: 0 < i < |s| && !IsSeparator(s[i]) && !IsSeparator(s[i - 1]) ==> r[i] == s[i]
    ensures |s| > 0 && 'a' <= s[0] <= 'z' ==> r[0] as int == s[0] as int - 32
    ensures |r| > 0 ==> !('a' <= r[0] <= 'z')
    ensures forall i :: 0 <= i < |r| ==> !IsSeparator(r[i])
  {
    seq(|s|, i requires 0 <= i < |s| => CapitalizedAt(s, i))
  }

  /** `name()`: "Mindustry" and the capitalised content-type name. */
  function Name(contentType: string): (r: string)
    ensures |r| == 9 + |contentType| && r[..9] == "Mindustry"
    ensures r[9..] == Capitalize(contentType)
  {
    "Mindustry" + Capitalize(contentType)
  }

  /** A name without separators is capitalised by its first letter alone. */
  lemma CapitalizeWithoutSeparators(s: string)
    requires forall i :: 0 <= i < |s| ==> !IsSeparator(s[i])
    ensures |s| > 0 ==> Capitalize(s) == [Upper(s[0])] + s[1..]
  {
    if |s| > 0 {
      var r := Capitalize(s);
      assert forall i :: 0 < i < |s| ==> r[i] == s[i];
      assert r == [Upper(s[0])] + s[1..];
    }
  }

  /** On names without separators that do not start with a capital,
      capitalising loses nothing: two such names capitalise alike only if
      they are equal. */
  lemma CapitalizeInjective(a: string, b: string)
    requires forall i :: 0 <= i < |a| ==> !IsSeparator(a[i])
    requires forall i :: 0 <= i < |b| ==> !IsSeparator(b[i])
    requires |a| > 0 ==> !('A' <= a[0] <= 'Z')
    requires |b| > 0 ==> !('A' <= b[0] <= 'Z')
    ensures Capitalize(a) == Capitalize(b) ==> a == b
  {
    if Capitalize(a) == Capitalize(b) && |a| > 0 {
      CapitalizeWithoutSeparators(a);
      CapitalizeWithoutSeparators(b);
      assert Upper(a[0]) == Upper(b[0]);
      assert a[0] == b[0];
      assert a[1..] == Capitalize(a)[1..] == Capitalize(b)[1..] == b[1..];
      assert a == [a[0]] + a[1..] && b == [b[0]] + b[1..];
    }
  }

  /** Content-type names without separators that do not start with a
      capital (such as `item`, `block` and `unit`, the types the
      configuration reads) give distinct decoder names. */
  lemma NamesAreDistinct(a: string, b: string)
    requires a != b
    requires forall i :: 0 <= i < |a| ==> !IsSeparator(a[i])
    requires forall i :: 0 <= i < |b| ==> !IsSeparator(b[i])
    requires |a| > 0 ==> !('A' <= a[0] <= 'Z')
    requires |b| > 0 ==> !('A' <= b[0] <= 'Z')
    ensures Name(a) != Name(b)
  {
    CapitalizeInjective(a, b);
  }

  /** Separators are not kept apart: `a_b` and `a-b` both capitalise to
      "A B", so their decoders share one name, and `mech_UNUSED` gives
      "Mech UNUSED". */
  lemma SeparatorsMerge()
    ensures Name("a_b") == Name("a-b") == "MindustryA B"
    ensures Capitalize("mech_UNUSED") == "Mech UNUSED"
  {
    assert Capitalize("a_b") == "A B";
    assert Capitalize("a-b") == "A B";
  }

  /** `leafDecode`: the leaf's string (or "" if it has none) looked up in
      the registry; an unknown name is an ERROR carrying that string. */
  function LeafDecode(path: Path, node: ConfigNode, contentType: string, catalog: Catalog): (r: GResult<Content>)
    ensures r.result.Some? <==> node.GetValue().GetOr("") in catalog
    ensures r.result.Some? ==> r.errors == []
    ensures r.result.None? ==> |r.errors| == 1 && r.errors[0].Severity() == Error
  {
    var value := node.GetValue().GetOr("");
    if value !in catalog then GResult(None, [UnknownMindustryContent(path, contentType, value)])
    else GResult(Some(catalog[value]), [])
  }

  /** The configuration form of a piece of content: a leaf holding its name. */
  function Encode(c: Content): ConfigNode {
    Leaf(Some(c.name))
  }

  /** Every registered content decodes back from its name to itself. */
  lemma DecodeEncode(path: Path, contentType: string, catalog: Catalog, c: Content)
    requires WellFormed(contentType, catalog)
    requires c.name in catalog && catalog[c.name] == c
    ensures LeafDecode(path, Encode(c), contentType, catalog) == GResult(Some(c), [])
  {
  }

  /** A decoded content is one of the registry's entries and carries the
      name that was written, and it is of the decoder's own type. */
  lemma DecodedIsNamedContent(path: Path, node: ConfigNode, contentType: string, catalog: Catalog)
    requires WellFormed(contentType, catalog)
    requires LeafDecode(path, node, contentType, catalog).result.Some?
    ensures var c := LeafDecode(path, node, contentType, catalog).result.value;
      && c in catalog.Values && c.name == node.GetValue().GetOr("") && c.contentType == contentType
  {
  }

  /** A name absent from the registry is reported at the node's path with
      the type and the offending string, and nothing is decoded. */
  lemma UnknownNameIsReported(path: Path, contentType: string, catalog: Catalog, value: string)
    requires value !in catalog
    ensures LeafDecode(path, Leaf(Some(value)), contentType, catalog)
      == GResult(None, [UnknownMindustryContent(path, contentType, value)])
    ensures AnyBlocking(LeafDecode(path, Leaf(Some(value)), contentType, catalog).errors)
  {
    assert Blocking(UnknownMindustryContent(path, contentType, value));
  }

  /** A leaf without a value is looked up as the empty name: it decodes
      only if the registry has content named "". */
  lemma MissingValueLooksUpEmptyName(path: Path, contentType: string, catalog: Catalog)
    ensures var r := LeafDecode(path, Leaf(None), contentType, catalog);
      && (r.result.Some? <==> "" in catalog)
      && ("" !in catalog ==> r.errors == [UnknownMindustryContent(path, contentType, "")])
  {
  }

  /** `canDecode`: the target type must be assignable to the decoder's
      content class; the node and path play no part, so the relation is a
      parameter. */
  function CanDecode(path: Path, node: ConfigNode, contentClass: string, target: string,
                     assignableFrom: (string, string) -> bool): (r: bool)
    ensures (forall c :: assignableFrom(c, c)) ==> (contentClass == target ==> r)
    ensures assignableFrom(contentClass, target) ==> r
    ensures !assignableFrom(contentClass, target) ==> !r
  {
    assignableFrom(contentClass, target)
  }

  /** The claim depends on the target type alone: asked about any other
      path and node, the decoder answers the same. */
  lemma CanDecodeIgnoresPathAndNode(path: Path, node: ConfigNode, path': Path, node': ConfigNode,
                                    contentClass: string, target: string, assignableFrom: (string, string) -> bool)
    ensures CanDecode(path, node, contentClass, target, assignableFrom)
      == CanDecode(path', node', contentClass, target, assignableFrom)
  {
  }
}

=== FILE: drops.dfy ===
/** `TowerDrop`, in both plugins: what an enemy unit leaves when it dies.
    A simple drop adds a fixed positive amount of one item. A random drop
    picks one of a non-empty list of drops uniformly and applies that one.
    The tower plugin's copy is also a sealed configuration type: variant
    "simple" is the default. */
module Drops {
  import opened Wrappers
  import Nodes
  import SealedDecoder

  /** An item, by its content name. */
  type Item = string

  datatype Drop =
    | Simple(item: Item, amount: int)
    | Random(drops: seq<Drop>)

  /** What the record constructors throw. */
  datatype DropError = AmountBelowOne(amount: int) | EmptyDropList

  /** The invariant the constructors establish for every drop: simple
      amounts are at least one, random lists are not empty, all the way
      down. */
  predicate WellFormed(d: Drop) {
    match d
    case Simple(_, amount) => amount >= 1
    case Random(ds) => |ds| > 0 && forall i :: 0 <= i < |ds| ==> WellFormed(ds[i])
  }

  /** The compact constructor of `Simple`. */
  function MakeSimple(item: Item, amount: int): (r: Result<Drop, DropError>)
    ensures r.Success? <==> amount >= 1
    ensures r.Success? ==> r.value == Simple(item, amount) && WellFormed(r.value)
    ensures r.Failure? ==> r.error == AmountBelowOne(amount)
  {
    if amount < 1 then Failure(AmountBelowOne(amount)) else Success(Simple(item, amount))
  }

  /** The constructor of `Random`; `List.copyOf` keeps the order. */
  function MakeRandom(drops: seq<Drop>): (r: Result<Drop, DropError>)
    ensures r.Success? <==> |drops| > 0
    ensures r.Success? ==> r.value == Random(drops)
    ensures r.Failure? ==> r.error == EmptyDropList
  {
    if |drops| == 0 then Failure(EmptyDropList) else Success(Random(drops))
  }

  /** Random drops built from well-formed drops are well-formed. */
  lemma MakeRandomPreservesWellFormed(drops: seq<Drop>)
    requires forall i :: 0 <= i < |drops| ==> WellFormed(drops[i])
    requires MakeRandom(drops).Success?
    ensures WellFormed(MakeRandom(drops).value)
  {
  }

  /** Mindustry's `ItemSeq`: an amount per item, zero when absent. */
  type ItemSeq = map<Item, int>

  function Count(items: ItemSeq, item: Item): int {
    if item in items then items[item] else 0
  }

  /** `ItemSeq.add(item, amount)`. */
  function Add(items: ItemSeq, item: Item, amount: int): (r: ItemSeq)
    ensures Count(r, item) == Count(items, item) + amount
    ensures forall other :: other != item ==> Count(r, other) == Count(items, other)
  {
    items[item := Count(items, item) + amount]
  }

  /** `apply`. The random source is `draw`: the value drawn at each call
      number, starting at `t`; `nextInt(n)` is that value modulo `n`, so
      every index can be drawn. */
  function Apply(d: Drop, items: ItemSeq, draw: nat -> nat, t: nat): (r: ItemSeq)
    requires WellFormed(d)
    ensures forall other :: Count(r, other) >= Count(items, other)
  {
    match d
    case Simple(item, amount) => Add(items, item, amount)
    case Random(ds) => Apply(ds[draw(t) % |ds|], items, draw, t + 1)
  }

  /** The simple drops a drop can end in: itself, or any leaf of any of
      its choices. */
  predicate HasLeaf(d: Drop, item: Item, amount: int) {
    match d
    case Simple(i, a) => i == item && a == amount
    case Random(ds) => exists i :: 0 <= i < |ds| && HasLeaf(ds[i], item, amount)
  }

  /** Every leaf of a well-formed drop has an amount of at least one. */
  lemma {:induction false} LeavesArePositive(d: Drop, item: Item, amount: int)
    requires WellFormed(d) && HasLeaf(d, item, amount)
    ensures amount >= 1
  {
    match d
    case Simple(_, _) =>
    case Random(ds) =>
      var i :| 0 <= i < |ds| && HasLeaf(ds[i], item, amount);
      LeavesArePositive(ds[i], item, amount);
  }

  /** Applying a drop adds exactly one of its leaves, whatever is drawn. */
  lemma {:induction false} ApplyAddsOneLeaf(d: Drop, items: ItemSeq, draw: nat -> nat, t: nat)
    requires WellFormed(d)
    ensures exists item, amount :: HasLeaf(d, item, amount) && Apply(d, items, draw, t) == Add(items, item, amount)
  {
    match d
    case Simple(item, amount) =>
      assert HasLeaf(d, item, amount);
    case Random(ds) =>
      var i := draw(t) % |ds|;
      ApplyAddsOneLeaf(ds[i], items, draw, t + 1);
      var item, amount :| HasLeaf(ds[i], item, amount) && Apply(ds[i], items, draw, t + 1) == Add(items, item, amount);
      assert HasLeaf(d, item, amount);
  }

  /** Only the draws from call `t` on matter. */
  lemma {:induction false} ApplyDependsOnLaterDraws(d: Drop, items: ItemSeq, f: nat -> nat, g: nat -> nat, t: nat)
    requires WellFormed(d)
    requires forall x :: x >= t ==> f(x) == g(x)
    ensures Apply(d, items, f, t) == Apply(d, items, g, t)
  {
    match d
    case Simple(_, _) =>
    case Random(ds) =>
      assert f(t) == g(t);
      ApplyDependsOnLaterDraws(ds[f(t) % |ds|], items, f, g, t + 1);
  }

  /** The draws of `f` with the one at call `t` replaced by `i`. */
  function Override(f: nat -> nat, t: nat, i: nat): (r: nat -> nat)
    ensures r(t) == i
    ensures forall x :: x != t ==> r(x) == f(x)
  {
    x => if x == t then i else f(x)
  }

  /** Some sequence of draws from call `t` on turns `items` into `target`. */
  ghost predicate Reachable(d: Drop, items: ItemSeq, t: nat, target: ItemSeq)
    requires WellFormed(d)
  {
    exists draw: nat -> nat :: Apply(d, items, draw, t) == target
  }

  /** What one choice of a random drop can reach, the random drop can
      reach: draw that choice first. */
  lemma ReachableThroughChoice(ds: seq<Drop>, i: nat, items: ItemSeq, t: nat, target: ItemSeq)
    requires WellFormed(Random(ds)) && i < |ds|
    requires Reachable(ds[i], items, t + 1, target)
    ensures Reachable(Random(ds), items, t, target)
  {
    var inner: nat -> nat :| Apply(ds[i], items, inner, t + 1) == target;
    var draw := Override(inner, t, i);
    assert draw(t) % |ds| == i;
    ApplyDependsOnLaterDraws(ds[i], items, draw, inner, t + 1);
    assert Apply(Random(ds), items, draw, t) == target;
  }

  /** Conversely, every leaf is applied for some sequence of draws: no
      choice of a random drop is unreachable. */
  lemma {:induction false} EveryLeafReachable(d: Drop, items: ItemSeq, t: nat, item: Item, amount: int)
    requires WellFormed(d) && HasLeaf(d, item, amount)
    ensures exists draw: nat -> nat :: Apply(d, items, draw, t) == Add(items, item, amount)
  {
    LeafReachable(d, items, t, item, amount);
  }

  /** The induction behind `EveryLeafReachable`. */
  lemma {:induction false} LeafReachable(d: Drop, items: ItemSeq, t: nat, item: Item, amount: int)
    requires WellFormed(d) && HasLeaf(d, item, amount)
    ensures Reachable(d, items, t, Add(items, item, amount))
  {
    match d
    case Simple(_, _) =>
      var draw: nat -> nat := x => 0;
      assert Apply(d, items, draw, t) == Add(items, item, amount);
    case Random(ds) =>
      var i :| 0 <= i < |ds| && HasLeaf(ds[i], item, amount);
      LeafReachable(ds[i], items, t + 1, item, amount);
      ReachableThroughChoice(ds, i, items, t, Add(items, item, amount));
  }

  /** A drop never takes anything away: one item gains at least one and
      every other item keeps its amount. */
  lemma DropGainsOneItem(d: Drop, items: ItemSeq, draw: nat -> nat, t: nat)
    requires WellFormed(d)
    ensures exists item ::
      && Count(Apply(d, items, draw, t), item) >= Count(items, item) + 1
      && forall other :: other != item ==> Count(Apply(d, items, draw, t), other) == Count(items, other)
  {
    ApplyAddsOneLeaf(d, items, draw, t);
    var item, amount :| HasLeaf(d, item, amount) && Apply(d, items, draw, t) == Add(items, item, amount);
    LeavesArePositive(d, item, amount);
  }

  // ---------------------------------------------------------------------
  // The tower plugin's drop as a sealed configuration type
  // ---------------------------------------------------------------------

  /** `TowerDrop.Simple`: a record annotated `@SealedConfig(name = "simple")`. */
  const SimpleClass: SealedDecoder.ClassInfo := SealedDecoder.ClassInfo(
    "TowerDrop$Simple", false, Some(SealedDecoder.SealedConfig("simple", "")), [],
    [SealedDecoder.FieldInfo("item", false), SealedDecoder.FieldInfo("amount", false)])

  /** `TowerDrop.Random`: a record annotated `@SealedConfig(name = "random")`. */
  const RandomClass: SealedDecoder.ClassInfo := SealedDecoder.ClassInfo(
    "TowerDrop$Random", false, Some(SealedDecoder.SealedConfig("random", "")), [],
    [SealedDecoder.FieldInfo("items", false)])

  /** `TowerDrop`: sealed, annotated `@SealedConfig(def = "simple")`. */
  const DropClass: SealedDecoder.ClassInfo := SealedDecoder.ClassInfo(
    "TowerDrop", true, Some(SealedDecoder.SealedConfig("", "simple")), [SimpleClass, RandomClass], [])

  /** The drop type passes every setup check, so the sealed decoder takes
      every map node for it under either conflict check, and its table maps
      "simple" and "random" to the two records. */
  lemma DropTypeIsDecodable(path: Nodes.Path, entries: map<string, Nodes.ConfigNode>, publicOnly: bool)
    ensures SealedDecoder.CanDecode(path, Nodes.MapNode(entries), DropClass, publicOnly) == Success(true)
    ensures SealedDecoder.TableFor(DropClass, publicOnly).Success?
    ensures SealedDecoder.TableFor(DropClass, publicOnly).value == map["simple" := SimpleClass, "random" := RandomClass]
  {
    assert !SealedDecoder.IsBlank("simple") by { assert !SealedDecoder.IsWhitespace("simple"[0]); }
    assert !SealedDecoder.IsBlank("random") by { assert !SealedDecoder.IsWhitespace("random"[0]); }
    assert !SealedDecoder.HasTypeField(SimpleClass) by {
      forall f | f in SimpleClass.fields ensures f.name != "type" {
        assert f == SimpleClass.fields[0] || f == SimpleClass.fields[1];
      }
    }
    assert !SealedDecoder.HasTypeField(RandomClass) by {
      forall f | f in RandomClass.fields ensures f.name != "type" {
        assert f == RandomClass.fields[0];
      }
    }
    var perm := DropClass.permitted;
    assert SealedDecoder.VariantName(perm[0]) == "simple" && SealedDecoder.VariantName(perm[1]) == "random";
    assert !SealedDecoder.Conflicts(perm[0], publicOnly) && !SealedDecoder.Conflicts(perm[1], publicOnly);
    assert SealedDecoder.ValidVariants(perm, 2, publicOnly);
    var t := SealedDecoder.TableFor(DropClass, publicOnly);
    assert t.value.Keys == {"simple", "random"} by {
      forall n | n in t.value.Keys ensures n == "simple" || n == "random" {
        var i :| 0 <= i < 2 && SealedDecoder.VariantName(perm[i]) == n;
      }
      assert "simple" in t.value.Keys && "random" in t.value.Keys;
    }
  }
}

=== FILE: momo_config.dfy ===
/** The MoMo plugin's `load`: drop bundles and units under
    `tower-defense`, then the optional `game-mode`, and `isActive`, which
    every mode-gated rule asks. */
module MomoConfig {
  import opened Wrappers
  import opened Nodes
  import Drops
  import ContentDecoder
  import PluginConfig

  /** The game modes this plugin can run. */
  datatype GameMode = TowerDefense

  const TowerDefenseName: string := "tower-defense"

  /** The drop lists, by bundle name. */
  type BundleTable = map<string, seq<Drops.Drop>>

  /** MoMo's `TowerConfig.UnitData`: only the drop list. */
  datatype UnitData = UnitData(drop: seq<Drops.Drop>)

  /** `parseUnit`: the `drop` text must be one of the bundle names exactly
      (no category/tier split here). */
  function ParseUnit(drops: BundleTable, node: ConfigNode): (r: Result<UnitData, PluginConfig.LoadError>)
    ensures r.Success? <==> PluginConfig.GetString(node.GetKey("drop")).Some? && PluginConfig.GetString(node.GetKey("drop")).value in drops
    ensures r.Success? ==> r.value.drop == drops[PluginConfig.GetString(node.GetKey("drop")).value]
    ensures PluginConfig.GetString(node.GetKey("drop")).None? ==> r == Failure(PluginConfig.MissingDropName)
  {
    match PluginConfig.GetString(node.GetKey("drop"))
    case None => Failure(PluginConfig.MissingDropName)
    case Some(name) =>
      if name !in drops then Failure(PluginConfig.UnknownDropBundle(name)) else Success(UnitData(drops[name]))
  }

  /** A unit names its bundle by the bundle's own key, and gets it. */
  lemma UnitGetsNamedBundle(drops: BundleTable, name: string)
    requires name in drops
    ensures ParseUnit(drops, MapNode(map["drop" := Leaf(Some(name))])) == Success(UnitData(drops[name]))
  {
  }

  /** The `game-mode` setting: absent means no mode; present, it must be
      the text "tower-defense". */
  function ParseGameMode(n: Option<ConfigNode>): (r: Result<Option<GameMode>, PluginConfig.LoadError>)
    ensures n.None? ==> r == Success(None)
    ensures r == Success(Some(TowerDefense)) <==> PluginConfig.GetString(n) == Some(TowerDefenseName)
    ensures n.Some? && r.Success? ==> r.value.Some?
  {
    match n
    case None => Success(None)
    case Some(node) =>
      match node.GetValue()
      case None => Failure(PluginConfig.NullGameMode)
      case Some(name) =>
        if name == TowerDefenseName then Success(Some(TowerDefense)) else Failure(PluginConfig.UnknownGameMode(name))
  }

  /** Any other text for the game mode is refused with that text. */
  lemma OtherGameModeRefused(name: string)
    requires name != TowerDefenseName
    ensures ParseGameMode(Some(Leaf(Some(name)))) == Failure(PluginConfig.UnknownGameMode(name))
  {
  }

  /** The settings MoMo's `load` builds. */
  datatype MomoSettings = MomoSettings(mode: Option<GameMode>, drops: BundleTable, units: map<string, UnitData>)

  /** `isActive(mode)`: the configured mode is that mode. */
  function IsActive(s: MomoSettings, m: GameMode): (active: bool)
    ensures s.mode.None? ==> !active
  {
    s.mode == Some(m)
  }

  /** One unit entry: its key must name a unit, then `parseUnit`. */
  function ReadUnit(drops: BundleTable, name: string, node: ConfigNode, units: ContentDecoder.Catalog): (r: Result<UnitData, PluginConfig.LoadError>)
    ensures r.Success? <==> name in units && ParseUnit(drops, node).Success?
    ensures name !in units ==> r == Failure(PluginConfig.UnknownUnit(name))
    ensures r.Success? ==> Success(r.value) == ParseUnit(drops, node)
  {
    if name !in units then Failure(PluginConfig.UnknownUnit(name)) else ParseUnit(drops, node)
  }

  /** `node("tower-defense").node(key)`. */
  function Section(root: ConfigNode, key: string): Option<ConfigNode> {
    match root.GetKey(TowerDefenseName)
    case None => None
    case Some(td) => td.GetKey(key)
  }

  /** The drop lists under `tower-defense.drops`, by bundle name. */
  function Bundles(root: ConfigNode): map<string, ConfigNode> {
    PluginConfig.ChildrenMap(Section(root, "drops"))
  }

  /** The unit entries under `tower-defense.units`. */
  function UnitEntries(root: ConfigNode): map<string, ConfigNode> {
    PluginConfig.ChildrenMap(Section(root, "units"))
  }

  /** Lines 97-101: the bundle table, built exactly when every bundle's list
      reads, with each list's drops in order. */
  function ReadBundles(root: ConfigNode, items: ContentDecoder.Catalog, co: PluginConfig.Coercions): (r: Result<BundleTable, PluginConfig.LoadError>)
    ensures r.Success? <==> forall b :: b in Bundles(root) ==> PluginConfig.ListReads(Bundles(root)[b], items, co)
    ensures r.Success? ==>
      && r.value.Keys == Bundles(root).Keys
      && forall b :: b in r.value ==> PluginConfig.ListReadsAs(Bundles(root)[b], r.value[b], items, co)
  {
    PluginConfig.ReadEntries(Bundles(root),
      (bundle: string, list: ConfigNode) => PluginConfig.ParseDropList(PluginConfig.ChildrenList(Some(list)), items, co))
  }

  /** All the units of a map: it reads exactly when every key names a unit
      and every entry names a bundle; each unit then gets its bundle. */
  function ReadUnits(drops: BundleTable, entries: map<string, ConfigNode>, units: ContentDecoder.Catalog): (r: Result<map<string, UnitData>, PluginConfig.LoadError>)
    ensures r.Success? <==> forall name :: name in entries ==> name in units && ParseUnit(drops, entries[name]).Success?
    ensures r.Success? ==> r.value.Keys == entries.Keys
    ensures r.Success? ==> forall name :: name in r.value ==>
      && name in units
      && var bundle := PluginConfig.GetString(entries[name].GetKey("drop"));
      && bundle.Some? && bundle.value in drops && r.value[name].drop == drops[bundle.value]
  {
    var read := PluginConfig.ReadEntries(entries, (name: string, node: ConfigNode) => ReadUnit(drops, name, node, units));
    if read.Success? then
      assert forall name :: name in read.value ==> Success(read.value[name]) == ReadUnit(drops, name, entries[name], units);
      read
    else read
  }

  /** MoMo's `load`, after the file is in place: the bundles and units
      under `tower-defense`, then the game mode. It succeeds exactly when
      every bundle list reads, every unit entry names a unit and a bundle,
      and the game mode is absent or "tower-defense". */
  function MomoLoad(root: ConfigNode, reg: PluginConfig.Registry, co: PluginConfig.Coercions): (r: Result<MomoSettings, PluginConfig.LoadError>)
    ensures r.Success? <==>
      && ReadBundles(root, reg.items, co).Success?
      && (forall name :: name in UnitEntries(root) ==>
            name in reg.units && ParseUnit(ReadBundles(root, reg.items, co).value, UnitEntries(root)[name]).Success?)
      && ParseGameMode(root.GetKey("game-mode")).Success?
    ensures r.Success? ==> Success(r.value.drops) == ReadBundles(root, reg.items, co)
    ensures r.Success? ==> Success(r.value.units) == ReadUnits(r.value.drops, UnitEntries(root), reg.units)
    ensures r.Success? ==> Success(r.value.mode) == ParseGameMode(root.GetKey("game-mode"))
  {
    var drops :- ReadBundles(root, reg.items, co);
    var units :- ReadUnits(drops, UnitEntries(root), reg.units);
    var mode :- ParseGameMode(root.GetKey("game-mode"));
    Success(MomoSettings(mode, drops, units))
  }

  /** A loaded unit carries the list of the bundle its `drop` names, and
      that list is what the bundle's entries read as. */
  lemma UnitDropsComeFromBundles(root: ConfigNode, reg: PluginConfig.Registry, co: PluginConfig.Coercions, name: string)
    requires MomoLoad(root, reg, co).Success?
    requires name in MomoLoad(root, reg, co).value.units
    ensures var s := MomoLoad(root, reg, co).value;
      var bundle := PluginConfig.GetString(UnitEntries(root)[name].GetKey("drop"));
      && name in reg.units
      && bundle.Some? && bundle.value in Bundles(root)
      && s.units[name].drop == s.drops[bundle.value]
      && PluginConfig.ListReadsAs(Bundles(root)[bundle.value], s.units[name].drop, reg.items, co)
  {
  }

  /** Without a `game-mode` entry nothing is active, so every mode-gated
      rule stays off; with "tower-defense" the tower-defense mode is on. */
  lemma GameModeGatesTowerDefense(root: ConfigNode, reg: PluginConfig.Registry, co: PluginConfig.Coercions)
    requires MomoLoad(root, reg, co).Success?
    ensures root.GetKey("game-mode").None? ==> !IsActive(MomoLoad(root, reg, co).value, TowerDefense)
    ensures IsActive(MomoLoad(root, reg, co).value, TowerDefense) <==>
      PluginConfig.GetString(root.GetKey("game-mode")) == Some(TowerDefenseName)
  {
  }
}

=== FILE: momo_pathfinder.dfy ===
/** The MoMo plugin's `TowerPathfinder`: the same bit-30 scheme as the
    tower plugin's, switched by whether the tower-defense game mode is
    active. It marks every spawn floor (static blocks included), keeps
    adding floors across loads while the mode is on, and guards only
    direct placements on those floors. */
module MomoPathfinder {
  import opened World
  import Pathfinder

  /** The cost wrapper installed on the ground and legged path costs:
      the tower plugin's surcharge, applied only while the mode is on. */
  function GetCost(inner: Pathfinder.PathCost, active: bool, waveTeam: int, team: int, tile: bv32): (cost: Pathfinder.Int32)
    ensures !active ==> cost == inner(team, tile)
    ensures var c := inner(team, tile);
      active && Pathfinder.OffPath(tile) && team == waveTeam && c >= 0 ==> cost == Pathfinder.Wrap32(c + Pathfinder.Surcharge)
    ensures var c := inner(team, tile);
      !(Pathfinder.OffPath(tile) && team == waveTeam && c >= 0) ==> cost == c
  {
    var c := inner(team, tile);
    if active && Pathfinder.OffPath(tile) && team == waveTeam && c >= 0 then Pathfinder.Wrap32(c + Pathfinder.Surcharge)
    else c
  }

  /** With the mode on, the MoMo wrapper charges exactly what the tower
      plugin's wrapper charges; with it off, it charges nothing extra. */
  lemma CostIsTowerCostWhileActive(inner: Pathfinder.PathCost, active: bool, waveTeam: int, team: int, tile: bv32)
    ensures active ==> GetCost(inner, active, waveTeam, team, tile) == Pathfinder.GetCost(inner, waveTeam, team, tile)
    ensures !active ==> GetCost(inner, active, waveTeam, team, tile) == inner(team, tile)
  {
  }

  /** `packTile`: with the mode on, bit 30 is set on every passable floor;
      with it off, the engine's packing is returned as is. */
  function PackTile(base: bv32, active: bool, passable: set<FloorId>, t: Tile): (packed: bv32)
    ensures !active ==> packed == base
    ensures packed & !Pathfinder.PassableBit == base & !Pathfinder.PassableBit
    ensures active ==> (!Pathfinder.OffPath(packed) <==> !Pathfinder.OffPath(base) || t.floor in passable)
  {
    if active then Pathfinder.SetPassableBitIf(base, t.floor in passable) else base
  }

  /** Unlike the tower plugin, MoMo marks a passable floor even under a
      static block; on other tiles the two packings agree. */
  lemma PackingComparedWithTower(base: bv32, passable: set<FloorId>, t: Tile)
    ensures !t.block.isStatic ==> PackTile(base, true, passable, t) == Pathfinder.PackTile(base, passable, t)
    ensures Pathfinder.OffPath(base) && t.floor in passable && t.block.isStatic ==>
      !Pathfinder.OffPath(PackTile(base, true, passable, t)) && Pathfinder.OffPath(Pathfinder.PackTile(base, passable, t))
  {
  }

  /** `onGenericLoadEvent`: with the mode on, the spawn floors of the new
      map are added to the floors already known; with it off, the set is
      cleared. */
  method OnGenericLoad(w: Map, active: bool, previous: set<FloorId>) returns (passable: set<FloorId>)
    ensures active ==> forall f :: f in passable <==> f in previous || SpawnFloor(w, f)
    ensures !active ==> passable == {}
  {
    if active {
      var spawns := SpawnFloors(w);
      passable := previous + spawns;
    } else {
      passable := {};
    }
  }

  /** `onInteractWithTowerPassableFloor`: with the mode on, placing a block
      directly on a passable floor is refused; everything else passes. */
  function Guard(a: Action, active: bool, passable: set<FloorId>): (allowed: bool)
    ensures !active ==> allowed
    ensures a.kind != PlaceBlock ==> allowed
    ensures a.tile.floor !in passable ==> allowed
  {
    !active || !(a.kind == PlaceBlock && a.tile.floor in passable)
  }

  /** The guard's refusals, and its blind spots next to the tower plugin's:
      payload drops always pass, and only the anchor tile's floor is
      looked at. */
  lemma GuardRefusals(a: Action, active: bool, passable: set<FloorId>)
    ensures !Guard(a, active, passable) <==> active && a.kind == PlaceBlock && a.tile.floor in passable
    ensures a.kind == DropPayload ==> Guard(a, active, passable)
  {
  }

  /** While the mode stays on, loads only ever add floors: after two loads
      the spawn floors of both maps are known, so a placement on either
      is refused. */
  method TwoLoadsAccumulate(w1: Map, w2: Map, previous: set<FloorId>) returns (passable: set<FloorId>)
    ensures previous <= passable
    ensures forall f :: SpawnFloor(w1, f) || SpawnFloor(w2, f) ==> f in passable
    ensures forall a: Action ::
      a.kind == PlaceBlock && (SpawnFloor(w1, a.tile.floor) || SpawnFloor(w2, a.tile.floor)) ==> !Guard(a, true, passable)
  {
    var first := OnGenericLoad(w1, true, previous);
    passable := OnGenericLoad(w2, true, first);
  }
}

=== FILE: nodes.dfy ===
/** The generic configuration tree every loader produces and every decoder
    consumes, the paths that address it, and the severity-levelled errors a
    decode pass collects instead of throwing. */
module Nodes {
  import opened Wrappers

  /** One step of a path: a map key or an array index. */
  datatype Segment = Key(name: string) | Index(i: nat)

  /** A path from the document root. The textual form gestalt builds
      (`a.b[2]`) is replaced by the sequence of its steps. */
  type Path = seq<Segment>

  /** The path of the key whose tokens are `tokens`, below `path`. */
  function ForKey(path: Path, tokens: seq<string>): (r: Path)
    ensures |r| == |path| + |tokens|
    ensures r[..|path|] == path
    ensures forall i :: 0 <= i < |tokens| ==> r[|path| + i] == Key(tokens[i])
  {
    path + seq(|tokens|, i requires 0 <= i < |tokens| => Key(tokens[i]))
  }

  /** The path of element `i` of the array at `path`. */
  function ForIndex(path: Path, i: nat): Path {
    path + [Index(i)]
  }

  /** Appending tokens one group at a time gives the path of the whole group. */
  lemma ForKeyAppend(path: Path, a: seq<string>, b: seq<string>)
    ensures ForKey(ForKey(path, a), b) == ForKey(path, a + b)
  {
    var l, r := ForKey(ForKey(path, a), b), ForKey(path, a + b);
    assert |l| == |r|;
    forall i | 0 <= i < |l| ensures l[i] == r[i] {
      if i < |path| {
        assert l[i] == ForKey(path, a)[..|path|][i];
      } else if i < |path| + |a| {
        assert l[i] == ForKey(path, a)[i];
      }
    }
  }

  /** gestalt's node: a leaf with an optional string, a map from key to
      child (unordered, keys unique), or an ordered array. */
  datatype ConfigNode =
    | Leaf(value: Option<string>)
    | MapNode(entries: map<string, ConfigNode>)
    | ArrayNode(items: seq<ConfigNode>)
  {
    /** `ConfigNode.getKey`: the child under `key` of a map node; empty for
        leaves and arrays. */
    function GetKey(key: string): Option<ConfigNode> {
      if MapNode? && key in entries then Some(entries[key]) else None
    }

    /** `ConfigNode.getValue`: the string of a leaf; empty for maps and arrays. */
    function GetValue(): Option<string> {
      if Leaf? then value else None
    }
  }

  /** gestalt's `ValidationLevel`. */
  datatype Level = Error | Warn | Debug | MissingValue | MissingOptionalValue

  /** The validation errors the modelled code creates, plus `Reported` for
      errors that collaborators outside the model hand back. */
  datatype ValidationError =
    | UnknownNodeTypeDuringLoad(path: Path, nodeId: string)
    | NoResultsFoundForPath(path: Path)
    | DecodingExpectedLeafNodeType(path: Path, decoder: string)
    | NoResultsFoundForNode(path: Path, className: string, area: string)
    | OptionalMissingValueDecoding(path: Path, decoder: string, className: string)
    | InvalidSealedConfigType(path: Path, className: string, value: string)
    | UnknownMindustryContent(path: Path, contentType: string, value: string)
    | Reported(level: Level, path: Path, description: string)
  {
    /** The level each error class passes to `super(...)`. */
    function Severity(): Level {
      match this
      case UnknownNodeTypeDuringLoad(_, _) => Error
      case NoResultsFoundForPath(_) => MissingValue
      case DecodingExpectedLeafNodeType(_, _) => Error
      case NoResultsFoundForNode(_, _, _) => MissingValue
      case OptionalMissingValueDecoding(_, _, _) => MissingOptionalValue
      case InvalidSealedConfigType(_, _, _) => Error
      case UnknownMindustryContent(_, _, _) => Error
      case Reported(l, _, _) => l
    }
  }

  /** An error that stops a record from being built: level ERROR or MISSING_VALUE. */
  predicate Blocking(e: ValidationError) {
    e.Severity() == Error || e.Severity() == MissingValue
  }

  predicate AnyBlocking(errors: seq<ValidationError>) {
    exists e :: e in errors && Blocking(e)
  }

  /** `GResultOf.getErrorsNotLevel`: the errors whose level is not `level`, in order. */
  function NotLevel(errors: seq<ValidationError>, level: Level): (r: seq<ValidationError>)
    ensures forall e :: e in r <==> e in errors && e.Severity() != level
    ensures |r| <= |errors|
  {
    if |errors| == 0 then []
    else
      var rest := NotLevel(errors[1..], level);
      assert forall e :: e in errors <==> e == errors[0] || e in errors[1..];
      if errors[0].Severity() == level then rest else [errors[0]] + rest
  }

  /** gestalt's `GResultOf<T>`: an optional result and the errors collected
      while producing it. */
  datatype GResult<+T> = GResult(result: Option<T>, errors: seq<ValidationError>) {

    predicate HasResults() {
      result.Some?
    }
  }
}

=== FILE: pathfinder.dfy ===
/** The tower plugin's `TowerPathfinder`: enemy ground units prefer the
    floors their spawns sit on. Every tile is packed into a 32-bit word by
    the engine; the plugin sets bit 30 on passable floors. The wrapped path
    cost then charges the wave team 6000 extra on every tile without
    that bit. */
module Pathfinder {
  import opened Wrappers
  import opened World
  import TowerLogic

  /** A Java `int`. */
  type Int32 = x: int | -0x8000_0000 <= x < 0x8000_0000

  const MaxInt32: int := 0x7FFF_FFFF

  /** `BIT_MASK_TOWER_PASSABLE`, `1 << 30`. */
  const PassableBit: bv32 := 1 << 30

  /** The surcharge on a tile enemies should avoid. */
  const Surcharge: int := 6000

  /** Java's `int` addition: the mathematical sum, wrapped into 32 bits. */
  function Wrap32(x: int): (r: Int32)
    ensures -0x8000_0000 <= x < 0x8000_0000 ==> r == x
    ensures (r - x) % 0x1_0000_0000 == 0
  {
    (x + 0x8000_0000) % 0x1_0000_0000 - 0x8000_0000
  }

  /** A path cost from the engine: negative means impassable. */
  type PathCost = (int, bv32) -> Int32

  /** The packed tile has bit 30 clear. */
  predicate OffPath(tile: bv32) {
    tile & PassableBit == 0
  }

  /** `TowerPathCostWrapper.getCost`: the inner cost, plus the surcharge
      when the tile is off the enemy path, the team is the wave team, and
      the tile is passable at all. */
  function GetCost(inner: PathCost, waveTeam: int, team: int, tile: bv32): (cost: Int32)
    ensures var c := inner(team, tile);
      && (OffPath(tile) && team == waveTeam && c >= 0 ==> cost == Wrap32(c + Surcharge))
      && (!(OffPath(tile) && team == waveTeam && c >= 0) ==> cost == c)
  {
    var c := inner(team, tile);
    if OffPath(tile) && team == waveTeam && c >= 0 then Wrap32(c + Surcharge) else c
  }

  /** The cost the wave team sees is the inner cost or exactly 6000 more;
      an impassable tile stays impassable, and every other team pays the
      inner cost. */
  lemma CostChangesOnlyByTheSurcharge(inner: PathCost, waveTeam: int, team: int, tile: bv32)
    requires inner(team, tile) <= MaxInt32 - Surcharge
    ensures var c, cost := inner(team, tile), GetCost(inner, waveTeam, team, tile);
      && (cost == c || cost == c + Surcharge)
      && (cost == c + Surcharge <==> OffPath(tile) && team == waveTeam && c >= 0)
      && (c < 0 ==> cost == c)
      && (team != waveTeam ==> cost == c)
  {
  }

  /** Near the top of the `int` range the surcharge wraps around and turns
      a passable tile into an impassable one. */
  lemma SurchargeWrapsNearMaxInt(inner: PathCost, waveTeam: int, tile: bv32)
    requires OffPath(tile) && inner(waveTeam, tile) > MaxInt32 - Surcharge
    ensures GetCost(inner, waveTeam, waveTeam, tile) < 0
  {
  }

  /** `pack |= BIT_MASK_TOWER_PASSABLE` when `on` holds: bit 30 set, the
      others kept. */
  function SetPassableBitIf(base: bv32, on: bool): (packed: bv32)
    ensures packed & !PassableBit == base & !PassableBit
    ensures !OffPath(packed) <==> !OffPath(base) || on
  {
    if on then base | PassableBit else base
  }

  /** `packTile`: the engine's packing with bit 30 set when the floor is a
      spawn floor and the block on the tile is not static. */
  function PackTile(base: bv32, passable: set<FloorId>, t: Tile): (packed: bv32)
    ensures packed & !PassableBit == base & !PassableBit
    ensures !OffPath(packed) <==> !OffPath(base) || (t.floor in passable && !t.block.isStatic)
  {
    SetPassableBitIf(base, t.floor in passable && !t.block.isStatic)
  }

  /** The two changes compose: the wave team pays no surcharge on a packed
      spawn-floor tile without a static block, and, when the base packing
      leaves bit 30 clear, pays it on every other tile it can walk on. */
  lemma SurchargeExactlyOffSpawnFloors(inner: PathCost, waveTeam: int, base: bv32, passable: set<FloorId>, t: Tile)
    requires OffPath(base)
    requires 0 <= inner(waveTeam, PackTile(base, passable, t)) <= MaxInt32 - Surcharge
    ensures var packed := PackTile(base, passable, t);
      GetCost(inner, waveTeam, waveTeam, packed) == inner(waveTeam, packed) + Surcharge
      <==> !(t.floor in passable && !t.block.isStatic)
  {
  }

  /** `onGenericLoadEvent`: the passable floors become exactly the floors
      under spawn overlays; the previous set is discarded. */
  method OnGenericLoad(w: Map, previous: set<FloorId>) returns (passable: set<FloorId>)
    ensures forall f :: f in passable <==> SpawnFloor(w, f)
  {
    passable := SpawnFloors(w);
  }

  /** `updateConfiguration`: the whitelist becomes exactly the ids of the
      configured blocks. */
  method UpdateConfiguration(configured: seq<Block>, previous: set<BlockId>) returns (whitelist: set<BlockId>)
    ensures forall id :: id in whitelist <==> exists i :: 0 <= i < |configured| && configured[i].id == id
  {
    whitelist := BlockIds(configured);
  }

  /** The block an action puts down, as this handler picks it: the
      action's block if it has one, else the payload's block, else air. */
  function GuardedBlock(a: Action): (r: Option<Block>)
    requires WellFormedAction(a)
    ensures r.Some? <==> a.kind == PlaceBlock || a.kind == DropPayload
    ensures r.Some? && a.block.Some? ==> r.value == a.block.value
    ensures r.Some? && a.block.None? && a.payload.value.UnitPayload? ==> r.value == AirBlock
  {
    if a.kind != PlaceBlock && a.kind != DropPayload then None
    else if a.block.Some? then a.block
    else Some(if a.payload.value.BlockPayload? then a.payload.value.block else AirBlock)
  }

  /** `onInteractWithTowerPassableFloor` in the pathfinder. `covered` gives
      the floors under a block put at a tile. */
  function PassableFloorGuard(a: Action, whitelist: set<BlockId>, passable: set<FloorId>,
                              covered: (Tile, Block) -> set<FloorId>): (allowed: bool)
    requires WellFormedAction(a)
    ensures GuardedBlock(a).None? ==> allowed
    ensures GuardedBlock(a).Some? && GuardedBlock(a).value.id in whitelist ==> allowed
    ensures GuardedBlock(a).Some? && (forall f :: f in covered(a.tile, GuardedBlock(a).value) ==> f !in passable) ==> allowed
  {
    match GuardedBlock(a)
    case None => true
    case Some(block) =>
      block.id in whitelist || block.id == Air || !TowerLogic.CoversPassable(covered(a.tile, block), passable)
  }

  /** The guard allows every action that places nothing, every whitelisted
      block and air, and refuses anything else exactly when its footprint
      touches a floor enemies walk on. */
  lemma PassableFloorGuardRefusals(a: Action, whitelist: set<BlockId>, passable: set<FloorId>,
                                   covered: (Tile, Block) -> set<FloorId>)
    requires WellFormedAction(a)
    ensures !PassableFloorGuard(a, whitelist, passable, covered) <==>
      && (a.kind == PlaceBlock || a.kind == DropPayload)
      && GuardedBlock(a).value.id !in whitelist && GuardedBlock(a).value.id != Air
      && exists f :: f in covered(a.tile, GuardedBlock(a).value) && f in passable
  {
  }

  /** The pathfinder's guard and the one in the game logic pick the same
      block, and so decide alike, unless a payload drop also names a
      block. */
  lemma GuardsAgree(a: Action, whitelist: set<BlockId>, passable: set<FloorId>,
                    covered: (Tile, Block) -> set<FloorId>)
    requires WellFormedAction(a)
    requires a.kind == DropPayload ==> a.block.None?
    ensures PassableFloorGuard(a, whitelist, passable, covered) == TowerLogic.FloorGuard(a, whitelist, passable, covered)
  {
    assert GuardedBlock(a) == TowerLogic.PlacedBlock(a);
  }

  /** After a load, no block outside the whitelist can be put where its
      footprint covers the floor of a spawn. */
  lemma SpawnFloorsAreProtected(w: Map, a: Action, whitelist: set<BlockId>, passable: set<FloorId>,
                                covered: (Tile, Block) -> set<FloorId>, f: FloorId)
    requires forall g :: g in passable <==> SpawnFloor(w, g)
    requires WellFormedAction(a) && a.kind == PlaceBlock
    requires a.block.value.id !in whitelist && a.block.value.id != Air
    requires SpawnFloor(w, f) && f in covered(a.tile, a.block.value)
    ensures !PassableFloorGuard(a, whitelist, passable, covered)
  {
    assert f in covered(a.tile, GuardedBlock(a).value) && f in passable;
  }
}

=== FILE: plugin_config.dfy ===
/** The hand-written `config.yaml` readers of the tower plugin's `load`
    and of the MoMo plugin, which predate the gestalt decoders. Both walk a
    Configurate node tree, which has the same three shapes as gestalt's
    (a scalar, a keyed map, an ordered list), and throw on the first
    problem. The drop reader is shared word for word by the two plugins. */
module PluginConfig {
  import opened Wrappers
  import opened Nodes
  import Drops
  import ContentDecoder

  /** Configurate's scalar conversions, which live in the library: what a
      scalar's text reads as an `int`, a `float` or a `boolean`, if it can. */
  datatype Coercions = Coercions(
    toInt: string -> Option<int>,
    toFloat: string -> Option<real>,
    toBool: string -> Option<bool>)

  /** The game's content registries the readers look names up in. */
  datatype Registry = Registry(
    blocks: ContentDecoder.Catalog,
    items: ContentDecoder.Catalog,
    units: ContentDecoder.Catalog)

  /** What the readers throw. */
  datatype LoadError =
    | MissingItem                                // "item field missing for ..."
    | UnknownItem(name: string)                  // "Unknown item ..."
    | MissingAmount                              // "The amount of item is missing"
    | InvalidDrop(cause: Drops.DropError)        // a `TowerDrop` constructor refused
    | UnknownBountyType(dropType: string)        // "Unknown bounty type: ..."
    | MissingDropName                            // "drop field missing for ..."
    | InvalidDropName(name: string)              // "Invalid drop name format: ..."
    | UnknownDropCategory(category: string)
    | UnknownDropTier(category: string, tier: string)
    | UnknownDropBundle(name: string)            // MoMo: "Unknown drop bundle ..."
    | UnknownUnit(name: string)                  // "Unknown unit ..."
    | UnknownBlock(blockName: Option<string>)    // "Unknown block ..."
    | NullGameMode                               // MoMo: `requireNonNull(root.getString())`
    | UnknownGameMode(name: string)              // MoMo: "Unknown gamemode ..."
    | BadEntries(keys: set<string>)              // the entries of a map that failed

  // ---------------------------------------------------------------------
  // Configurate node access
  // ---------------------------------------------------------------------

  /** `getString()`: the text of a scalar; null for an absent node, a null
      scalar, a map or a list. */
  function GetString(n: Option<ConfigNode>): Option<string> {
    if n.Some? then n.value.GetValue() else None
  }

  /** `getInt()`: the scalar read as an `int`, 0 when it cannot be. */
  function GetInt(n: Option<ConfigNode>, co: Coercions): int {
    match GetString(n)
    case Some(s) => co.toInt(s).GetOr(0)
    case None => 0
  }

  /** `getFloat(def)` and `getBoolean(def)`: `def` unless the node holds a
      scalar that reads as the type. */
  function GetFloat(n: Option<ConfigNode>, def: real, co: Coercions): (r: real)
    ensures GetString(n).None? ==> r == def
    ensures GetString(n).Some? && co.toFloat(GetString(n).value).Some? ==> r == co.toFloat(GetString(n).value).value
    ensures GetString(n).Some? && co.toFloat(GetString(n).value).None? ==> r == def
  {
    match GetString(n)
    case Some(s) => co.toFloat(s).GetOr(def)
    case None => def
  }

  function GetBool(n: Option<ConfigNode>, def: bool, co: Coercions): (r: bool)
    ensures GetString(n).None? ==> r == def
    ensures GetString(n).Some? && co.toBool(GetString(n).value).Some? ==> r == co.toBool(GetString(n).value).value
    ensures GetString(n).Some? && co.toBool(GetString(n).value).None? ==> r == def
  {
    match GetString(n)
    case Some(s) => co.toBool(s).GetOr(def)
    case None => def
  }

  /** `childrenList()`: the elements of a list; nothing for anything else. */
  function ChildrenList(n: Option<ConfigNode>): seq<ConfigNode> {
    if n.Some? && n.value.ArrayNode? then n.value.items else []
  }

  /** `childrenMap()`: the entries of a map; nothing for anything else. */
  function ChildrenMap(n: Option<ConfigNode>): map<string, ConfigNode> {
    if n.Some? && n.value.MapNode? then n.value.entries else map[]
  }

  /** `isNull()`: absent, or a scalar without a value. */
  predicate IsNull(n: Option<ConfigNode>) {
    n.None? || n.value == Leaf(None)
  }

  // ---------------------------------------------------------------------
  // parseDrop (identical in both plugins)
  // ---------------------------------------------------------------------

  const DefaultDropType: string := "simple"

  /** `node("type").getString("simple")`. */
  function DropType(node: ConfigNode): string {
    GetString(node.GetKey("type")).GetOr(DefaultDropType)
  }

  /** The `items` list of a random drop. */
  function ItemNodes(node: ConfigNode): seq<ConfigNode> {
    ChildrenList(node.GetKey("items"))
  }

  lemma ItemNodesAreSmaller(node: ConfigNode, i: nat)
    requires i < |ItemNodes(node)|
    ensures ItemNodes(node)[i] < node
  {
    var items := node.GetKey("items").value;
    assert items == node.entries["items"];
    assert ItemNodes(node)[i] == items.items[i];
  }

  /** A constructor's exception, as thrown by the reader. */
  function ConstructorError(r: Result<Drops.Drop, Drops.DropError>): (s: Result<Drops.Drop, LoadError>)
    ensures s.Success? <==> r.Success?
    ensures s.Success? ==> s.value == r.value
    ensures s.Failure? ==> s.error == InvalidDrop(r.error)
  {
    match r
    case Success(d) => Success(d)
    case Failure(e) => Failure(InvalidDrop(e))
  }

  /** The `simple` case: an item name that names an item, a present
      `amount` node, and an amount the constructor accepts. */
  function ParseSimple(node: ConfigNode, items: ContentDecoder.Catalog, co: Coercions): (r: Result<Drops.Drop, LoadError>)
    ensures r.Success? ==> Drops.WellFormed(r.value)
    ensures r.Success? <==>
      && GetString(node.GetKey("item")).Some? && GetString(node.GetKey("item")).value in items
      && node.GetKey("amount").Some? && GetInt(node.GetKey("amount"), co) >= 1
    ensures r.Success? ==> r.value == Drops.Simple(items[GetString(node.GetKey("item")).value].name, GetInt(node.GetKey("amount"), co))
  {
    match GetString(node.GetKey("item"))
    case None => Failure(MissingItem)
    case Some(itemName) =>
      if itemName !in items then Failure(UnknownItem(itemName))
      else if node.GetKey("amount").None? then Failure(MissingAmount)
      else ConstructorError(Drops.MakeSimple(items[itemName].name, GetInt(node.GetKey("amount"), co)))
  }

  /** `parseDrop`: dispatch on the type, "simple" when absent; a random
      drop reads its `items` in order. Whatever it returns satisfies the
      drop invariant, because the constructors check it at every level. */
  function ParseDrop(node: ConfigNode, items: ContentDecoder.Catalog, co: Coercions): (r: Result<Drops.Drop, LoadError>)
    ensures r.Success? ==> Drops.WellFormed(r.value)
    ensures DropType(node) != "simple" && DropType(node) != "random" ==> r == Failure(UnknownBountyType(DropType(node)))
    ensures DropType(node) == "random" && r.Success? ==> r.value.Random? && |r.value.drops| == |ItemNodes(node)|
    ensures DropType(node) == "random" && r.Success? ==>
      forall i :: 0 <= i < |ItemNodes(node)| ==> ParseDrop(ItemNodes(node)[i], items, co) == Success(r.value.drops[i])
    ensures DropType(node) == "random" ==>
      (r.Success? <==> |ItemNodes(node)| > 0 && forall i :: 0 <= i < |ItemNodes(node)| ==> ParseDrop(ItemNodes(node)[i], items, co).Success?)
    decreases node, 1
  {
    var t := DropType(node);
    if t == "simple" then ParseSimple(node, items, co)
    else if t == "random" then
      var ds :- ParseItemsUpTo(node, |ItemNodes(node)|, items, co);
      ConstructorError(Drops.MakeRandom(ds))
    else Failure(UnknownBountyType(t))
  }

  /** The first `k` entries of `items`, read in order; the first one that
      fails decides the error, as the stream stops there. */
  function ParseItemsUpTo(node: ConfigNode, k: nat, items: ContentDecoder.Catalog, co: Coercions): (r: Result<seq<Drops.Drop>, LoadError>)
    requires k <= |ItemNodes(node)|
    ensures r.Success? ==> |r.value| == k && forall i :: 0 <= i < k ==> ParseDrop(ItemNodes(node)[i], items, co) == Success(r.value[i])
    ensures r.Failure? ==>
      exists i :: 0 <= i < k && ParseDrop(ItemNodes(node)[i], items, co) == Failure(r.error)
        && (forall j :: 0 <= j < i ==> ParseDrop(ItemNodes(node)[j], items, co).Success?)
    decreases node, 0, k
  {
    if k == 0 then Success([])
    else
      var nodes := ItemNodes(node);
      var prefix := ParseItemsUpTo(node, k - 1, items, co);
      if prefix.Failure? then Failure(prefix.error)
      else
        ItemNodesAreSmaller(node, k - 1);
        var d := ParseDrop(nodes[k - 1], items, co);
        if d.Failure? then Failure(d.error)
        else
          var all := prefix.value + [d.value];
          assert forall i :: 0 <= i < k - 1 ==> all[i] == prefix.value[i];
          Success(all)
  }

  /** A list of drops reads like the `items` of a random drop. */
  function ItemsHolder(nodes: seq<ConfigNode>): (holder: ConfigNode)
    ensures ItemNodes(holder) == nodes
  {
    MapNode(map["items" := ArrayNode(nodes)])
  }

  /** `childrenList().stream().map(this::parseDrop).toList()`. */
  function ParseDropList(nodes: seq<ConfigNode>, items: ContentDecoder.Catalog, co: Coercions): (r: Result<seq<Drops.Drop>, LoadError>)
    ensures r.Success? <==> forall i :: 0 <= i < |nodes| ==> ParseDrop(nodes[i], items, co).Success?
    ensures r.Success? ==> |r.value| == |nodes| && forall i :: 0 <= i < |nodes| ==>
      ParseDrop(nodes[i], items, co) == Success(r.value[i]) && Drops.WellFormed(r.value[i])
  {
    ParseItemsUpTo(ItemsHolder(nodes), |nodes|, items, co)
  }

  // ---------------------------------------------------------------------
  // Writing drops back as YAML
  // ---------------------------------------------------------------------

  /** The decimal text of an integer. */
  function ShowInt(n: int): string
    decreases if n < 0 then 1 - n else n
  {
    if n < 0 then "-" + ShowInt(-n)
    else if n < 10 then [['0', '1', '2', '3', '4', '5', '6', '7', '8', '9'][n]]
    else ShowInt(n / 10) + ShowInt(n % 10)
  }

  /** The YAML a drop is written as: a simple drop with its item name and
      amount and no `type` key, a random drop with type "random". */
  function EncodeDrop(d: Drops.Drop): ConfigNode {
    match d
    case Simple(item, amount) => MapNode(map["item" := Leaf(Some(item)), "amount" := Leaf(Some(ShowInt(amount)))])
    case Random(ds) =>
      MapNode(map["type" := Leaf(Some("random")), "items" := ArrayNode(seq(|ds|, i requires 0 <= i < |ds| => EncodeDrop(ds[i])))])
  }

  /** Every item of a drop is registered under its name. */
  predicate ItemsRegistered(d: Drops.Drop, items: ContentDecoder.Catalog) {
    match d
    case Simple(item, _) => item in items && items[item].name == item
    case Random(ds) => forall i :: 0 <= i < |ds| ==> ItemsRegistered(ds[i], items)
  }

  /** Reading back a written drop gives the drop, given registered items
      and an `int` reading that undoes the decimal text. */
  lemma {:induction false} ParseEncodeDrop(d: Drops.Drop, items: ContentDecoder.Catalog, co: Coercions)
    requires Drops.WellFormed(d) && ItemsRegistered(d, items)
    requires forall n :: co.toInt(ShowInt(n)) == Some(n)
    ensures ParseDrop(EncodeDrop(d), items, co) == Success(d)
  {
    match d
    case Simple(item, amount) =>
      var node := EncodeDrop(d);
      assert node.GetKey("type").None?;
      assert DropType(node) == "simple";
      assert GetInt(node.GetKey("amount"), co) == amount;
    case Random(ds) =>
      var node := EncodeDrop(d);
      assert DropType(node) == "random";
      assert ItemNodes(node) == seq(|ds|, i requires 0 <= i < |ds| => EncodeDrop(ds[i]));
      forall i | 0 <= i < |ds| ensures ParseDrop(ItemNodes(node)[i], items, co) == Success(ds[i]) {
        ParseEncodeDrop(ds[i], items, co);
      }
      var parsed := ParseItemsUpTo(node, |ds|, items, co);
      assert parsed.value == ds;
  }

  /** A drop without a `type` key reads exactly like the same drop with
      `type: simple`. */
  lemma TypeDefaultsToSimple(entries: map<string, ConfigNode>, items: ContentDecoder.Catalog, co: Coercions)
    requires "type" !in entries
    ensures ParseDrop(MapNode(entries), items, co) == ParseDrop(MapNode(entries["type" := Leaf(Some("simple"))]), items, co)
  {
    var typed := MapNode(entries["type" := Leaf(Some("simple"))]);
    assert typed.GetKey("item") == MapNode(entries).GetKey("item");
    assert typed.GetKey("amount") == MapNode(entries).GetKey("amount");
  }

  /** A random drop whose `items` is missing or empty is refused by the
      constructor. */
  lemma RandomWithoutItemsRefused(node: ConfigNode, items: ContentDecoder.Catalog, co: Coercions)
    requires DropType(node) == "random" && ItemNodes(node) == []
    ensures ParseDrop(node, items, co) == Failure(InvalidDrop(Drops.EmptyDropList))
  {
  }

  // ---------------------------------------------------------------------
  // Maps of entries
  // ---------------------------------------------------------------------

  /** `Collectors.toUnmodifiableMap` over a node's entries: every entry is
      read by `read` (which sees the key and the value); the map is built
      when all succeed. Java stops at the first failure in the map's
      iteration order, which is unspecified; the model reports every key
      that fails. */
  function ReadEntries<V>(entries: map<string, ConfigNode>, read: (string, ConfigNode) -> Result<V, LoadError>): (r: Result<map<string, V>, LoadError>)
    ensures r.Success? <==> forall k :: k in entries ==> read(k, entries[k]).Success?
    ensures r.Success? ==> r.value.Keys == entries.Keys && forall k :: k in entries ==> Success(r.value[k]) == read(k, entries[k])
    ensures r.Failure? ==>
      && r.error.BadEntries? && r.error.keys != {}
      && forall k :: k in r.error.keys <==> k in entries && read(k, entries[k]).Failure?
  {
    if forall k :: k in entries ==> read(k, entries[k]).Success? then
      Success(map k | k in entries :: read(k, entries[k]).value)
    else
      var bad := set k | k in entries && read(k, entries[k]).Failure?;
      assert bad != {} by {
        var k0 :| k0 in entries && read(k0, entries[k0]).Failure?;
        assert k0 in bad;
      }
      Failure(BadEntries(bad))
  }

  // ---------------------------------------------------------------------
  // The tower plugin's load and parseUnit
  // ---------------------------------------------------------------------

  /** `split("_", 2)` when it yields two parts: the text before the first
      underscore and the text after it. */
  function SplitDropName(s: string): (r: Option<(string, string)>)
    ensures r.None? <==> '_' !in s
    ensures r.Some? ==> '_' !in r.value.0 && s == r.value.0 + "_" + r.value.1
  {
    if |s| == 0 then None
    else if s[0] == '_' then Some(("", s[1..]))
    else
      match SplitDropName(s[1..])
      case None => None
      case Some((category, tier)) => Some(([s[0]] + category, tier))
  }

  /** Splitting undoes joining, whatever the tier holds, as long as the
      category has no underscore. */
  lemma {:induction false} SplitJoinDropName(category: string, tier: string)
    requires '_' !in category
    ensures SplitDropName(category + "_" + tier) == Some((category, tier))
  {
    var s := category + "_" + tier;
    if |category| == 0 {
      assert s == "_" + tier;
    } else {
      assert s[0] == category[0] && s[1..] == category[1..] + "_" + tier;
      SplitJoinDropName(category[1..], tier);
      assert [category[0]] + category[1..] == category;
    }
  }

  /** The drop lists of the tower plugin, by category and then tier. */
  type DropTable = map<string, map<string, seq<Drops.Drop>>>

  /** `TowerConfig.UnitData`. */
  datatype UnitData = UnitData(drop: seq<Drops.Drop>, downgrade: Option<ContentDecoder.Content>)

  /** The tower plugin's `parseUnit`: the `drop` name is split at its first
      underscore into a category and a tier, both of which must exist; a
      `downgrade`, when given, must name a unit. */
  function ParseUnit(drops: DropTable, node: ConfigNode, units: ContentDecoder.Catalog): (r: Result<UnitData, LoadError>)
    ensures r.Success? <==>
      && GetString(node.GetKey("drop")).Some?
      && var parts := SplitDropName(GetString(node.GetKey("drop")).value);
      && parts.Some? && parts.value.0 in drops && parts.value.1 in drops[parts.value.0]
      && (GetString(node.GetKey("downgrade")).Some? ==> GetString(node.GetKey("downgrade")).value in units)
    ensures r.Success? ==>
      var parts := SplitDropName(GetString(node.GetKey("drop")).value).value;
      && r.value.drop == drops[parts.0][parts.1]
      && (r.value.downgrade.Some? <==> GetString(node.GetKey("downgrade")).Some?)
      && (r.value.downgrade.Some? ==> r.value.downgrade.value == units[GetString(node.GetKey("downgrade")).value])
  {
    match GetString(node.GetKey("drop"))
    case None => Failure(MissingDropName)
    case Some(dropName) =>
      match SplitDropName(dropName)
      case None => Failure(InvalidDropName(dropName))
      case Some((category, tier)) =>
        if category !in drops then Failure(UnknownDropCategory(category))
        else if tier !in drops[category] then Failure(UnknownDropTier(category, tier))
        else
          match GetString(node.GetKey("downgrade"))
          case None => Success(UnitData(drops[category][tier], None))
          case Some(name) =>
            if name !in units then Failure(UnknownUnit(name)) else Success(UnitData(drops[category][tier], Some(units[name])))
  }

  /** A unit whose drop is written "category_tier" gets that tier's list. */
  lemma UnitGetsNamedTier(drops: DropTable, category: string, tier: string, units: ContentDecoder.Catalog)
    requires '_' !in category && category in drops && tier in drops[category]
    ensures ParseUnit(drops, MapNode(map["drop" := Leaf(Some(category + "_" + tier))]), units)
      == Success(UnitData(drops[category][tier], None))
  {
    SplitJoinDropName(category, tier);
  }

  /** A drop name without an underscore is refused, whatever the table. */
  lemma DropNameNeedsUnderscore(drops: DropTable, node: ConfigNode, units: ContentDecoder.Catalog)
    requires GetString(node.GetKey("drop")).Some? && '_' !in GetString(node.GetKey("drop")).value
    ensures ParseUnit(drops, node, units) == Failure(InvalidDropName(GetString(node.GetKey("drop")).value))
  {
  }

  /** The `buildable-on-path` list: null when the node is null, else each
      element's text looked up as a block, in order. */
  function ParseBlocks(n: Option<ConfigNode>, blocks: ContentDecoder.Catalog): (r: Result<Option<seq<ContentDecoder.Content>>, LoadError>)
    ensures IsNull(n) ==> r == Success(None)
    ensures !IsNull(n) ==> (r.Success? <==> forall i :: 0 <= i < |ChildrenList(n)| ==>
      GetString(Some(ChildrenList(n)[i])).Some? && GetString(Some(ChildrenList(n)[i])).value in blocks)
    ensures r.Success? && !IsNull(n) ==>
      && r.value.Some? && |r.value.value| == |ChildrenList(n)|
      && forall i :: 0 <= i < |ChildrenList(n)| ==> r.value.value[i] == blocks[GetString(Some(ChildrenList(n)[i])).value]
  {
    if IsNull(n) then Success(None)
    else
      var found :- LookupBlocks(ChildrenList(n), |ChildrenList(n)|, blocks);
      Success(Some(found))
  }

  /** The first `k` block names looked up; the first unknown one throws. */
  function LookupBlocks(nodes: seq<ConfigNode>, k: nat, blocks: ContentDecoder.Catalog): (r: Result<seq<ContentDecoder.Content>, LoadError>)
    requires k <= |nodes|
    ensures r.Success? <==> forall i :: 0 <= i < k ==> GetString(Some(nodes[i])).Some? && GetString(Some(nodes[i])).value in blocks
    ensures r.Success? ==> |r.value| == k && forall i :: 0 <= i < k ==> r.value[i] == blocks[GetString(Some(nodes[i])).value]
    ensures r.Failure? ==> r.error.UnknownBlock?
  {
    if k == 0 then Success([])
    else
      var prefix :- LookupBlocks(nodes, k - 1, blocks);
      var name := GetString(Some(nodes[k - 1]));
      if name.None? || name.value !in blocks then Failure(UnknownBlock(name))
      else Success(prefix + [blocks[name.value]])
  }

  /** The settings the tower plugin's `load` builds. */
  datatype TowerSettings = TowerSettings(
    healthMultiplier: real,
    mitosis: bool,
    downgrade: bool,
    unitBind: bool,
    buildableOnPath: Option<seq<ContentDecoder.Content>>,
    drops: DropTable,
    units: map<string, UnitData>)

  const DefaultHealthMultiplier: real := 1.03
  const DefaultMitosis: bool := true
  const DefaultDowngrade: bool := true
  const DefaultUnitBind: bool := false

  /** Every element of a list node reads as a drop. */
  predicate ListReads(list: ConfigNode, items: ContentDecoder.Catalog, co: Coercions) {
    forall i :: 0 <= i < |ChildrenList(Some(list))| ==> ParseDrop(ChildrenList(Some(list))[i], items, co).Success?
  }

  /** `ds` is what the elements of a list node read as, one drop each, in
      order. */
  predicate ListReadsAs(list: ConfigNode, ds: seq<Drops.Drop>, items: ContentDecoder.Catalog, co: Coercions) {
    && |ds| == |ChildrenList(Some(list))|
    && forall i :: 0 <= i < |ds| ==> ParseDrop(ChildrenList(Some(list))[i], items, co) == Success(ds[i])
  }

  /** Every drop read from a list satisfies the drop invariant. */
  lemma ListReadsAreWellFormed(list: ConfigNode, ds: seq<Drops.Drop>, items: ContentDecoder.Catalog, co: Coercions)
    requires ListReadsAs(list, ds, items, co)
    ensures forall i :: 0 <= i < |ds| ==> Drops.WellFormed(ds[i])
  {
    forall i | 0 <= i < |ds| ensures Drops.WellFormed(ds[i]) {
      assert ParseDrop(ChildrenList(Some(list))[i], items, co) == Success(ds[i]);
    }
  }

  /** The tiers of one drop category: each tier's list read drop by drop. */
  function ReadTiers(tiers: ConfigNode, items: ContentDecoder.Catalog, co: Coercions): (r: Result<map<string, seq<Drops.Drop>>, LoadError>)
    ensures r.Success? <==> forall t :: t in ChildrenMap(Some(tiers)) ==> ListReads(ChildrenMap(Some(tiers))[t], items, co)
    ensures r.Success? ==>
      && r.value.Keys == ChildrenMap(Some(tiers)).Keys
      && forall t :: t in r.value ==> ListReadsAs(ChildrenMap(Some(tiers))[t], r.value[t], items, co)
  {
    ReadEntries(ChildrenMap(Some(tiers)), (tier: string, list: ConfigNode) => ParseDropList(ChildrenList(Some(list)), items, co))
  }

  /** The `drops` section: categories, then tiers. */
  function Categories(root: ConfigNode): map<string, ConfigNode> {
    ChildrenMap(root.GetKey("drops"))
  }

  /** Every tier list of every category reads. */
  predicate DropsReadable(root: ConfigNode, items: ContentDecoder.Catalog, co: Coercions) {
    forall c, t :: c in Categories(root) && t in ChildrenMap(Some(Categories(root)[c])) ==>
      ListReads(ChildrenMap(Some(Categories(root)[c]))[t], items, co)
  }

  /** Lines 148-158: the drop table, built exactly when every list reads,
      with the categories and tiers of the file and each list's drops. */
  function ReadDropTable(root: ConfigNode, items: ContentDecoder.Catalog, co: Coercions): (r: Result<DropTable, LoadError>)
    ensures r.Success? <==> DropsReadable(root, items, co)
    ensures r.Success? ==> r.value.Keys == Categories(root).Keys
    ensures r.Success? ==> forall c :: c in r.value ==>
      && r.value[c].Keys == ChildrenMap(Some(Categories(root)[c])).Keys
      && forall t :: t in r.value[c] ==> ListReadsAs(ChildrenMap(Some(Categories(root)[c]))[t], r.value[c][t], items, co)
  {
    var r := ReadEntries(Categories(root), (category: string, tiers: ConfigNode) => ReadTiers(tiers, items, co));
    if r.Success? then
      assert forall c :: c in Categories(root) ==> Success(r.value[c]) == ReadTiers(Categories(root)[c], items, co);
      r
    else r
  }

  /** The `units` section. */
  function UnitEntries(root: ConfigNode): map<string, ConfigNode> {
    ChildrenMap(root.GetKey("units"))
  }

  /** One unit entry: its key must name a unit, then `parseUnit`. */
  function ReadUnit(drops: DropTable, name: string, node: ConfigNode, units: ContentDecoder.Catalog): (r: Result<UnitData, LoadError>)
    ensures r.Success? <==> name in units && ParseUnit(drops, node, units).Success?
    ensures name !in units ==> r == Failure(UnknownUnit(name))
    ensures r.Success? ==> Success(r.value) == ParseUnit(drops, node, units)
  {
    if name !in units then Failure(UnknownUnit(name)) else ParseUnit(drops, node, units)
  }

  /** Every unit key names a unit and its entry parses against `drops`. */
  predicate UnitsReadable(root: ConfigNode, units: ContentDecoder.Catalog, drops: DropTable) {
    forall name :: name in UnitEntries(root) ==> name in units && ParseUnit(drops, UnitEntries(root)[name], units).Success?
  }

  /** The tower plugin's `load`, after the file is in place: the block
      list, the drop table, the units, then the four plain settings with
      their defaults. It succeeds exactly when the blocks are known, every
      drop list reads and every unit entry parses against the drop table. */
  function TowerLoad(root: ConfigNode, reg: Registry, co: Coercions): (r: Result<TowerSettings, LoadError>)
    ensures r.Success? <==>
      && ParseBlocks(root.GetKey("buildable-on-path"), reg.blocks).Success?
      && DropsReadable(root, reg.items, co)
      && UnitsReadable(root, reg.units, ReadDropTable(root, reg.items, co).value)
    ensures r.Success? ==>
      && r.value.healthMultiplier == GetFloat(root.GetKey("health-multiplier"), DefaultHealthMultiplier, co)
      && r.value.mitosis == GetBool(root.GetKey("mitosis"), DefaultMitosis, co)
      && r.value.downgrade == GetBool(root.GetKey("downgrade"), DefaultDowngrade, co)
      && r.value.unitBind == GetBool(root.GetKey("unit-bind"), DefaultUnitBind, co)
    ensures r.Success? ==> Success(r.value.buildableOnPath) == ParseBlocks(root.GetKey("buildable-on-path"), reg.blocks)
    ensures r.Success? ==> Success(r.value.drops) == ReadDropTable(root, reg.items, co)
    ensures r.Success? ==>
      && r.value.units.Keys == UnitEntries(root).Keys
      && forall name :: name in r.value.units ==>
           name in reg.units && Success(r.value.units[name]) == ParseUnit(r.value.drops, UnitEntries(root)[name], reg.units)
  {
    var blocks :- ParseBlocks(root.GetKey("buildable-on-path"), reg.blocks);
    var drops :- ReadDropTable(root, reg.items, co);
    var units :- ReadEntries(UnitEntries(root), (name: string, node: ConfigNode) => ReadUnit(drops, name, node, reg.units));
    Success(TowerSettings(
      GetFloat(root.GetKey("health-multiplier"), DefaultHealthMultiplier, co),
      GetBool(root.GetKey("mitosis"), DefaultMitosis, co),
      GetBool(root.GetKey("downgrade"), DefaultDowngrade, co),
      GetBool(root.GetKey("unit-bind"), DefaultUnitBind, co),
      blocks, drops, units))
  }

  /** Every drop a successful load holds satisfies the drop invariant. */
  lemma LoadedDropsAreWellFormed(root: ConfigNode, reg: Registry, co: Coercions)
    requires TowerLoad(root, reg, co).Success?
    ensures var drops := TowerLoad(root, reg, co).value.drops;
      forall c, t, i :: c in drops && t in drops[c] && 0 <= i < |drops[c][t]| ==> Drops.WellFormed(drops[c][t][i])
  {
    var drops := TowerLoad(root, reg, co).value.drops;
    forall c, t, i | c in drops && t in drops[c] && 0 <= i < |drops[c][t]| ensures Drops.WellFormed(drops[c][t][i]) {
      ListReadsAreWellFormed(ChildrenMap(Some(Categories(root)[c]))[t], drops[c][t], reg.items, co);
    }
  }

  /** Each loaded unit carries the very list of the drop table its `drop`
      name points at: the category before the first underscore, the tier
      after it. */
  lemma UnitDropsComeFromTable(root: ConfigNode, reg: Registry, co: Coercions, name: string)
    requires TowerLoad(root, reg, co).Success?
    requires name in TowerLoad(root, reg, co).value.units
    ensures var s := TowerLoad(root, reg, co).value;
      var dropName := GetString(UnitEntries(root)[name].GetKey("drop"));
      && dropName.Some? && SplitDropName(dropName.value).Some?
      && var (c, t) := SplitDropName(dropName.value).value;
      && c in s.drops && t in s.drops[c] && s.units[name].drop == s.drops[c][t]
  {
  }

  /** An empty configuration loads with the documented defaults: health
      multiplier 1.03, mitosis and downgrade on, unit binding off, no
      buildable-on-path list, and no drops or units. */
  lemma EmptyConfigurationDefaults(reg: Registry, co: Coercions)
    ensures TowerLoad(MapNode(map[]), reg, co)
      == Success(TowerSettings(1.03, true, true, false, None, map[], map[]))
  {
  }

  /** A unit entry whose key is no unit name makes the whole load fail. */
  lemma UnknownUnitFailsLoad(root: ConfigNode, reg: Registry, co: Coercions, name: string)
    requires name in ChildrenMap(root.GetKey("units")) && name !in reg.units
    ensures TowerLoad(root, reg, co).Failure?
  {
  }
}

=== FILE: record_decoder.dfy ===
/** `PatchedRecordDecoder`: binds a map node to a record by resolving every
    component in declaration order (present child, else annotated default,
    else a best-effort decode of the absent node, else null for a nullable
    component, else a missing-value error) and building the record only if
    none of the collected errors is blocking. */
module RecordDecoder {
  import opened Wrappers
  import opened Nodes

  /** The `@Config` annotation on a component's accessor; both elements
      default to the empty string. */
  datatype ConfigAnnotation = ConfigAnnotation(path: string, defaultVal: string)

  /** A record component as reflection reports it: its name, its `@Config`
      annotation if any, the type names of its declared annotations, and its
      declared type. */
  datatype Component<T> = Component(
    name: string,
    config: Option<ConfigAnnotation>,
    annotations: seq<string>,
    ty: T)

  /** A record class: its simple name and its components in index order. */
  datatype RecordType<T> = RecordType(className: string, components: seq<Component<T>>)

  /** The target type a decoder is asked about. */
  datatype Target<T> = RecordTarget(record: RecordType<T>) | OtherTarget(name: string)

  /** The decoder service collaborators: `getNextNode` finds a child of a
      node, `decodeNode` decodes a (possibly absent) node to a type. */
  datatype Services<!T, V> = Services(
    nextNode: (Path, string, ConfigNode) -> GResult<ConfigNode>,
    decodeNode: (Path, Option<ConfigNode>, T) -> GResult<V>)

  const DecoderName: string := "Record"

  /** `canDecode`: only record types are claimed, whatever the node or path. */
  function CanDecode<T>(path: Path, node: ConfigNode, target: Target<T>): (r: bool)
    ensures r <==> target.RecordTarget?
  {
    target.RecordTarget?
  }

  /** The key a component is looked up under: the `@Config` path when it is
      non-empty, otherwise the component's name. */
  function ComponentKey<T>(c: Component<T>): string {
    if c.config.Some? && c.config.value.path != "" then c.config.value.path else c.name
  }

  predicate HasDefault<T>(c: Component<T>) {
    c.config.Some? && c.config.value.defaultVal != ""
  }

  /** The ASCII lower-case form of a string (`toLowerCase(Locale.ROOT)`). */
  function Lower(s: string): (r: string)
    ensures |r| == |s|
    ensures forall i :: 0 <= i < |s| && 'A' <= s[i] <= 'Z' ==> r[i] as int == s[i] as int + 32
    ensures forall i :: 0 <= i < |s| && !('A' <= s[i] <= 'Z') ==> r[i] == s[i]
    ensures forall i :: 0 <= i < |r| ==> !('A' <= r[i] <= 'Z')
  {
    seq(|s|, i requires 0 <= i < |s| => if 'A' <= s[i] <= 'Z' then (s[i] as int + 32) as char else s[i])
  }

  /** `String.contains`. */
  predicate Contains(s: string, part: string) {
    part <= s || (|s| > 0 && Contains(s[1..], part))
  }

  lemma {:induction false} ShorterContainsNothing(s: string, part: string)
    requires |s| < |part|
    ensures !Contains(s, part)
  {
    if |s| > 0 {
      ShorterContainsNothing(s[1..], part);
    }
  }

  /** `isNullableAnnotation`: some annotation's type name contains
      "nullable", ignoring case. */
  predicate IsNullableAnnotation(annotations: seq<string>) {
    exists a :: a in annotations && Contains(Lower(a), "nullable")
  }

  function OptionalMissing(next: Path, className: string): ValidationError {
    OptionalMissingValueDecoding(next, DecoderName, className)
  }

  /** The three ways of finding a value for one component, before the
      nullable check: decode the child, else the default, else the absent node. */
  function Stage<T, V>(svc: Services<T, V>, next: Path, className: string, c: Component<T>, child: Option<ConfigNode>)
    : GResult<V>
  {
    if child.Some? then
      svc.decodeNode(next, child, c.ty)
    else if HasDefault(c) then
      var d := svc.decodeNode(next, Some(Leaf(Some(c.config.value.defaultVal))), c.ty);
      if d.result.Some? then GResult(d.result, d.errors + [OptionalMissing(next, className)])
      else GResult(None, d.errors)
    else
      var a := svc.decodeNode(next, None, c.ty);
      if a.result.Some? then GResult(a.result, NotLevel(a.errors, MissingOptionalValue) + [OptionalMissing(next, className)])
      else GResult(None, [])
  }

  /** The path of a component below the record's path. */
  function NextPath<T>(path: Path, c: Component<T>): Path {
    ForKey(path, [ComponentKey(c)])
  }

  /** One iteration of the component loop: the component's value (`None`
      for null) and the errors it adds. */
  function Resolve<T, V>(svc: Services<T, V>, path: Path, node: ConfigNode, className: string, c: Component<T>)
    : GResult<V>
  {
    var next := NextPath(path, c);
    var lookedUp := svc.nextNode(next, ComponentKey(c), node);
    var stage := Stage(svc, next, className, c, lookedUp.result);
    var closing :=
      if stage.result.Some? then []
      else if IsNullableAnnotation(c.annotations) then [OptionalMissing(next, className)]
      else [NoResultsFoundForNode(next, className, "record decoding")];
    GResult(stage.result, NotLevel(lookedUp.errors, MissingValue) + stage.errors + closing)
  }

  /** The loop over the first `k` components: their values in index order and
      all errors, none of which stops the loop. */
  function ResolveAll<T, V>(svc: Services<T, V>, path: Path, node: ConfigNode, rt: RecordType<T>, k: nat)
    : (r: (seq<Option<V>>, seq<ValidationError>))
    requires k <= |rt.components|
    ensures |r.0| == k
    ensures forall i :: 0 <= i < k ==> r.0[i] == Resolve(svc, path, node, rt.className, rt.components[i]).result
    ensures forall e :: e in r.1 <==>
      exists i :: 0 <= i < k && e in Resolve(svc, path, node, rt.className, rt.components[i]).errors
  {
    if k == 0 then ([], [])
    else
      var prev := ResolveAll(svc, path, node, rt, k - 1);
      var last := Resolve(svc, path, node, rt.className, rt.components[k - 1]);
      (prev.0 + [last.result], prev.1 + last.errors)
  }

  /** `decode`: a non-map node is one error and no record; otherwise every
      component is resolved and the record is built iff no collected error
      is blocking. */
  function Decode<T, V>(svc: Services<T, V>, path: Path, node: ConfigNode, rt: RecordType<T>)
    : (r: GResult<seq<Option<V>>>)
    ensures !node.MapNode? ==> r == GResult(None, [DecodingExpectedLeafNodeType(path, DecoderName)])
    ensures node.MapNode? ==> (r.result.Some? <==> !AnyBlocking(r.errors))
    ensures node.MapNode? ==> forall e :: e in r.errors <==>
      exists i :: 0 <= i < |rt.components| && e in Resolve(svc, path, node, rt.className, rt.components[i]).errors
    ensures r.result.Some? ==> |r.result.value| == |rt.components|
    ensures r.result.Some? ==> forall i :: 0 <= i < |rt.components| ==>
      r.result.value[i] == Resolve(svc, path, node, rt.className, rt.components[i]).result
  {
    if !node.MapNode? then GResult(None, [DecodingExpectedLeafNodeType(path, DecoderName)])
    else
      var all := ResolveAll(svc, path, node, rt, |rt.components|);
      if AnyBlocking(all.1) then GResult(None, all.1) else GResult(Some(all.0), all.1)
  }

  /** What `canDecode` promises `decode`: a claimed target is a record,
      whatever the path and node it is asked about, and a claimed target
      met with a node that is not a map gets exactly the expected-leaf
      error and no value. */
  lemma ClaimedTargetDecodes<T, V>(svc: Services<T, V>, path: Path, node: ConfigNode, target: Target<T>)
    requires CanDecode(path, node, target)
    ensures target.RecordTarget?
    ensures forall p: Path, n: ConfigNode :: CanDecode(p, n, target)
    ensures !node.MapNode? ==>
      Decode(svc, path, node, target.record) == GResult(None, [DecodingExpectedLeafNodeType(path, DecoderName)])
  {
  }

  // ---------------------------------------------------------------------
  // Properties of one component
  // ---------------------------------------------------------------------

  /** The lookup key is the `@Config` path when one is given, else the name. */
  lemma KeyIsConfigPathOrName<T>(c: Component<T>)
    ensures c.config.Some? && c.config.value.path != "" ==> ComponentKey(c) == c.config.value.path
    ensures c.config.None? || c.config.value.path == "" ==> ComponentKey(c) == c.name
  {
  }

  /** A present child is decoded and decides the component alone: its
      errors are all kept, the component is set iff that decode yields a
      value, and the default is never consulted. */
  lemma PresentChildDecides<T, V>(svc: Services<T, V>, path: Path, node: ConfigNode, className: string,
                                  c: Component<T>, other: Option<ConfigAnnotation>)
    requires svc.nextNode(NextPath(path, c), ComponentKey(c), node).result.Some?
    requires other.Some? ==> other.value.path == if c.config.Some? then c.config.value.path else ""
    requires other.None? ==> c.config.None? || c.config.value.path == ""
    ensures var next := NextPath(path, c);
      var child := svc.nextNode(next, ComponentKey(c), node).result;
      var d := svc.decodeNode(next, child, c.ty);
      var r := Resolve(svc, path, node, className, c);
      && r.result == d.result
      && (forall e :: e in d.errors ==> e in r.errors)
      && r == Resolve(svc, path, node, className, c.(config := other))
  {
    var c' := c.(config := other);
    assert ComponentKey(c') == ComponentKey(c);
  }

  /** An absent component with a non-empty default that decodes is set from
      the default, adding exactly one OptionalMissingValueDecoding. */
  lemma AbsentComponentTakesDefault<T, V>(svc: Services<T, V>, path: Path, node: ConfigNode, className: string, c: Component<T>)
    requires svc.nextNode(NextPath(path, c), ComponentKey(c), node).result.None?
    requires HasDefault(c)
    requires svc.decodeNode(NextPath(path, c), Some(Leaf(Some(c.config.value.defaultVal))), c.ty).result.Some?
    ensures var next := NextPath(path, c);
      var lookedUp := svc.nextNode(next, ComponentKey(c), node);
      var d := svc.decodeNode(next, Some(Leaf(Some(c.config.value.defaultVal))), c.ty);
      Resolve(svc, path, node, className, c)
        == GResult(d.result, NotLevel(lookedUp.errors, MissingValue) + d.errors + [OptionalMissing(next, className)])
  {
  }

  /** An absent component without a default is decoded from the absent
      node: on success it keeps that decode's errors except those at
      MISSING_OPTIONAL_VALUE level, plus one OptionalMissingValueDecoding; on
      failure that decode's errors are dropped. */
  lemma AbsentComponentWithoutDefault<T, V>(svc: Services<T, V>, path: Path, node: ConfigNode, className: string, c: Component<T>)
    requires svc.nextNode(NextPath(path, c), ComponentKey(c), node).result.None?
    requires !HasDefault(c)
    ensures var next := NextPath(path, c);
      var lookErrors := NotLevel(svc.nextNode(next, ComponentKey(c), node).errors, MissingValue);
      var a := svc.decodeNode(next, None, c.ty);
      var r := Resolve(svc, path, node, className, c);
      && r.result == a.result
      && (a.result.Some? ==>
            r.errors == lookErrors + NotLevel(a.errors, MissingOptionalValue) + [OptionalMissing(next, className)])
      && (a.result.None? ==> r.errors[..|lookErrors|] == lookErrors && |r.errors| == |lookErrors| + 1)
  {
  }

  /** A component left without a value is null; it adds a blocking
      NoResultsFoundForNode unless some annotation's name contains
      "nullable", and then a non-blocking OptionalMissingValueDecoding. */
  lemma UnresolvedComponent<T, V>(svc: Services<T, V>, path: Path, node: ConfigNode, className: string, c: Component<T>)
    requires Resolve(svc, path, node, className, c).result.None?
    ensures var r := Resolve(svc, path, node, className, c);
      var next := NextPath(path, c);
      && |r.errors| > 0
      && (IsNullableAnnotation(c.annotations) ==> r.errors[|r.errors| - 1] == OptionalMissing(next, className))
      && (!IsNullableAnnotation(c.annotations) ==>
            r.errors[|r.errors| - 1] == NoResultsFoundForNode(next, className, "record decoding")
            && AnyBlocking(r.errors))
  {
    var r := Resolve(svc, path, node, className, c);
    if !IsNullableAnnotation(c.annotations) {
      assert Blocking(r.errors[|r.errors| - 1]);
    }
  }

  /** Lookup errors at MISSING_VALUE level are filtered out: such an error
      reaches the component's list only if the decode or the binder itself
      reports it too. */
  lemma LookupMissingValueErrorsDropped<T, V>(svc: Services<T, V>, path: Path, node: ConfigNode, className: string,
                                              c: Component<T>, e: ValidationError)
    requires e in svc.nextNode(NextPath(path, c), ComponentKey(c), node).errors
    requires e.Severity() == MissingValue
    requires e !in Stage(svc, NextPath(path, c), className, c, svc.nextNode(NextPath(path, c), ComponentKey(c), node).result).errors
    requires e != NoResultsFoundForNode(NextPath(path, c), className, "record decoding")
    ensures e !in Resolve(svc, path, node, className, c).errors
  {
  }

  /** Lower-casing works character by character, so it commutes with
      taking a slice. */
  lemma LowerSlice(s: string, i: nat, j: nat)
    requires i <= j <= |s|
    ensures Lower(s)[i..j] == Lower(s[i..j])
  {
  }

  /** `part` occurs in `s` at offset `k`. */
  predicate OccursAt(s: string, part: string, k: int) {
    0 <= k && k + |part| <= |s| && s[k..k + |part|] == part
  }

  /** `Contains` finds `part` exactly when it occurs at some offset. */
  lemma {:induction false} ContainsAt(s: string, part: string)
    ensures Contains(s, part) <==> exists k :: OccursAt(s, part, k)
  {
    if |s| > 0 {
      ContainsAt(s[1..], part);
      if part <= s {
        assert OccursAt(s, part, 0);
      } else if Contains(s[1..], part) {
        var k :| OccursAt(s[1..], part, k);
        assert s[1..][k..k + |part|] == s[k + 1..k + 1 + |part|];
        assert OccursAt(s, part, k + 1);
      }
      if k :| OccursAt(s, part, k) {
        if k > 0 {
          assert s[1..][k - 1..k - 1 + |part|] == s[k..k + |part|];
          assert OccursAt(s[1..], part, k - 1);
        } else {
          assert part <= s;
        }
      }
    } else {
      if part <= s {
        assert OccursAt(s, part, 0);
      }
      if k :| OccursAt(s, part, k) {
        assert part == [];
      }
    }
  }

  /** Some stretch of `a` spells `word` in any mix of upper and lower case. */
  ghost predicate SpelledWithin(a: string, word: string) {
    exists i, j :: 0 <= i <= j <= |a| && Lower(a[i..j]) == word
  }

  /** A word found in the lower-cased name is spelled by the stretch of the
      name at the same offset. */
  lemma FoundIsSpelled(a: string, word: string, k: int)
    requires OccursAt(Lower(a), word, k)
    ensures Lower(a[k..k + |word|]) == word
  {
    LowerSlice(a, k, k + |word|);
  }

  /** A stretch that spells a word puts the word into the lower-cased name
      at the stretch's offset. */
  lemma SpelledIsFound(a: string, word: string, i: nat, j: nat)
    requires i <= j <= |a| && Lower(a[i..j]) == word
    ensures OccursAt(Lower(a), word, i)
  {
    LowerSlice(a, i, j);
  }

  /** The lower-cased name contains a word exactly when some stretch of the
      name spells it. */
  lemma LowerContainsIffSpelled(a: string, word: string)
    ensures Contains(Lower(a), word) <==> SpelledWithin(a, word)
  {
    ContainsAt(Lower(a), word);
    if Contains(Lower(a), word) {
      var k :| OccursAt(Lower(a), word, k);
      FoundIsSpelled(a, word, k);
    }
    if SpelledWithin(a, word) {
      var i, j :| 0 <= i <= j <= |a| && Lower(a[i..j]) == word;
      SpelledIsFound(a, word, i, j);
    }
  }

  /** An annotation counts as nullable exactly when some stretch of its type
      name spells "nullable", whatever the case of each letter. */
  lemma NullableIgnoresCase(annotations: seq<string>)
    ensures IsNullableAnnotation(annotations) <==>
      exists a :: a in annotations && SpelledWithin(a, "nullable")
  {
    forall a | a in annotations
      ensures Contains(Lower(a), "nullable") <==> SpelledWithin(a, "nullable")
    {
      LowerContainsIffSpelled(a, "nullable");
    }
  }

  /** Two concrete spellings: "NULLABLE" counts, while "NonNull" and
      "Config" do not. */
  lemma NullableExamples()
    ensures IsNullableAnnotation(["NULLABLE"])
    ensures !IsNullableAnnotation(["NonNull", "Config"])
  {
    assert Lower("NULLABLE") == "nullable";
    assert Contains(Lower("NULLABLE"), "nullable") && "NULLABLE" in ["NULLABLE"];
    ShorterContainsNothing(Lower("NonNull"), "nullable");
    ShorterContainsNothing(Lower("Config"), "nullable");
    assert forall a :: a in ["NonNull", "Config"] ==> a == "NonNull" || a == "Config";
  }

  // ---------------------------------------------------------------------
  // Properties of the whole record
  // ---------------------------------------------------------------------

  /** A required component that stays unresolved (absent, no default, the
      absent decode fails, not nullable) blocks the record, and the error
      list names it. */
  lemma MissingRequiredComponentBlocksRecord<T, V>(svc: Services<T, V>, path: Path, node: ConfigNode, rt: RecordType<T>, j: nat)
    requires node.MapNode? && j < |rt.components|
    requires Resolve(svc, path, node, rt.className, rt.components[j]).result.None?
    requires !IsNullableAnnotation(rt.components[j].annotations)
    ensures var r := Decode(svc, path, node, rt);
      && r.result.None?
      && NoResultsFoundForNode(NextPath(path, rt.components[j]), rt.className, "record decoding") in r.errors
  {
    var c := rt.components[j];
    UnresolvedComponent(svc, path, node, rt.className, c);
    var res := Resolve(svc, path, node, rt.className, c);
    assert res.errors[|res.errors| - 1] in res.errors;
  }

  /** The record is built exactly when every component's own errors are
      free of blocking ones; each built value is that component's result. */
  lemma RecordBuiltIffNoComponentBlocks<T, V>(svc: Services<T, V>, path: Path, node: ConfigNode, rt: RecordType<T>)
    requires node.MapNode?
    ensures Decode(svc, path, node, rt).result.Some? <==>
      forall i :: 0 <= i < |rt.components| ==> !AnyBlocking(Resolve(svc, path, node, rt.className, rt.components[i]).errors)
  {
    var r := Decode(svc, path, node, rt);
    if r.result.None? {
      var e :| e in r.errors && Blocking(e);
      var i :| 0 <= i < |rt.components| && e in Resolve(svc, path, node, rt.className, rt.components[i]).errors;
    }
  }

  /** Errors do not short-circuit: supplying one missing component, and
      changing nothing else, keeps every error the other components reported
      (their OptionalMissingValueDecoding entries included). */
  lemma OtherComponentsUnaffected<T, V>(svc: Services<T, V>, path: Path, before: ConfigNode, after: ConfigNode,
                                        rt: RecordType<T>, j: nat)
    requires before.MapNode? && after.MapNode? && j < |rt.components|
    requires forall i :: 0 <= i < |rt.components| && i != j ==>
      Resolve(svc, path, before, rt.className, rt.components[i]) == Resolve(svc, path, after, rt.className, rt.components[i])
    ensures forall i, e ::
      (0 <= i < |rt.components| && i != j && e in Resolve(svc, path, before, rt.className, rt.components[i]).errors)
      ==> e in Decode(svc, path, before, rt).errors && e in Decode(svc, path, after, rt).errors
  {
  }
}

=== FILE: sealed_decoder.dfy ===
/** `SealedConfigDecoder` (and its verbatim nested copy in
    `TowerConfigProvider`): decodes a map node to one variant of a sealed
    type. The variant table maps each `@SealedConfig` name to its class and
    is checked when it is built. The `type` key picks the variant and the
    annotation's `def` is the fallback; the whole node then goes to that
    variant's decoder. */
module SealedDecoder {
  import opened Wrappers
  import opened Nodes

  /** `@SealedConfig(name = ..., def = ...)`; both elements default to "". */
  datatype SealedConfig = SealedConfig(name: string, def: string)

  /** A field reflection can see on a class, with its visibility. */
  datatype FieldInfo = FieldInfo(name: string, isPublic: bool)

  /** What reflection reports about a class: its name, whether it is
      sealed, its annotation, its permitted subclasses and its fields. */
  datatype ClassInfo = ClassInfo(
    name: string,
    isSealed: bool,
    sealedConfig: Option<SealedConfig>,
    permitted: seq<ClassInfo>,
    fields: seq<FieldInfo>)

  /** The setup exceptions: a programming defect, not bad input. */
  datatype SetupError =
    | MissingAnnotation(className: string)
    | SubtypeNameRequired(className: string)
    | DuplicateName(className: string)
    | ConflictingTypeField(className: string)
    | MissingDefault(className: string)
    | UnknownDefault(className: string, def: string)

  const Discriminator: string := "type"
  const DecoderName: string := "SealedConfig"

  /** `Character.isWhitespace`. */
  predicate IsWhitespace(c: char) {
    || '\U{0009}' <= c <= '\U{000D}'
    || '\U{001C}' <= c <= '\U{0020}'
    || c == '\U{1680}'
    || ('\U{2000}' <= c <= '\U{200A}' && c != '\U{2007}')
    || c == '\U{2028}' || c == '\U{2029}' || c == '\U{205F}' || c == '\U{3000}'
  }

  /** `String.isBlank`: empty, or white space only. */
  predicate IsBlank(s: string) {
    forall i :: 0 <= i < |s| ==> IsWhitespace(s[i])
  }

  /** `Class.getField("type")` finds the field: only public fields are seen. */
  predicate HasPublicTypeField(c: ClassInfo) {
    exists f :: f in c.fields && f.name == Discriminator && f.isPublic
  }

  /** The class declares a field named `type`, whatever its visibility. */
  predicate HasTypeField(c: ClassInfo) {
    exists f :: f in c.fields && f.name == Discriminator
  }

  /** The conflict check: a field named `type` that is public or, when
      `publicOnly` is false, of any visibility. */
  predicate Conflicts(c: ClassInfo, publicOnly: bool) {
    if publicOnly then HasPublicTypeField(c) else HasTypeField(c)
  }

  /** The name a well-annotated variant registers under. */
  function VariantName(c: ClassInfo): string
    requires c.sealedConfig.Some?
  {
    c.sealedConfig.value.name
  }

  /** The table-building loop over the first `k` permitted subclasses;
      `publicOnly` selects which fields the conflict check sees. */
  function TableWith(perm: seq<ClassInfo>, k: nat, publicOnly: bool)
    : (r: Result<map<string, ClassInfo>, SetupError>)
    requires k <= |perm|
    ensures r.Success? ==> ValidVariants(perm, k, publicOnly)
    ensures r.Success? ==> forall i :: 0 <= i < k ==> VariantName(perm[i]) in r.value && r.value[VariantName(perm[i])] == perm[i]
  {
    if k == 0 then Success(map[])
    else
      var names :- TableWith(perm, k - 1, publicOnly);
      var p := perm[k - 1];
      if p.sealedConfig.None? then Failure(MissingAnnotation(p.name))
      else if IsBlank(VariantName(p)) then Failure(SubtypeNameRequired(p.name))
      else if VariantName(p) in names then Failure(DuplicateName(p.name))
      else if Conflicts(p, publicOnly) then Failure(ConflictingTypeField(p.name))
      else Success(names[VariantName(p) := p])
  }

  /** The checks one variant can fail: no annotation, a blank name, a name
      an earlier variant took, or a conflicting field. */
  predicate Faulty(perm: seq<ClassInfo>, i: nat, publicOnly: bool)
    requires i < |perm|
  {
    || perm[i].sealedConfig.None?
    || IsBlank(VariantName(perm[i]))
    || (exists j :: 0 <= j < i && perm[j].sealedConfig.Some? && VariantName(perm[j]) == VariantName(perm[i]))
    || Conflicts(perm[i], publicOnly)
  }

  /** The invariants of a variant table: every variant annotated with a
      non-blank name, no conflicting field, and no name twice. */
  predicate ValidVariants(perm: seq<ClassInfo>, k: nat, publicOnly: bool)
    requires k <= |perm|
  {
    && (forall i :: 0 <= i < k ==>
          perm[i].sealedConfig.Some? && !IsBlank(VariantName(perm[i])) && !Conflicts(perm[i], publicOnly))
    && (forall i, j :: 0 <= i < j < k ==> VariantName(perm[i]) != VariantName(perm[j]))
  }

  /** A table holds no name other than its variants' own. */
  lemma {:induction false} TableHoldsOnlyVariants(perm: seq<ClassInfo>, k: nat, publicOnly: bool)
    requires k <= |perm| && TableWith(perm, k, publicOnly).Success?
    ensures TableWith(perm, k, publicOnly).value.Keys == set i | 0 <= i < k :: VariantName(perm[i])
  {
    if k > 0 {
      TableHoldsOnlyVariants(perm, k - 1, publicOnly);
    }
  }

  /** A failure names a variant that fails one of the checks. */
  lemma {:induction false} TableFailureNamesFaultyVariant(perm: seq<ClassInfo>, k: nat, publicOnly: bool)
    requires k <= |perm| && TableWith(perm, k, publicOnly).Failure?
    ensures exists i :: 0 <= i < k && TableWith(perm, k, publicOnly).error.className == perm[i].name && Faulty(perm, i, publicOnly)
  {
    var prefix := TableWith(perm, k - 1, publicOnly);
    if prefix.Failure? {
      TableFailureNamesFaultyVariant(perm, k - 1, publicOnly);
    } else {
      var p := perm[k - 1];
      if p.sealedConfig.Some? && !IsBlank(VariantName(p)) && VariantName(p) in prefix.value {
        TableHoldsOnlyVariants(perm, k - 1, publicOnly);
        var j :| 0 <= j < k - 1 && VariantName(perm[j]) == VariantName(p);
        assert Faulty(perm, k - 1, publicOnly);
      }
    }
  }

  /** The table builds exactly when its variants are valid. */
  lemma TableWithSucceeds(perm: seq<ClassInfo>, k: nat, publicOnly: bool)
    requires k <= |perm|
    ensures TableWith(perm, k, publicOnly).Success? <==> ValidVariants(perm, k, publicOnly)
  {
    var r := TableWith(perm, k, publicOnly);
    if r.Failure? {
      TableFailureNamesFaultyVariant(perm, k, publicOnly);
    }
    if r.Failure? {
      var i :| 0 <= i < k && r.error.className == perm[i].name && Faulty(perm, i, publicOnly);
      if perm[i].sealedConfig.Some? && !IsBlank(VariantName(perm[i])) && !Conflicts(perm[i], publicOnly) {
        var j :| 0 <= j < i && perm[j].sealedConfig.Some? && VariantName(perm[j]) == VariantName(perm[i]);
      }
    }
  }

  /** `getSealedConfigSubclasses`, with the conflict check selected by
      `publicOnly`: its keys are the variants' names, each mapped to its
      variant, and no variant in it has a conflicting field. */
  function TableFor(clazz: ClassInfo, publicOnly: bool): (r: Result<map<string, ClassInfo>, SetupError>)
    ensures r.Success? <==> ValidVariants(clazz.permitted, |clazz.permitted|, publicOnly)
    ensures r.Success? ==> r.value.Keys == set i | 0 <= i < |clazz.permitted| :: VariantName(clazz.permitted[i])
    ensures r.Success? ==> forall i :: 0 <= i < |clazz.permitted| ==> r.value[VariantName(clazz.permitted[i])] == clazz.permitted[i]
    ensures r.Success? ==> forall v :: v in r.value.Values ==> !Conflicts(v, publicOnly)
  {
    var perm := clazz.permitted;
    TableWithSucceeds(perm, |perm|, publicOnly);
    var r := TableWith(perm, |perm|, publicOnly);
    if r.Success? then (TableHoldsOnlyVariants(perm, |perm|, publicOnly); r) else r
  }

  /** `getSealedConfigSubclasses` as written: the conflict check sees public
      fields only, so a variant in the table may still have a private field
      named `type`. */
  function TableAsWritten(clazz: ClassInfo): (r: Result<map<string, ClassInfo>, SetupError>)
    ensures r.Success? <==> ValidVariants(clazz.permitted, |clazz.permitted|, true)
    ensures r.Success? ==> forall v :: v in r.value.Values ==> !HasPublicTypeField(v)
  {
    TableFor(clazz, true)
  }

  /** `getSealedConfigSubclasses` with the conflict check its error message
      describes: any field named `type` is refused. */
  function Table(clazz: ClassInfo): (r: Result<map<string, ClassInfo>, SetupError>)
    ensures r.Success? <==> ValidVariants(clazz.permitted, |clazz.permitted|, false)
    ensures r.Success? ==> r.value.Keys == set i | 0 <= i < |clazz.permitted| :: VariantName(clazz.permitted[i])
    ensures r.Success? ==> forall i :: 0 <= i < |clazz.permitted| ==> r.value[VariantName(clazz.permitted[i])] == clazz.permitted[i]
    ensures r.Success? ==> forall v :: v in r.value.Values ==> !HasTypeField(v)
  {
    TableFor(clazz, false)
  }

  /** The type, annotation and node the decoder claims. */
  predicate Claimed(node: ConfigNode, clazz: ClassInfo) {
    clazz.isSealed && node.MapNode? && clazz.sealedConfig.Some?
  }

  /** `canDecode`, with the table built under the conflict check `publicOnly`
      selects (`true` is the code as written): false unless the type is
      sealed, annotated and paired with a map node; then the table is built
      and the default must be a registered, non-blank name, or setup fails. */
  function CanDecode(path: Path, node: ConfigNode, clazz: ClassInfo, publicOnly: bool): (r: Result<bool, SetupError>)
    ensures !Claimed(node, clazz) ==> r == Success(false)
    ensures Claimed(node, clazz) ==> r != Success(false)
    ensures r == Success(true) <==>
      && Claimed(node, clazz)
      && TableFor(clazz, publicOnly).Success?
      && !IsBlank(clazz.sealedConfig.value.def)
      && clazz.sealedConfig.value.def in TableFor(clazz, publicOnly).value
    ensures Claimed(node, clazz) && TableFor(clazz, publicOnly).Failure? ==> r == Failure(TableFor(clazz, publicOnly).error)
    ensures Claimed(node, clazz) && TableFor(clazz, publicOnly).Success? && IsBlank(clazz.sealedConfig.value.def)
      ==> r == Failure(MissingDefault(clazz.name))
  {
    if !Claimed(node, clazz) then Success(false)
    else
      var names :- TableFor(clazz, publicOnly);
      var def := clazz.sealedConfig.value.def;
      if IsBlank(def) then Failure(MissingDefault(clazz.name))
      else if def !in names then Failure(UnknownDefault(clazz.name, def))
      else Success(true)
  }

  /** `decode`, called by the decoder service only after `canDecode` held:
      the variant named by `type`, else the default, gets the whole node. */
  function Decode<V>(path: Path, node: ConfigNode, clazz: ClassInfo, publicOnly: bool,
                     decodeVariant: (Path, ConfigNode, ClassInfo) -> GResult<V>)
    : (r: GResult<V>)
    requires CanDecode(path, node, clazz, publicOnly) == Success(true)
    ensures || (exists v :: v in clazz.permitted && r == decodeVariant(path, node, v))
            || (r.result.None? && |r.errors| == 1 && r.errors[0].InvalidSealedConfigType?)
  {
    var names := TableFor(clazz, publicOnly).value;
    var property := node.GetKey(Discriminator);
    if property.None? then
      decodeVariant(path, node, names[clazz.sealedConfig.value.def])
    else
      var value := property.value.GetValue();
      if value.None? then GResult(None, [InvalidSealedConfigType(path, clazz.name, "")])
      else if value.value !in names then GResult(None, [InvalidSealedConfigType(path, clazz.name, value.value)])
      else decodeVariant(path, node, names[value.value])
  }

  // ---------------------------------------------------------------------
  // Properties
  // ---------------------------------------------------------------------

  /** Without a `type` key the declared default variant decodes the node. */
  lemma MissingTypeSelectsDefault<V>(path: Path, node: ConfigNode, clazz: ClassInfo, publicOnly: bool, decodeVariant: (Path, ConfigNode, ClassInfo) -> GResult<V>)
    requires CanDecode(path, node, clazz, publicOnly) == Success(true)
    requires Discriminator !in node.entries
    ensures var v := TableFor(clazz, publicOnly).value[clazz.sealedConfig.value.def];
      && v in clazz.permitted && VariantName(v) == clazz.sealedConfig.value.def
      && Decode(path, node, clazz, publicOnly, decodeVariant) == decodeVariant(path, node, v)
  {
  }

  /** A `type` key without a scalar value is an invalid discriminator with
      value "", and no result. */
  lemma TypeWithoutValueIsInvalid<V>(path: Path, node: ConfigNode, clazz: ClassInfo, publicOnly: bool, decodeVariant: (Path, ConfigNode, ClassInfo) -> GResult<V>)
    requires CanDecode(path, node, clazz, publicOnly) == Success(true)
    requires Discriminator in node.entries && node.entries[Discriminator].GetValue().None?
    ensures Decode(path, node, clazz, publicOnly, decodeVariant) == GResult(None, [InvalidSealedConfigType(path, clazz.name, "")])
  {
  }

  /** A `type` value naming no variant is an invalid discriminator carrying
      that value; the error is blocking and nothing is decoded. */
  lemma UnknownTypeIsInvalid<V>(path: Path, node: ConfigNode, clazz: ClassInfo, publicOnly: bool, decodeVariant: (Path, ConfigNode, ClassInfo) -> GResult<V>, value: string)
    requires CanDecode(path, node, clazz, publicOnly) == Success(true)
    requires Discriminator in node.entries && node.entries[Discriminator] == Leaf(Some(value))
    requires forall i :: 0 <= i < |clazz.permitted| ==> VariantName(clazz.permitted[i]) != value
    ensures var r := Decode(path, node, clazz, publicOnly, decodeVariant);
      && r == GResult(None, [InvalidSealedConfigType(path, clazz.name, value)])
      && AnyBlocking(r.errors)
  {
    var r := Decode(path, node, clazz, publicOnly, decodeVariant);
    assert Blocking(r.errors[0]);
  }

  /** A `type` value naming a variant hands the node, unchanged and with its
      `type` key, to that variant's decoder, whose result is returned as is. */
  lemma KnownTypeDelegatesWholeNode<V>(path: Path, node: ConfigNode, clazz: ClassInfo, publicOnly: bool, decodeVariant: (Path, ConfigNode, ClassInfo) -> GResult<V>, i: nat)
    requires CanDecode(path, node, clazz, publicOnly) == Success(true)
    requires i < |clazz.permitted|
    requires Discriminator in node.entries && node.entries[Discriminator] == Leaf(Some(VariantName(clazz.permitted[i])))
    ensures Decode(path, node, clazz, publicOnly, decodeVariant) == decodeVariant(path, node, clazz.permitted[i])
  {
  }

  /** The resolver itself never produces a value: a result is the chosen
      variant decoder's, and otherwise the only error is a blocking one. */
  lemma ResolverErrorsBlock<V>(path: Path, node: ConfigNode, clazz: ClassInfo, publicOnly: bool, decodeVariant: (Path, ConfigNode, ClassInfo) -> GResult<V>)
    requires CanDecode(path, node, clazz, publicOnly) == Success(true)
    ensures var r := Decode(path, node, clazz, publicOnly, decodeVariant);
      || (exists v :: v in clazz.permitted && r == decodeVariant(path, node, v))
      || (r.result.None? && |r.errors| == 1 && r.errors[0].InvalidSealedConfigType? && AnyBlocking(r.errors))
  {
    var r := Decode(path, node, clazz, publicOnly, decodeVariant);
    if r.result.None? && |r.errors| == 1 && r.errors[0].InvalidSealedConfigType? {
      assert Blocking(r.errors[0]);
    }
  }

  /** A class the table registered can be found again by its name: the
      table and the permitted list agree. */
  lemma TableRoundTrip(clazz: ClassInfo, name: string)
    requires Table(clazz).Success?
    ensures name in Table(clazz).value <==>
      exists i :: 0 <= i < |clazz.permitted| && VariantName(clazz.permitted[i]) == name
    ensures name in Table(clazz).value ==> VariantName(Table(clazz).value[name]) == name
  {
    if name in Table(clazz).value {
      var i :| 0 <= i < |clazz.permitted| && VariantName(clazz.permitted[i]) == name;
    }
  }

  /** A record variant with a component named `type`: the component is a
      private field. */
  function RecordWithTypeComponent(): ClassInfo {
    ClassInfo("Variant", false, Some(SealedConfig("variant", "")), [], [FieldInfo("type", false)])
  }

  /** As written, the conflict check misses that record: the table builds
      and `canDecode` claims the sealed type, although the variant has a
      `type` field of its own. The intended check refuses it, and setup
      fails. */
  lemma PrivateTypeFieldSlipsThrough(path: Path, entries: map<string, ConfigNode>)
    ensures var clazz := ClassInfo("Sealed", true, Some(SealedConfig("", "variant")), [RecordWithTypeComponent()], []);
      && TableAsWritten(clazz).Success?
      && CanDecode(path, MapNode(entries), clazz, true) == Success(true)
      && HasTypeField(RecordWithTypeComponent())
      && Table(clazz) == Failure(ConflictingTypeField("Variant"))
      && CanDecode(path, MapNode(entries), clazz, false) == Failure(ConflictingTypeField("Variant"))
  {
    var v := RecordWithTypeComponent();
    assert v.fields[0] in v.fields;
    assert !HasPublicTypeField(v);
    assert !IsBlank("variant") by { assert !IsWhitespace("variant"[0]); }
    var perm := [v];
    assert TableWith(perm, 0, true) == TableWith(perm, 0, false) == Success(map[]);
    assert TableWith(perm, 1, true) == Success(map["variant" := v]);
    assert TableWith(perm, 1, false) == Failure(ConflictingTypeField("Variant"));
  }
}

=== FILE: tower_logic.dfy ===
/** `TowerLogic`: the game rules of the tower-defense mode that are plain
    integer and set logic. They cover:
    - where a split unit may respawn;
    - which actions near a core are allowed;
    - which placements on the enemy path are allowed;
    - whether a logic processor may use `ubind`. */
module TowerLogic {
  import opened Wrappers
  import opened World

  const MaxSpawnSearchRadius: nat := 4

  // ---------------------------------------------------------------------
  // Spawn search
  // ---------------------------------------------------------------------

  /** `isValidSpawn`: the tile exists, its floor is one enemies walk on,
      and nothing is built on it. */
  predicate IsValidSpawn(w: Map, passable: set<FloorId>, x: int, y: int) {
    match TileAt(w, x, y)
    case None => false
    case Some(t) => t.floor in passable && t.block.id == Air
  }

  function Abs(n: int): nat {
    if n < 0 then -n else n
  }

  /** The ring distance: the larger of the two coordinate distances. */
  function Chebyshev(dx: int, dy: int): nat {
    if Abs(dx) < Abs(dy) then Abs(dy) else Abs(dx)
  }

  /** The offsets one step `i` of the inner loop tries for ring `r`, in
      order: the top and bottom row, then, strictly between them, the
      right and left column. */
  function Side(r: int, i: int): seq<(int, int)> {
    [(i, r), (i, -r)] + (if -r < i < r then [(r, i), (-r, i)] else [])
  }

  /** The offsets the inner loop tries from step `i` to the end. */
  function RingFrom(r: int, i: int): seq<(int, int)>
    decreases r + 1 - i
  {
    if i > r then [] else Side(r, i) + RingFrom(r, i + 1)
  }

  /** Ring `r` in visiting order. */
  function Ring(r: int): seq<(int, int)> {
    RingFrom(r, -r)
  }

  /** The offsets of ring `r` visited from step `i` on. */
  ghost predicate VisitedFrom(r: int, i: int, o: (int, int)) {
    || (i <= o.0 <= r && (o.1 == r || o.1 == -r))
    || ((o.0 == r || o.0 == -r) && i <= o.1 && -r < o.1 < r)
  }

  lemma {:induction false} RingFromMembership(r: int, i: int, o: (int, int))
    requires r >= 1 && -r <= i
    ensures o in RingFrom(r, i) <==> VisitedFrom(r, i, o)
    decreases r + 1 - i
  {
    if i <= r {
      RingFromMembership(r, i + 1, o);
      assert RingFrom(r, i) == Side(r, i) + RingFrom(r, i + 1);
    }
  }

  /** A ring holds exactly the offsets at its distance. */
  lemma RingMembership(r: int, o: (int, int))
    requires r >= 1
    ensures o in Ring(r) <==> Chebyshev(o.0, o.1) == r
  {
    RingFromMembership(r, -r, o);
  }

  lemma {:induction false} RingFromSize(r: int, i: int)
    requires r >= 1 && -r < i <= r + 1
    ensures |RingFrom(r, i)| == if i == r + 1 then 0 else 4 * (r - i) + 2
    decreases r + 1 - i
  {
    if i <= r {
      RingFromSize(r, i + 1);
    }
  }

  /** A ring has 8r offsets, the perimeter of a (2r+1)-square. */
  lemma RingSize(r: int)
    requires r >= 1
    ensures |Ring(r)| == 8 * r
  {
    RingFromSize(r, -r + 1);
  }

  predicate NoDuplicates(s: seq<(int, int)>) {
    forall a, b :: 0 <= a < b < |s| ==> s[a] != s[b]
  }

  lemma {:induction false} RingFromNoDuplicates(r: int, i: int)
    requires r >= 1 && -r <= i
    ensures NoDuplicates(RingFrom(r, i))
    decreases r + 1 - i
  {
    if i <= r {
      RingFromNoDuplicates(r, i + 1);
      var side, rest := Side(r, i), RingFrom(r, i + 1);
      forall o | o in side ensures o !in rest {
        RingFromMembership(r, i + 1, o);
      }
      var s := side + rest;
      forall a, b | 0 <= a < b < |s| ensures s[a] != s[b] {
        if b < |side| {
        } else if a < |side| {
          assert s[a] in side && s[b] == rest[b - |side|];
        } else {
          assert s[a] == rest[a - |side|] && s[b] == rest[b - |side|];
        }
      }
    }
  }

  /** No offset is visited twice: each corner comes from the top or bottom
      row only. */
  lemma RingNoDuplicates(r: int)
    requires r >= 1
    ensures NoDuplicates(Ring(r))
  {
    RingFromNoDuplicates(r, -r);
  }

  /** No valid spawn within distance `d` of (x, y). */
  ghost predicate NothingValidWithin(w: Map, passable: set<FloorId>, x: int, y: int, d: int) {
    forall a, b :: Chebyshev(a - x, b - y) <= d ==> !IsValidSpawn(w, passable, a, b)
  }

  /** Every offset of `offsets` before position `n` is invalid around (x, y). */
  ghost predicate PrefixInvalid(w: Map, passable: set<FloorId>, x: int, y: int, offsets: seq<(int, int)>, n: int)
    requires 0 <= n <= |offsets|
  {
    forall j :: 0 <= j < n ==> !IsValidSpawn(w, passable, x + offsets[j].0, y + offsets[j].1)
  }

  /** A prefix of invalid offsets grows by the invalid prefix of a block
      that follows it. */
  lemma PrefixInvalidExtends(w: Map, passable: set<FloorId>, x: int, y: int,
                             offsets: seq<(int, int)>, n: int, block: seq<(int, int)>, c: int)
    requires 0 <= n && n + |block| <= |offsets| && offsets[n..n + |block|] == block
    requires 0 <= c <= |block|
    requires PrefixInvalid(w, passable, x, y, offsets, n)
    requires PrefixInvalid(w, passable, x, y, block, c)
    ensures PrefixInvalid(w, passable, x, y, offsets, n + c)
  {
    forall j | n <= j < n + c
      ensures !IsValidSpawn(w, passable, x + offsets[j].0, y + offsets[j].1)
    {
      assert offsets[j] == block[j - n];
    }
  }

  /** Every offset of ring `r` before position `n` is invalid around (x, y). */
  ghost predicate RingPrefixInvalid(w: Map, passable: set<FloorId>, x: int, y: int, r: int, n: int)
    requires 0 <= n <= |Ring(r)|
  {
    PrefixInvalid(w, passable, x, y, Ring(r), n)
  }

  /** What `findNearestValidSpawn` promises about the tile (sx, sy) it
      picks for origin (x, y):
      - a valid origin is kept;
      - an invalid result is the origin, with nothing valid within radius 4;
      - a valid result lies within radius 4 and no valid tile is closer;
      - a valid result other than the origin is the first valid offset of
        its ring in visiting order. */
  ghost predicate SpawnSearchResult(w: Map, passable: set<FloorId>, x: int, y: int, sx: int, sy: int) {
    && (IsValidSpawn(w, passable, x, y) ==> (sx, sy) == (x, y))
    && (!IsValidSpawn(w, passable, sx, sy) ==>
          (sx, sy) == (x, y) && NothingValidWithin(w, passable, x, y, MaxSpawnSearchRadius))
    && (IsValidSpawn(w, passable, sx, sy) ==>
          && Chebyshev(sx - x, sy - y) <= MaxSpawnSearchRadius
          && NothingValidWithin(w, passable, x, y, Chebyshev(sx - x, sy - y) - 1))
    && (IsValidSpawn(w, passable, sx, sy) && (sx, sy) != (x, y) ==>
          FirstValidOfRing(w, passable, x, y, Chebyshev(sx - x, sy - y), sx, sy))
  }

  /** The first valid offset of ring `r`, after rings 1 to r-1 held none,
      is a correct search result. */
  lemma FoundInRing(w: Map, passable: set<FloorId>, x: int, y: int, r: int, k: int)
    requires 1 <= r <= MaxSpawnSearchRadius
    requires !IsValidSpawn(w, passable, x, y)
    requires NothingValidWithin(w, passable, x, y, r - 1)
    requires 0 <= k < |Ring(r)|
    requires RingPrefixInvalid(w, passable, x, y, r, k)
    requires IsValidSpawn(w, passable, x + Ring(r)[k].0, y + Ring(r)[k].1)
    ensures SpawnSearchResult(w, passable, x, y, x + Ring(r)[k].0, y + Ring(r)[k].1)
  {
    var o := Ring(r)[k];
    var sx, sy := x + o.0, y + o.1;
    assert (sx - x, sy - y) == o;
    assert o in Ring(r);
    RingMembership(r, o);
    assert Chebyshev(sx - x, sy - y) == r;
    assert (sx, sy) != (x, y);
    assert 0 <= k < |Ring(r)| && Ring(r)[k] == (sx - x, sy - y) && RingPrefixInvalid(w, passable, x, y, r, k);
  }

  /** A suffix that is a concatenation splits into its two parts. */
  lemma SuffixSplits<T>(s: seq<T>, n: int, a: seq<T>, b: seq<T>)
    requires 0 <= n <= |s| && s[n..] == a + b
    ensures n + |a| <= |s| && s[n..n + |a|] == a && s[n + |a|..] == b
    ensures forall j :: 0 <= j < |a| ==> s[n + j] == a[j]
  {
    assert |s| - n == |a| + |b|;
    assert forall j :: 0 <= j < |a| ==> s[n + j] == s[n..][j] == a[j];
    assert forall j :: 0 <= j < |b| ==> s[n + |a| + j] == s[n..][|a| + j] == b[j];
  }

  /** One pass of the inner loop of `findNearestValidSpawn`: the offsets of
      one step of a ring (at most four), tried in order, stopping at the
      first valid tile. */
  method ScanOffsets(w: Map, passable: set<FloorId>, x: int, y: int, offsets: seq<(int, int)>)
    returns (found: bool, c: nat, sx: int, sy: int)
    ensures found ==>
      && c < |offsets| && (sx, sy) == (x + offsets[c].0, y + offsets[c].1)
      && IsValidSpawn(w, passable, sx, sy) && PrefixInvalid(w, passable, x, y, offsets, c)
    ensures !found ==> PrefixInvalid(w, passable, x, y, offsets, |offsets|)
  {
    c := 0;
    while c < |offsets|
      invariant c <= |offsets| && PrefixInvalid(w, passable, x, y, offsets, c)
    {
      if IsValidSpawn(w, passable, x + offsets[c].0, y + offsets[c].1) {
        return true, c, x + offsets[c].0, y + offsets[c].1;
      }
      c := c + 1;
    }
    return false, c, x, y;
  }

  /** (sx, sy) is a valid tile at some offset of ring `r` around (x, y)
      that every earlier offset of the ring fails. */
  ghost predicate FirstValidOfRing(w: Map, passable: set<FloorId>, x: int, y: int, r: int, sx: int, sy: int) {
    exists k ::
      && 0 <= k < |Ring(r)| && Ring(r)[k] == (sx - x, sy - y)
      && IsValidSpawn(w, passable, sx, sy) && RingPrefixInvalid(w, passable, x, y, r, k)
  }

  lemma FirstValidAt(w: Map, passable: set<FloorId>, x: int, y: int, r: int, k: int)
    requires 0 <= k < |Ring(r)| && RingPrefixInvalid(w, passable, x, y, r, k)
    requires IsValidSpawn(w, passable, x + Ring(r)[k].0, y + Ring(r)[k].1)
    ensures FirstValidOfRing(w, passable, x, y, r, x + Ring(r)[k].0, y + Ring(r)[k].1)
  {
    var sx, sy := x + Ring(r)[k].0, y + Ring(r)[k].1;
    assert Ring(r)[k] == (sx - x, sy - y);
  }

  /** A valid tile at position `c` of step `i`, after an invalid prefix,
      is the first valid offset of the ring. */
  lemma RingStepHit(w: Map, passable: set<FloorId>, x: int, y: int, r: int, i: int, n: int, c: int)
    requires -r <= i <= r && 0 <= n <= |Ring(r)| && Ring(r)[n..] == RingFrom(r, i)
    requires RingPrefixInvalid(w, passable, x, y, r, n)
    requires 0 <= c < |Side(r, i)| && PrefixInvalid(w, passable, x, y, Side(r, i), c)
    requires IsValidSpawn(w, passable, x + Side(r, i)[c].0, y + Side(r, i)[c].1)
    ensures FirstValidOfRing(w, passable, x, y, r, x + Side(r, i)[c].0, y + Side(r, i)[c].1)
  {
    var side := Side(r, i);
    SuffixSplits(Ring(r), n, side, RingFrom(r, i + 1));
    PrefixInvalidExtends(w, passable, x, y, Ring(r), n, side, c);
    assert Ring(r)[n + c] == side[c];
    FirstValidAt(w, passable, x, y, r, n + c);
  }

  /** A step without a valid tile extends the invalid prefix over it. */
  lemma RingStepMiss(w: Map, passable: set<FloorId>, x: int, y: int, r: int, i: int, n: int)
    requires -r <= i <= r && 0 <= n <= |Ring(r)| && Ring(r)[n..] == RingFrom(r, i)
    requires RingPrefixInvalid(w, passable, x, y, r, n)
    requires PrefixInvalid(w, passable, x, y, Side(r, i), |Side(r, i)|)
    ensures n + |Side(r, i)| <= |Ring(r)| && Ring(r)[n + |Side(r, i)|..] == RingFrom(r, i + 1)
    ensures RingPrefixInvalid(w, passable, x, y, r, n + |Side(r, i)|)
  {
    var side := Side(r, i);
    SuffixSplits(Ring(r), n, side, RingFrom(r, i + 1));
    PrefixInvalidExtends(w, passable, x, y, Ring(r), n, side, |side|);
  }

  /** One pass of the outer loop of `findNearestValidSpawn`: ring `r`
      in visiting order, stopping at the first valid tile. */
  method ScanRing(w: Map, passable: set<FloorId>, x: int, y: int, r: int) returns (found: bool, sx: int, sy: int)
    requires r >= 1
    ensures found ==> FirstValidOfRing(w, passable, x, y, r, sx, sy)
    ensures !found ==> RingPrefixInvalid(w, passable, x, y, r, |Ring(r)|)
  {
    var i := -r;
    ghost var n := 0;
    while i <= r
      invariant -r <= i <= r + 1
      invariant 0 <= n <= |Ring(r)| && Ring(r)[n..] == RingFrom(r, i)
      invariant RingPrefixInvalid(w, passable, x, y, r, n)
    {
      var side := Side(r, i);
      var hit, c, fx, fy := ScanOffsets(w, passable, x, y, side);
      if hit {
        RingStepHit(w, passable, x, y, r, i, n, c);
        return true, fx, fy;
      }
      RingStepMiss(w, passable, x, y, r, i, n);
      n := n + |side|;
      i := i + 1;
    }
    return false, x, y;
  }

  /** `findNearestValidSpawn`: the origin if it is valid, else the first
      valid tile of rings 1 to 4 in visiting order, else the origin. */
  method FindNearestValidSpawn(w: Map, passable: set<FloorId>, x: int, y: int) returns (sx: int, sy: int)
    ensures SpawnSearchResult(w, passable, x, y, sx, sy)
  {
    if IsValidSpawn(w, passable, x, y) {
      return x, y;
    }
    var radius := 1;
    while radius <= MaxSpawnSearchRadius
      invariant 1 <= radius <= MaxSpawnSearchRadius + 1
      invariant NothingValidWithin(w, passable, x, y, radius - 1)
    {
      var found, fx, fy := ScanRing(w, passable, x, y, radius);
      if found {
        ghost var k :| 0 <= k < |Ring(radius)| && Ring(radius)[k] == (fx - x, fy - y)
          && IsValidSpawn(w, passable, fx, fy) && RingPrefixInvalid(w, passable, x, y, radius, k);
        FoundInRing(w, passable, x, y, radius, k);
        return fx, fy;
      }
      forall a, b | Chebyshev(a - x, b - y) == radius ensures !IsValidSpawn(w, passable, a, b) {
        RingMembership(radius, (a - x, b - y));
        var j :| 0 <= j < |Ring(radius)| && Ring(radius)[j] == (a - x, b - y);
        assert !IsValidSpawn(w, passable, x + Ring(radius)[j].0, y + Ring(radius)[j].1);
      }
      radius := radius + 1;
    }
    return x, y;
  }

  // ---------------------------------------------------------------------
  // Actions near a core
  // ---------------------------------------------------------------------

  /** `hasCoreBlock`: a core, or a storage building linked to a core. */
  predicate HasCoreBlock(t: Tile) {
    t.block.isCore || (t.build.StorageBuilding? && t.build.linkedToCore)
  }

  predicate CoreAt(w: Map, i: int, j: int) {
    TileAt(w, i, j).Some? && HasCoreBlock(TileAt(w, i, j).value)
  }

  /** A core tile lies in the block's footprint at `t` widened by one tile
      on every side. */
  ghost predicate CoreNearby(w: Map, block: Block, t: Tile) {
    var rx, ry := t.x + block.sizeOffset, t.y + block.sizeOffset;
    exists i, j :: rx - 1 <= i <= rx + block.size && ry - 1 <= j <= ry + block.size && CoreAt(w, i, j)
  }

  /** `hasNoNearbyCore`: scans that window column by column and refuses at
      the first core found. */
  method HasNoNearbyCore(w: Map, block: Block, t: Tile) returns (ok: bool)
    ensures ok <==> !CoreNearby(w, block, t)
  {
    var rx, ry := t.x + block.sizeOffset, t.y + block.sizeOffset;
    var i := rx - 1;
    while i <= rx + block.size
      invariant rx - 1 <= i && (i <= rx + block.size + 1 || i == rx - 1)
      invariant forall i', j :: rx - 1 <= i' < i && ry - 1 <= j <= ry + block.size ==> !CoreAt(w, i', j)
    {
      var j := ry - 1;
      while j <= ry + block.size
        invariant ry - 1 <= j && (j <= ry + block.size + 1 || j == ry - 1)
        invariant forall i', j' :: rx - 1 <= i' < i && ry - 1 <= j' <= ry + block.size ==> !CoreAt(w, i', j')
        invariant forall j' :: ry - 1 <= j' < j ==> !CoreAt(w, i, j')
      {
        if TileAt(w, i, j).Some? && HasCoreBlock(TileAt(w, i, j).value) {
          assert CoreAt(w, i, j);
          return false;
        }
        j := j + 1;
      }
      i := i + 1;
    }
    return true;
  }

  /** `onCoreBuildInteract`:
      - items may be moved in or out only where there is no core;
      - blocks, and dropped block payloads, may not be put next to a core;
      - everything else is allowed. */
  method OnCoreBuildInteract(w: Map, a: Action) returns (allowed: bool)
    requires WellFormedAction(a)
    ensures a.kind == DepositItem || a.kind == WithdrawItem ==> (allowed <==> !HasCoreBlock(a.tile))
    ensures a.kind == PlaceBlock ==> (allowed <==> !CoreNearby(w, a.block.value, a.tile))
    ensures a.kind == DropPayload && a.payload.value.BlockPayload? ==>
      (allowed <==> !CoreNearby(w, a.payload.value.block, a.tile))
    ensures a.kind == DropPayload && !a.payload.value.BlockPayload? ==> allowed
    ensures a.kind in {Configure, OtherKind} ==> allowed
  {
    match a.kind {
      case DepositItem =>
        allowed := !HasCoreBlock(a.tile);
      case WithdrawItem =>
        allowed := !HasCoreBlock(a.tile);
      case PlaceBlock =>
        allowed := HasNoNearbyCore(w, a.block.value, a.tile);
      case DropPayload =>
        if a.payload.value.BlockPayload? {
          allowed := HasNoNearbyCore(w, a.payload.value.block, a.tile);
        } else {
          allowed := true;
        }
      case Configure =>
        allowed := true;
      case OtherKind =>
        allowed := true;
    }
  }

  // ---------------------------------------------------------------------
  // Building on the enemy path
  // ---------------------------------------------------------------------

  /** The block an action would put down, for the placement guards: the
      placed block, or a dropped payload's block (air for a unit); none for
      other actions. */
  function PlacedBlock(a: Action): (r: Option<Block>)
    requires WellFormedAction(a)
    ensures r.Some? <==> a.kind == PlaceBlock || a.kind == DropPayload
  {
    match a.kind
    case PlaceBlock => a.block
    case DropPayload => Some(if a.payload.value.BlockPayload? then a.payload.value.block else AirBlock)
    case _ => None
  }

  /** Some floor under the footprint is one the enemies walk on. */
  predicate CoversPassable(covered: set<FloorId>, passable: set<FloorId>) {
    exists f :: f in covered && f in passable
  }

  /** `onInteractWithTowerPassableFloor` (logic side). It allows:
      - actions that put down no block;
      - whitelisted blocks, and air;
      - anything else whose footprint stays off every floor enemies walk on.
      `covered` gives the floors under a block put at a tile (the engine's
      `getLinkedTilesAs`). */
  function FloorGuard(a: Action, whitelist: set<BlockId>, passable: set<FloorId>,
                      covered: (Tile, Block) -> set<FloorId>): (allowed: bool)
    requires WellFormedAction(a)
    ensures PlacedBlock(a).None? ==> allowed
    ensures PlacedBlock(a).Some? && (PlacedBlock(a).value.id in whitelist || PlacedBlock(a).value.id == Air) ==> allowed
    ensures PlacedBlock(a).Some? && PlacedBlock(a).value.id !in whitelist && PlacedBlock(a).value.id != Air ==>
      (allowed <==> forall f :: f in covered(a.tile, PlacedBlock(a).value) ==> f !in passable)
  {
    match PlacedBlock(a)
    case None => true
    case Some(block) =>
      if block.id in whitelist || block.id == Air then true
      else !CoversPassable(covered(a.tile, block), passable)
  }

  /** `onConfigUpdate`: the whitelist becomes the ids of the configured
      blocks, dropping the old entries. */
  method OnConfigUpdate(configured: seq<Block>) returns (whitelist: set<BlockId>)
    ensures forall id :: id in whitelist <==> exists i :: 0 <= i < |configured| && configured[i].id == id
  {
    whitelist := BlockIds(configured);
  }

  // ---------------------------------------------------------------------
  // Unit binding in logic code
  // ---------------------------------------------------------------------

  /** Logic instructions, as far as this rule cares. */
  datatype Instruction = UnitBind | OtherInstruction

  /** The longest code a payload may declare. */
  const MaxCodeLength: int := 1024 * 100

  /** How reading the inflated payload ends. `IOFailure` is an
      `IOException`: end of stream, version 0, a declared length above the
      limit, a bad link name. `NegativeLength` is the
      `NegativeArraySizeException` that `new byte[length]` throws. */
  datatype ParseOutcome = IOFailure | NegativeLength | Parsed(code: seq<Byte>)

  /** `DataInputStream.readInt` at `pos`: four bytes, big-endian, two's
      complement. */
  function ReadInt(data: seq<Byte>, pos: nat): (r: Option<int>)
    ensures r.Some? <==> pos + 4 <= |data|
    ensures r.Some? ==> -0x8000_0000 <= r.value < 0x8000_0000
    ensures r.Some? ==>
      r.value % 0x1_0000_0000
        == data[pos] as int * 0x100_0000 + data[pos + 1] as int * 0x1_0000 + data[pos + 2] as int * 0x100 + data[pos + 3]
    ensures r.Some? ==> (r.value < 0 <==> data[pos] >= 0x80)
  {
    if pos + 4 > |data| then None
    else
      var u := ((data[pos] as int * 256 + data[pos + 1]) * 256 + data[pos + 2]) * 256 + data[pos + 3];
      Some(if u >= 0x8000_0000 then u - 0x1_0000_0000 else u)
  }

  /** `readUnsignedShort` at `pos`. */
  function ReadUShort(data: seq<Byte>, pos: nat): Option<nat> {
    if pos + 2 > |data| then None else Some(data[pos] as nat * 256 + data[pos + 1])
  }

  /** The link loop: `count` entries of a `readUTF` name (a two-byte
      length, then that many bytes, checked by `validName`) and two
      shorts. A negative count reads nothing. */
  function SkipLinks(data: seq<Byte>, pos: nat, count: int, validName: seq<Byte> -> bool): bool
    decreases count
  {
    if count <= 0 then true
    else match ReadUShort(data, pos)
      case None => false
      case Some(n) =>
        if pos + 2 + n + 4 > |data| || !validName(data[pos + 2..pos + 2 + n]) then false
        else SkipLinks(data, pos + 2 + n + 4, count - 1, validName)
  }

  /** The header read of the `try` block: a version byte (`read()`, -1 at
      the end of the stream), the code length and code, and the links. */
  function ParseLogicData(data: seq<Byte>, validName: seq<Byte> -> bool): (r: ParseOutcome)
    ensures |data| > 0 && data[0] == 0 ==> r == IOFailure
    ensures r.Parsed? ==> |r.code| <= MaxCodeLength && 5 + |r.code| <= |data| && r.code == data[5..5 + |r.code|]
    ensures r == NegativeLength <==>
      |data| > 0 && data[0] != 0 && ReadInt(data, 1).Some? && ReadInt(data, 1).value < 0
    ensures r.Parsed? ==> ReadInt(data, 1).Some? && |r.code| == ReadInt(data, 1).value
    ensures r.Parsed? <==>
      && |data| > 0 && data[0] != 0
      && ReadInt(data, 1).Some? && 0 <= ReadInt(data, 1).value <= MaxCodeLength
      && ReadInt(data, 5 + ReadInt(data, 1).value).Some?
      && SkipLinks(data, 9 + ReadInt(data, 1).value, ReadInt(data, 5 + ReadInt(data, 1).value).value, validName)
  {
    var version := if |data| == 0 then -1 else data[0] as int;
    if version == 0 then IOFailure
    else match ReadInt(data, 1)
      case None => IOFailure
      case Some(length) =>
        if length > MaxCodeLength then IOFailure
        else if length < 0 then NegativeLength
        else if 5 + length > |data| then IOFailure
        else match ReadInt(data, 5 + length)
          case None => IOFailure
          case Some(total) =>
            if SkipLinks(data, 9 + length, total, validName) then Parsed(data[5..5 + length]) else IOFailure
  }

  /** `DataOutputStream.writeInt`: four bytes, big-endian, two's
      complement. */
  function Int32Bytes(n: int): (r: seq<Byte>)
    requires -0x8000_0000 <= n < 0x8000_0000
    ensures |r| == 4
  {
    var u := if n < 0 then n + 0x1_0000_0000 else n;
    [u / 0x100_0000, (u / 0x1_0000) % 0x100, (u / 0x100) % 0x100, u % 0x100]
  }

  /** `readInt` reads back what `writeInt` wrote, wherever it sits. */
  lemma ReadIntBytes(n: int, before: seq<Byte>, after: seq<Byte>)
    requires -0x8000_0000 <= n < 0x8000_0000
    ensures ReadInt(before + Int32Bytes(n) + after, |before|) == Some(n)
  {
    var data := before + Int32Bytes(n) + after;
    var b := Int32Bytes(n);
    assert data[|before|..|before| + 4] == b;
    var u := if n < 0 then n + 0x1_0000_0000 else n;
    assert ((b[0] as int * 256 + b[1]) * 256 + b[2]) * 256 + b[3] == u;
  }

  /** The payload a logic block writes: the version, the code length, the
      code, and no links. */
  function EncodeLogicData(version: Byte, code: seq<Byte>): seq<Byte>
    requires |code| <= MaxCodeLength
  {
    [version] + Int32Bytes(|code|) + code + Int32Bytes(0)
  }

  /** A payload of any non-zero version and any code within the limit
      parses back to that code. */
  lemma ParseEncodeLogicData(version: Byte, code: seq<Byte>, validName: seq<Byte> -> bool)
    requires version != 0 && |code| <= MaxCodeLength
    ensures ParseLogicData(EncodeLogicData(version, code), validName) == Parsed(code)
  {
    var data := EncodeLogicData(version, code);
    ReadIntBytes(|code|, [version], code + Int32Bytes(0));
    assert data == [version] + Int32Bytes(|code|) + (code + Int32Bytes(0));
    ReadIntBytes(0, [version] + Int32Bytes(|code|) + code, []);
    assert data == [version] + Int32Bytes(|code|) + code + Int32Bytes(0) + [];
    assert data[5..5 + |code|] == code;
  }

  predicate HasUnitBind(instructions: seq<Instruction>) {
    exists i :: 0 <= i < |instructions| && instructions[i] == UnitBind
  }

  /** The collaborators of the ubind guard: zlib inflation, the link-name
      check of `readUTF`, and `LAssembler` from the UTF-8 code to its
      instructions. `InflaterInputStream` inflates lazily, so `inflate`
      gives the bytes the stream yields before inflation fails (all of
      them for a valid stream); a read past them fails like a read past the
      end, with an `IOException`. `None` is a stream that fails before its
      first byte, which every read treats alike. */
  datatype LogicTools = LogicTools(
    inflate: seq<Byte> -> Option<seq<Byte>>,
    validName: seq<Byte> -> bool,
    assemble: seq<Byte> -> seq<Instruction>)

  /** The block whose configuration the guard inspects: the placed one, or
      the one on the configured tile; none for other actions. */
  function ConfiguredBlock(a: Action): (r: Option<Block>)
    requires WellFormedAction(a)
    ensures r.Some? <==> a.kind == PlaceBlock || a.kind == Configure
  {
    match a.kind
    case PlaceBlock => a.block
    case Configure => Some(a.tile.block)
    case _ => None
  }

  /** The guard's early exits: the action configures no block, the block
      is not a logic block given bytes, ubind is allowed in this mode, or
      the block is privileged. */
  predicate ExemptFromUBindCheck(a: Action, ubindEnabled: bool)
    requires WellFormedAction(a)
  {
    || ConfiguredBlock(a).None?
    || !(ConfiguredBlock(a).value.isLogic && a.config.Bytes?)
    || ubindEnabled
    || ConfiguredBlock(a).value.privileged
  }

  /** What the handler throws out of itself. */
  datatype Unchecked = NegativeArraySize

  /** `onLogicUBindAttempt` as written: exempt actions and unreadable data
      are allowed, readable code is refused iff it binds units, and a
      negative declared length escapes the `catch (IOException)`. */
  function UBindGuardAsWritten(a: Action, ubindEnabled: bool, tools: LogicTools): (r: Result<bool, Unchecked>)
    requires WellFormedAction(a)
    ensures ExemptFromUBindCheck(a, ubindEnabled) ==> r == Success(true)
    ensures r == Success(false) <==>
      && !ExemptFromUBindCheck(a, ubindEnabled)
      && tools.inflate(a.config.data).Some?
      && ParseLogicData(tools.inflate(a.config.data).value, tools.validName).Parsed?
      && HasUnitBind(tools.assemble(ParseLogicData(tools.inflate(a.config.data).value, tools.validName).code))
  {
    if ExemptFromUBindCheck(a, ubindEnabled) then Success(true)
    else match tools.inflate(a.config.data)
      case None => Success(true)
      case Some(data) =>
        match ParseLogicData(data, tools.validName)
        case IOFailure => Success(true)
        case NegativeLength => Failure(NegativeArraySize)
        case Parsed(code) => Success(!HasUnitBind(tools.assemble(code)))
  }

  /** `onLogicUBindAttempt` with every malformed payload treated as the
      `catch` treats unreadable ones: allowed. */
  function UBindGuard(a: Action, ubindEnabled: bool, tools: LogicTools): (allowed: bool)
    requires WellFormedAction(a)
    ensures ExemptFromUBindCheck(a, ubindEnabled) ==> allowed
    ensures !allowed <==>
      && !ExemptFromUBindCheck(a, ubindEnabled)
      && tools.inflate(a.config.data).Some?
      && ParseLogicData(tools.inflate(a.config.data).value, tools.validName).Parsed?
      && HasUnitBind(tools.assemble(ParseLogicData(tools.inflate(a.config.data).value, tools.validName).code))
  {
    if ExemptFromUBindCheck(a, ubindEnabled) then true
    else match tools.inflate(a.config.data)
      case None => true
      case Some(data) =>
        match ParseLogicData(data, tools.validName)
        case Parsed(code) => !HasUnitBind(tools.assemble(code))
        case _ => true
  }

  /** Version 0 and over-long code are both allowed without assembling. */
  lemma MalformedHeaderAllowed(a: Action, ubindEnabled: bool, tools: LogicTools, data: seq<Byte>)
    requires WellFormedAction(a) && a.config.Bytes?
    requires tools.inflate(a.config.data) == Some(data)
    requires (|data| > 0 && data[0] == 0) || (|data| > 0 && ReadInt(data, 1).Some? && ReadInt(data, 1).value > MaxCodeLength)
    ensures UBindGuard(a, ubindEnabled, tools)
    ensures UBindGuardAsWritten(a, ubindEnabled, tools) == Success(true)
  {
  }

  /** The two guards agree except on a negative declared length, where the
      code as written throws. */
  lemma GuardsAgreeElsewhere(a: Action, ubindEnabled: bool, tools: LogicTools)
    requires WellFormedAction(a)
    ensures UBindGuardAsWritten(a, ubindEnabled, tools).Failure? <==>
      && !ExemptFromUBindCheck(a, ubindEnabled)
      && tools.inflate(a.config.data).Some?
      && ParseLogicData(tools.inflate(a.config.data).value, tools.validName) == NegativeLength
    ensures UBindGuardAsWritten(a, ubindEnabled, tools).Success? ==>
      UBindGuardAsWritten(a, ubindEnabled, tools).value == UBindGuard(a, ubindEnabled, tools)
  {
  }

  /** A logic processor placed with an inflated payload that declares
      length -1. */
  function NegativeLengthPlacement(): (Action, LogicTools) {
    var processor := Block("logic-processor", 2, 0, false, true, false, false);
    var data: seq<Byte> := [1, 0xFF, 0xFF, 0xFF, 0xFF];
    var tile := Tile(0, 0, "stone", AirBlock, Air, NoBuilding);
    (Action(PlaceBlock, tile, Some(processor), None, Bytes(data)),
     LogicTools(d => Some(d), n => true, c => []))
  }

  /** As written, that placement makes the handler throw; corrected, it is
      allowed like any other malformed payload. */
  lemma NegativeLengthEscapes()
    ensures var (a, tools) := NegativeLengthPlacement();
      && WellFormedAction(a)
      && UBindGuardAsWritten(a, false, tools) == Failure(NegativeArraySize)
      && UBindGuard(a, false, tools)
  {
    var (a, tools) := NegativeLengthPlacement();
    var data: seq<Byte> := [1, 0xFF, 0xFF, 0xFF, 0xFF];
    assert tools.inflate(a.config.data) == Some(data);
    assert ReadInt(data, 1) == Some(-1);
  }
}

=== FILE: world.dfy ===
/** The slice of the game world the tower rules read: tiles with their
    floor, block, overlay and building, blocks with their size and flags,
    and the player actions the action handlers inspect. The world's
    contents are inputs; nothing here simulates the engine. */
module World {
  import opened Wrappers

  /** Content ids are written as content names. */
  type FloorId = string
  type BlockId = string

  const Air: BlockId := "air"
  const SpawnOverlay: BlockId := "spawn"

  /** The block properties the rules use. `sizeOffset` is the engine's
      offset from a block's anchor tile to its lower-left tile. */
  datatype Block = Block(
    id: BlockId,
    size: int,
    sizeOffset: int,
    isCore: bool,
    isLogic: bool,
    privileged: bool,
    isStatic: bool)

  const AirBlock: Block := Block(Air, 1, 0, false, false, false, true)

  /** The building on a tile, as far as `hasCoreBlock` looks at it. */
  datatype Building = NoBuilding | StorageBuilding(linkedToCore: bool) | OtherBuilding

  datatype Tile = Tile(x: int, y: int, floor: FloorId, block: Block, overlay: BlockId, build: Building)

  /** The tile grid, column by column: `grid[x][y]`. */
  datatype Map = Map(grid: seq<seq<Tile>>)

  /** `Vars.world.tile(x, y)`: absent outside the map. */
  function TileAt(w: Map, x: int, y: int): Option<Tile> {
    if 0 <= x < |w.grid| && 0 <= y < |w.grid[x]| then Some(w.grid[x][y]) else None
  }

  /** What a dropped payload holds. */
  datatype Payload = BlockPayload(block: Block) | UnitPayload(unitType: string)

  /** An unsigned byte. */
  type Byte = b: int | 0 <= b < 256

  /** The configuration value an action carries. */
  datatype ConfigValue = Bytes(data: seq<Byte>) | OtherConfig | NoConfig

  datatype ActionKind = PlaceBlock | DropPayload | Configure | DepositItem | WithdrawItem | OtherKind

  /** `Administration.PlayerAction`, restricted to the fields read here. */
  datatype Action = Action(kind: ActionKind, tile: Tile, block: Option<Block>, payload: Option<Payload>, config: ConfigValue)

  /** The engine always fills the block of a placement and the payload of
      a drop; the handlers dereference both without a check. */
  predicate WellFormedAction(a: Action) {
    && (a.kind == PlaceBlock ==> a.block.Some?)
    && (a.kind == DropPayload ==> a.payload.Some?)
  }

  /** A spawn overlay sits on `f` somewhere on the map. */
  ghost predicate SpawnFloor(w: Map, f: FloorId) {
    exists x, y :: 0 <= x < |w.grid| && 0 <= y < |w.grid[x]| && w.grid[x][y].overlay == SpawnOverlay && w.grid[x][y].floor == f
  }

  /** The loop over `Vars.world.tiles` that collects the floor of every
      tile with a spawn overlay. */
  method SpawnFloors(w: Map) returns (floors: set<FloorId>)
    ensures forall f :: f in floors <==> SpawnFloor(w, f)
  {
    floors := {};
    var x := 0;
    while x < |w.grid|
      invariant 0 <= x <= |w.grid|
      invariant forall f :: f in floors <==>
        exists x', y :: 0 <= x' < x && 0 <= y < |w.grid[x']| && w.grid[x'][y].overlay == SpawnOverlay && w.grid[x'][y].floor == f
    {
      var y := 0;
      while y < |w.grid[x]|
        invariant 0 <= y <= |w.grid[x]|
        invariant forall f :: f in floors <==>
          || (exists x', y' :: 0 <= x' < x && 0 <= y' < |w.grid[x']| && w.grid[x'][y'].overlay == SpawnOverlay && w.grid[x'][y'].floor == f)
          || (exists y' :: 0 <= y' < y && w.grid[x][y'].overlay == SpawnOverlay && w.grid[x][y'].floor == f)
      {
        if w.grid[x][y].overlay == SpawnOverlay {
          floors := floors + {w.grid[x][y].floor};
        }
        y := y + 1;
      }
      x := x + 1;
    }
  }

  /** The loop that refills a whitelist with the id of every configured
      block. */
  method BlockIds(blocks: seq<Block>) returns (ids: set<BlockId>)
    ensures forall id :: id in ids <==> exists i :: 0 <= i < |blocks| && blocks[i].id == id
  {
    ids := {};
    var i := 0;
    while i < |blocks|
      invariant 0 <= i <= |blocks|
      invariant forall id :: id in ids <==> exists j :: 0 <= j < i && blocks[j].id == id
    {
      ids := ids + {blocks[i].id};
      i := i + 1;
    }
  }
}

=== FILE: wrappers.dfy ===
/** Optional values and success/failure results, used for Java's nullable
    references and for exceptions a Java method throws. */
module Wrappers {

  /** A value that may be absent: Java's `null` or `Optional.empty()`. */
  datatype Option<+T> = None | Some(value: T) {

    /** The wrapped value, or `default` when absent (`Optional.orElse`). */
    function GetOr(default: T): T {
      match this
      case Some(v) => v
      case None => default
    }
  }

  /** The outcome of a Java call that either returns a value or throws. */
  datatype Result<+T, +E> = Success(value: T) | Failure(error: E) {

    predicate IsFailure() {
      Failure?
    }

    function PropagateFailure<U>(): Result<U, E>
      requires Failure?
    {
      Failure(error)
    }

    function Extract(): T
      requires Success?
    {
      value
    }
  }
}

=== FILE: yaml_loader.dfy ===
/** `SnakeYamlLoader`: turns the node tree SnakeYAML composes into gestalt's
    leaf/map/array tree. Mapping keys are split into path tokens, and a key of
    several tokens becomes a chain of single-entry maps. Per-node problems are
    collected as errors; only a missing stream, an empty document or a key
    that tokenises to nothing end the load with an exception. */
module YamlLoader {
  import opened Wrappers
  import opened Nodes

  /** A composed YAML node, as SnakeYAML hands it over. `OtherNode` stands
      for any node class the `switch` has no case for. */
  datatype YamlNode =
    | Scalar(value: string)
    | Sequence(items: seq<YamlNode>)
    | Mapping(pairs: seq<Pair>)
    | Anchor(realNode: YamlNode)
    | OtherNode(id: string)

  datatype Pair = Pair(key: YamlNode, value: YamlNode)

  /** `Node.getNodeId().name()`. */
  function NodeId(n: YamlNode): string {
    match n
    case Scalar(_) => "scalar"
    case Sequence(_) => "sequence"
    case Mapping(_) => "mapping"
    case Anchor(_) => "anchor"
    case OtherNode(id) => id
  }

  /** gestalt's `PathLexer`, whose tokenising and normalising rules are not
      part of this model: any pair of functions may stand for it. */
  datatype Lexer = Lexer(tokenize: string -> seq<string>, normalize: string -> string)

  /** The normalised tokens of a mapping key (lines 124-125). */
  function Tokens(lx: Lexer, key: string): (r: seq<string>)
    ensures |r| == |lx.tokenize(key)|
    ensures forall i :: 0 <= i < |r| ==> r[i] == lx.normalize(lx.tokenize(key)[i])
  {
    var ts := lx.tokenize(key);
    seq(|ts|, i requires 0 <= i < |ts| => lx.normalize(ts[i]))
  }

  /** The exceptions `loadSource` ends with instead of a result. */
  datatype LoadException =
    | NoStream
    | NoYamlFound
    | NoSuchElement(key: string)

  type Loaded = Result<GResult<ConfigNode>, LoadException>

  /** The tree a key of tokens `t0.t1...tn` stores under `t0`: the value
      wrapped in single-entry maps keyed `t1`, ..., `tn`. */
  function Nest(tokens: seq<string>, leaf: ConfigNode): ConfigNode
    decreases |tokens|
  {
    if |tokens| == 0 then leaf
    else MapNode(map[tokens[0] := Nest(tokens[1..], leaf)])
  }

  /** The wrapping loop as written: from the last token down to index 1,
      each step puts the current node under the next token. */
  function WrapDown(tokens: seq<string>, i: int, current: ConfigNode): ConfigNode
    requires i < |tokens|
    decreases i
  {
    if i <= 0 then current
    else WrapDown(tokens, i - 1, MapNode(map[tokens[i] := current]))
  }

  /** A node that converts to a value: anything but an unsupported node,
      looking through anchors. */
  predicate Resolves(n: YamlNode) {
    match n
    case Anchor(r) => Resolves(r)
    case OtherNode(_) => false
    case _ => true
  }

  /** The only exception conversion ends with: a mapping key, somewhere in
      the tree, that tokenises to nothing. */
  predicate ThrowsOnEmptyKey(lx: Lexer, e: LoadException) {
    e.NoSuchElement? && |Tokens(lx, e.key)| == 0
  }

  /** The indices among the first `k` elements that convert, in order: the
      positions whose results an array keeps. */
  function ResolvedIndices(items: seq<YamlNode>, k: nat): (r: seq<nat>)
    requires k <= |items|
    ensures forall j :: 0 <= j < |r| ==> r[j] < k && Resolves(items[r[j]])
    ensures forall i :: 0 <= i < k && Resolves(items[i]) ==> i in r
    ensures forall j, j' :: 0 <= j < j' < |r| ==> r[j] < r[j']
  {
    if k == 0 then []
    else ResolvedIndices(items, k - 1) + (if Resolves(items[k - 1]) then [k - 1] else [])
  }

  /** What one element at path `p` contributes to the array's errors: its
      own errors, then a missing-value error if it has no result. */
  ghost function ElementErrors(lx: Lexer, x: YamlNode, p: Path): seq<ValidationError> {
    var c := Construct(lx, x, p);
    if c.Failure? then []
    else c.value.errors + (if c.value.result.None? then [NoResultsFoundForPath(p)] else [])
  }

  /** The errors of the first `k` elements, element by element, in order. */
  ghost function ItemErrors(lx: Lexer, items: seq<YamlNode>, path: Path, k: nat): seq<ValidationError>
    requires k <= |items|
  {
    if k == 0 then [] else ItemErrors(lx, items, path, k - 1) + ElementErrors(lx, items[k - 1], ForIndex(path, k - 1))
  }

  /** Every key tokenises to at least one token. */
  ghost predicate TokenizesEveryKey(lx: Lexer) {
    forall s :: |lx.tokenize(s)| > 0
  }

  /** `construct`: one YAML node to one gestalt node at `path`. */
  function Construct(lx: Lexer, n: YamlNode, path: Path): (r: Loaded)
    ensures r.Success? ==> (r.value.result.Some? <==> Resolves(n))
    ensures r.Success? && r.value.result.None? ==> |r.value.errors| > 0
    ensures r.Failure? ==> ThrowsOnEmptyKey(lx, r.error)
    ensures TokenizesEveryKey(lx) ==> r.Success?
    decreases n, 1
  {
    match n
    case Sequence(items) =>
      var acc :- ConstructItems(lx, n, path, |items|);
      Success(GResult(Some(ArrayNode(acc.0)), acc.1))
    case Anchor(target) =>
      Construct(lx, target, path)
    case Mapping(pairs) =>
      var acc :- ConstructEntries(lx, n, path, |pairs|);
      Success(GResult(Some(MapNode(acc.0)), acc.1))
    case Scalar(v) =>
      Success(GResult(Some(Leaf(Some(v))), []))
    case OtherNode(id) =>
      Success(GResult(None, [UnknownNodeTypeDuringLoad(path, id)]))
  }

  /** The first `k` elements of a sequence node, converted in order; an
      element without a result is dropped and reported. */
  function ConstructItems(lx: Lexer, n: YamlNode, path: Path, k: nat)
    : (r: Result<(seq<ConfigNode>, seq<ValidationError>), LoadException>)
    requires n.Sequence? && k <= |n.items|
    ensures r.Success? ==> forall i :: 0 <= i < k ==> Construct(lx, n.items[i], ForIndex(path, i)).Success?
    ensures r.Failure? ==> ThrowsOnEmptyKey(lx, r.error)
    ensures TokenizesEveryKey(lx) ==> r.Success?
    decreases n, 0, k
  {
    if k == 0 then Success(([], []))
    else
      var acc :- ConstructItems(lx, n, path, k - 1);
      var current := ForIndex(path, k - 1);
      var converted :- Construct(lx, n.items[k - 1], current);
      if converted.result.None? then
        Success((acc.0, acc.1 + converted.errors + [NoResultsFoundForPath(current)]))
      else
        Success((acc.0 + [converted.result.value], acc.1 + converted.errors))
  }

  /** The first `k` entries of a mapping node, put into one map in order, so a
      later entry with the same first token replaces an earlier one. */
  function ConstructEntries(lx: Lexer, n: YamlNode, path: Path, k: nat)
    : (r: Result<(map<string, ConfigNode>, seq<ValidationError>), LoadException>)
    requires n.Mapping? && k <= |n.pairs|
    ensures r.Failure? ==> ThrowsOnEmptyKey(lx, r.error)
    ensures TokenizesEveryKey(lx) ==> r.Success?
    decreases n, 0, k
  {
    if k == 0 then Success((map[], []))
    else
      var acc :- ConstructEntries(lx, n, path, k - 1);
      var pair := n.pairs[k - 1];
      if !pair.key.Scalar? then
        Success((acc.0, acc.1 + [UnknownNodeTypeDuringLoad(path, NodeId(n))]))
      else
        var tokens := Tokens(lx, pair.key.value);
        var current := ForKey(path, tokens);
        var converted :- Construct(lx, pair.value, current);
        if converted.result.None? then
          Success((acc.0, acc.1 + converted.errors + [NoResultsFoundForPath(current)]))
        else if |tokens| == 0 then
          Failure(NoSuchElement(pair.key.value))
        else
          var node := WrapDown(tokens, |tokens| - 1, converted.result.value);
          Success((acc.0[tokens[0] := node], acc.1 + converted.errors))
  }

  /** `accepts`: the formats this loader claims. */
  function Accepts(format: string): bool {
    "yml" == format || "yaml" == format
  }

  /** `loadSource`: a source without a stream and an empty document are
      exceptions; otherwise the document root is converted at the empty path. */
  function LoadSource(lx: Lexer, hasStream: bool, composed: Option<YamlNode>): (r: Loaded)
    ensures !hasStream ==> r == Failure(NoStream)
    ensures hasStream && composed.None? ==> r == Failure(NoYamlFound)
    ensures hasStream && composed.Some? && TokenizesEveryKey(lx) ==> r.Success? && r.value.result.Some? == Resolves(composed.value)
  {
    if !hasStream then Failure(NoStream)
    else if composed.None? then Failure(NoYamlFound)
    else Construct(lx, composed.value, [])
  }

  // ---------------------------------------------------------------------
  // Properties
  // ---------------------------------------------------------------------

  /** A scalar becomes a leaf holding its text unchanged, with no errors. */
  lemma ScalarBecomesLeaf(lx: Lexer, v: string, path: Path)
    ensures Construct(lx, Scalar(v), path) == Success(GResult(Some(Leaf(Some(v))), []))
  {
  }

  /** An anchor converts exactly as the node it refers to. */
  lemma AnchorIsTransparent(lx: Lexer, target: YamlNode, path: Path)
    ensures Construct(lx, Anchor(target), path) == Construct(lx, target, path)
  {
  }

  /** The wrapping loop builds exactly the nested chain `Nest` describes. */
  lemma {:induction false} WrapDownIsNest(tokens: seq<string>, i: nat, leaf: ConfigNode)
    requires i < |tokens|
    ensures WrapDown(tokens, i, Nest(tokens[i + 1..], leaf)) == Nest(tokens[1..], leaf)
    decreases i
  {
    if i > 0 {
      var t := tokens[i..];
      assert t[0] == tokens[i] && t[1..] == tokens[i + 1..];
      assert MapNode(map[tokens[i] := Nest(tokens[i + 1..], leaf)]) == Nest(tokens[i..], leaf);
      WrapDownIsNest(tokens, i - 1, leaf);
    }
  }

  /** Nesting under `a + b` is nesting under `b`, then under `a`. */
  lemma {:induction false} NestAppend(a: seq<string>, b: seq<string>, leaf: ConfigNode)
    ensures Nest(a + b, leaf) == Nest(a, Nest(b, leaf))
    decreases |a|
  {
    if |a| > 0 {
      assert (a + b)[0] == a[0] && (a + b)[1..] == a[1..] + b;
      NestAppend(a[1..], b, leaf);
    } else {
      assert a + b == b;
    }
  }

  /** A converted sequence prefix keeps, in order, exactly the results of the
      elements that convert. */
  lemma {:induction false} ItemsKeepResolvedElements(lx: Lexer, n: YamlNode, path: Path, k: nat)
    requires n.Sequence? && k <= |n.items|
    requires ConstructItems(lx, n, path, k).Success?
    ensures var r := ConstructItems(lx, n, path, k).value.0;
      && |r| == |ResolvedIndices(n.items, k)|
      && forall j :: 0 <= j < |r| ==>
           var i := ResolvedIndices(n.items, k)[j]; Construct(lx, n.items[i], ForIndex(path, i)).value.result == Some(r[j])
  {
    if k > 0 {
      ItemsKeepResolvedElements(lx, n, path, k - 1);
    }
  }

  /** The errors of a converted sequence prefix are its elements' errors, in
      order, each failing element followed by its missing-value error. */
  lemma {:induction false} ItemsReportEveryElement(lx: Lexer, n: YamlNode, path: Path, k: nat)
    requires n.Sequence? && k <= |n.items|
    requires ConstructItems(lx, n, path, k).Success?
    ensures ConstructItems(lx, n, path, k).value.1 == ItemErrors(lx, n.items, path, k)
  {
    if k > 0 {
      ItemsReportEveryElement(lx, n, path, k - 1);
    }
  }

  /** At most `k` of the first `k` indices convert; all of them do exactly
      when the filter keeps every index, each in its own place. */
  lemma {:induction false} ResolvedIndicesCount(items: seq<YamlNode>, k: nat)
    requires k <= |items|
    ensures |ResolvedIndices(items, k)| <= k
    ensures |ResolvedIndices(items, k)| == k <==> forall i :: 0 <= i < k ==> Resolves(items[i])
    ensures |ResolvedIndices(items, k)| == k ==> forall j :: 0 <= j < k ==> ResolvedIndices(items, k)[j] == j
  {
    if k > 0 {
      ResolvedIndicesCount(items, k - 1);
    }
  }

  /** A sequence converts element-wise: the array keeps, in order, the
      results of the elements that convert and drops the others; the errors
      are each element's own, in order, with a missing-value error after
      every element that has no result. The array is exactly as long as the
      sequence when every element converts, and then holds each element's
      result at its own index. */
  lemma SequenceConvertsElementwise(lx: Lexer, items: seq<YamlNode>, path: Path)
    requires Construct(lx, Sequence(items), path).Success?
    ensures var r := Construct(lx, Sequence(items), path).value;
      var kept := ResolvedIndices(items, |items|);
      && r.result.Some? && r.result.value.ArrayNode?
      && |r.result.value.items| == |kept|
      && (forall j :: 0 <= j < |kept| ==>
            Construct(lx, items[kept[j]], ForIndex(path, kept[j])).value.result == Some(r.result.value.items[j]))
      && r.errors == ItemErrors(lx, items, path, |items|)
      && (|r.result.value.items| == |items| <==> forall i :: 0 <= i < |items| ==> Resolves(items[i]))
      && (|r.result.value.items| == |items| ==>
            forall i :: 0 <= i < |items| ==>
              Construct(lx, items[i], ForIndex(path, i)).value.result == Some(r.result.value.items[i]))
  {
    var n := Sequence(items);
    assert Construct(lx, n, path) == (var acc :- ConstructItems(lx, n, path, |items|); Success(GResult(Some(ArrayNode(acc.0)), acc.1)));
    ItemsKeepResolvedElements(lx, n, path, |items|);
    ItemsReportEveryElement(lx, n, path, |items|);
    ResolvedIndicesCount(items, |items|);
  }

  /** Two sequence nodes that agree on their first `k` elements convert
      those elements alike. */
  lemma {:induction false} ItemsDependOnPrefix(lx: Lexer, n: YamlNode, m: YamlNode, path: Path, k: nat)
    requires n.Sequence? && m.Sequence? && k <= |n.items| && k <= |m.items|
    requires n.items[..k] == m.items[..k]
    ensures ConstructItems(lx, n, path, k) == ConstructItems(lx, m, path, k)
  {
    if k > 0 {
      assert n.items[..k - 1] == n.items[..k][..k - 1];
      assert m.items[..k - 1] == m.items[..k][..k - 1];
      assert n.items[k - 1] == n.items[..k][k - 1];
      assert m.items[k - 1] == m.items[..k][k - 1];
      ItemsDependOnPrefix(lx, n, m, path, k - 1);
    }
  }

  /** Appending an element to a sequence: if it converts, its result goes at
      the end of the array; if it has no result, the array is unchanged and
      its errors and a missing-value error at its index are appended; if
      its conversion throws, the whole sequence throws. */
  lemma SequenceAppend(lx: Lexer, items: seq<YamlNode>, x: YamlNode, path: Path)
    requires Construct(lx, Sequence(items), path).Success?
    ensures var before := Construct(lx, Sequence(items), path).value;
      var p := ForIndex(path, |items|);
      var c := Construct(lx, x, p);
      Construct(lx, Sequence(items + [x]), path) ==
        if c.Failure? then Failure(c.error)
        else if c.value.result.None? then
          Success(GResult(before.result, before.errors + c.value.errors + [NoResultsFoundForPath(p)]))
        else
          Success(GResult(Some(ArrayNode(before.result.value.items + [c.value.result.value])), before.errors + c.value.errors))
  {
    var n, m := Sequence(items), Sequence(items + [x]);
    assert m.items[..|items|] == n.items[..|items|];
    ItemsDependOnPrefix(lx, n, m, path, |items|);
    assert m.items[|items|] == x;
  }

  /** Two mapping nodes that agree on their first `k` entries convert those
      entries alike. */
  lemma {:induction false} EntriesDependOnPrefix(lx: Lexer, n: YamlNode, m: YamlNode, path: Path, k: nat)
    requires n.Mapping? && m.Mapping? && k <= |n.pairs| && k <= |m.pairs|
    requires n.pairs[..k] == m.pairs[..k]
    ensures ConstructEntries(lx, n, path, k) == ConstructEntries(lx, m, path, k)
  {
    if k > 0 {
      assert n.pairs[..k - 1] == n.pairs[..k][..k - 1];
      assert m.pairs[..k - 1] == m.pairs[..k][..k - 1];
      assert n.pairs[k - 1] == n.pairs[..k][k - 1];
      assert m.pairs[k - 1] == m.pairs[..k][k - 1];
      EntriesDependOnPrefix(lx, n, m, path, k - 1);
    }
  }

  /** An entry whose key is not a scalar adds one UnknownNodeTypeDuringLoad
      error naming the mapping and is skipped; the other entries convert as
      if it were absent. */
  lemma NonScalarKeyIsSkipped(lx: Lexer, pairs: seq<Pair>, key: YamlNode, v: YamlNode, path: Path)
    requires !key.Scalar?
    requires Construct(lx, Mapping(pairs), path).Success?
    ensures var before := Construct(lx, Mapping(pairs), path).value;
      Construct(lx, Mapping(pairs + [Pair(key, v)]), path)
        == Success(GResult(before.result, before.errors + [UnknownNodeTypeDuringLoad(path, "mapping")]))
  {
    var n, m := Mapping(pairs), Mapping(pairs + [Pair(key, v)]);
    assert m.pairs[..|pairs|] == n.pairs[..|pairs|];
    EntriesDependOnPrefix(lx, n, m, path, |pairs|);
  }

  /** A later entry whose key starts with the same token as an earlier one
      replaces the earlier subtree wholesale: there is no deep merge. */
  lemma LaterEntryReplacesEarlier(lx: Lexer, pairs: seq<Pair>, key: string, v: YamlNode, path: Path)
    requires |Tokens(lx, key)| > 0
    requires Construct(lx, v, ForKey(path, Tokens(lx, key))).Success?
    requires Construct(lx, v, ForKey(path, Tokens(lx, key))).value.result.Some?
    requires Construct(lx, Mapping(pairs), path).Success?
    ensures var ts := Tokens(lx, key);
      var before := Construct(lx, Mapping(pairs), path).value;
      var c := Construct(lx, v, ForKey(path, ts)).value;
      Construct(lx, Mapping(pairs + [Pair(Scalar(key), v)]), path)
        == Success(GResult(Some(MapNode(before.result.value.entries[ts[0] := Nest(ts[1..], c.result.value)])),
                           before.errors + c.errors))
  {
    var ts := Tokens(lx, key);
    var n, m := Mapping(pairs), Mapping(pairs + [Pair(Scalar(key), v)]);
    assert m.pairs[..|pairs|] == n.pairs[..|pairs|];
    EntriesDependOnPrefix(lx, n, m, path, |pairs|);
    WrapDownIsNest(ts, |ts| - 1, Construct(lx, v, ForKey(path, ts)).value.result.value);
    assert ts[|ts| - 1 + 1..] == [];
  }

  /** An entry whose value has no result stores nothing: the map is
      unchanged, and the value's errors and a missing-value error at the
      key's path are appended. This holds even for a key with no tokens. */
  lemma FailingValueIsDropped(lx: Lexer, pairs: seq<Pair>, key: string, v: YamlNode, path: Path)
    requires Construct(lx, v, ForKey(path, Tokens(lx, key))).Success?
    requires Construct(lx, v, ForKey(path, Tokens(lx, key))).value.result.None?
    requires Construct(lx, Mapping(pairs), path).Success?
    ensures var p := ForKey(path, Tokens(lx, key));
      var before := Construct(lx, Mapping(pairs), path).value;
      var c := Construct(lx, v, p).value;
      Construct(lx, Mapping(pairs + [Pair(Scalar(key), v)]), path)
        == Success(GResult(before.result, before.errors + c.errors + [NoResultsFoundForPath(p)]))
  {
    var n, m := Mapping(pairs), Mapping(pairs + [Pair(Scalar(key), v)]);
    assert m.pairs[..|pairs|] == n.pairs[..|pairs|];
    EntriesDependOnPrefix(lx, n, m, path, |pairs|);
  }

  /** A key with no tokens whose value converts ends the load: `getFirst`
      on the empty token list throws. */
  lemma EmptyKeyThrows(lx: Lexer, pairs: seq<Pair>, key: string, v: YamlNode, path: Path)
    requires |Tokens(lx, key)| == 0
    requires Construct(lx, v, ForKey(path, Tokens(lx, key))).Success?
    requires Construct(lx, v, ForKey(path, Tokens(lx, key))).value.result.Some?
    requires Construct(lx, Mapping(pairs), path).Success?
    ensures Construct(lx, Mapping(pairs + [Pair(Scalar(key), v)]), path) == Failure(NoSuchElement(key))
  {
    var n, m := Mapping(pairs), Mapping(pairs + [Pair(Scalar(key), v)]);
    assert m.pairs[..|pairs|] == n.pairs[..|pairs|];
    EntriesDependOnPrefix(lx, n, m, path, |pairs|);
  }

  /** A mapping with one entry whose value converts: the value nested
      under the key's tokens, with the value's errors. */
  lemma SingleEntry(lx: Lexer, key: string, v: YamlNode, path: Path)
    requires |Tokens(lx, key)| > 0
    requires Construct(lx, v, ForKey(path, Tokens(lx, key))).Success?
    requires Construct(lx, v, ForKey(path, Tokens(lx, key))).value.result.Some?
    ensures var c := Construct(lx, v, ForKey(path, Tokens(lx, key))).value;
      Construct(lx, Mapping([Pair(Scalar(key), v)]), path)
        == Success(GResult(Some(Nest(Tokens(lx, key), c.result.value)), c.errors))
  {
    assert Construct(lx, Mapping([]), path) == Success(GResult(Some(MapNode(map[])), []));
    LaterEntryReplacesEarlier(lx, [], key, v, path);
    assert [] + [Pair(Scalar(key), v)] == [Pair(Scalar(key), v)];
    var ts := Tokens(lx, key);
    var x := Construct(lx, v, ForKey(path, ts)).value.result.value;
    var errors := Construct(lx, v, ForKey(path, ts)).value.errors;
    assert Nest(ts, x) == MapNode(map[][ts[0] := Nest(ts[1..], x)]);
    assert [] + errors == errors;
  }

  /** A compound key and the equivalent nested mapping convert to the same
      tree with the same errors, provided the value converts: `a.b: v` is
      `a: {b: v}`. */
  lemma DottedKeyEqualsNestedMapping(lx: Lexer, ka: string, kb: string, kab: string, v: YamlNode, path: Path)
    requires Tokens(lx, kab) == Tokens(lx, ka) + Tokens(lx, kb)
    requires |Tokens(lx, ka)| > 0 && |Tokens(lx, kb)| > 0
    requires Construct(lx, v, ForKey(path, Tokens(lx, kab))).Success?
    requires Construct(lx, v, ForKey(path, Tokens(lx, kab))).value.result.Some?
    ensures Construct(lx, Mapping([Pair(Scalar(kab), v)]), path)
         == Construct(lx, Mapping([Pair(Scalar(ka), Mapping([Pair(Scalar(kb), v)]))]), path)
  {
    var ta, tb, t := Tokens(lx, ka), Tokens(lx, kb), Tokens(lx, kab);
    ForKeyAppend(path, ta, tb);
    var c := Construct(lx, v, ForKey(path, t)).value;
    var x := c.result.value;
    // `a.b: v` at `path`.
    SingleEntry(lx, kab, v, path);
    // `{b: v}` at the path of `a`, then `a: {b: v}` at `path`.
    SingleEntry(lx, kb, v, ForKey(path, ta));
    var inner := Mapping([Pair(Scalar(kb), v)]);
    assert Construct(lx, inner, ForKey(path, ta)) == Success(GResult(Some(Nest(tb, x)), c.errors));
    SingleEntry(lx, ka, inner, path);
    NestAppend(ta, tb, x);
  }

  /** A lexer that splits `a.b` into two tokens and leaves other keys whole. */
  function SplitAB(s: string): seq<string> {
    if s == "a.b" then ["a", "b"] else [s]
  }

  /** The equivalence needs the value to convert: when it does not, both
      spellings report the same errors, but the compound key stores nothing
      while the nested spelling still stores an empty map under `a`. */
  lemma DottedAndNestedDifferWhenValueFails()
    ensures var lx := Lexer(SplitAB, s => s);
      var dotted := Construct(lx, Mapping([Pair(Scalar("a.b"), OtherNode("x"))]), []);
      var nested := Construct(lx, Mapping([Pair(Scalar("a"), Mapping([Pair(Scalar("b"), OtherNode("x"))]))]), []);
      && dotted.Success? && dotted.value.result == Some(MapNode(map[]))
      && nested.Success? && nested.value.result == Some(MapNode(map["a" := MapNode(map[])]))
      && dotted.value.errors == nested.value.errors
         == [UnknownNodeTypeDuringLoad([Key("a"), Key("b")], "x"), NoResultsFoundForPath([Key("a"), Key("b")])]
  {
    var lx := Lexer(SplitAB, s => s);
    assert Tokens(lx, "a.b") == ["a", "b"];
    assert Tokens(lx, "a") == ["a"];
    assert Tokens(lx, "b") == ["b"];
    var inner := Mapping([Pair(Scalar("b"), OtherNode("x"))]);
    var pb := ForKey([Key("a")], ["b"]);
    assert Construct(lx, OtherNode("x"), pb).value.result.None?;
    assert ConstructEntries(lx, inner, [Key("a")], 1).value.0 == map[];
    assert Construct(lx, inner, [Key("a")]).value.result == Some(MapNode(map[]));
    var pab := [Key("a"), Key("b")];
    var errors := [UnknownNodeTypeDuringLoad(pab, "x"), NoResultsFoundForPath(pab)];
    assert ForKey([], ["a", "b"]) == pab && pb == pab;
    var dottedNode := Mapping([Pair(Scalar("a.b"), OtherNode("x"))]);
    assert ForKey([], Tokens(lx, "a.b")) == pab;
    assert Construct(lx, OtherNode("x"), pab) == Success(GResult(None, [UnknownNodeTypeDuringLoad(pab, "x")]));
    assert [] + [UnknownNodeTypeDuringLoad(pab, "x")] + [NoResultsFoundForPath(pab)] == [] + errors;
    assert ConstructEntries(lx, dottedNode, [], 1) == Success((map[], [] + errors));
    assert ConstructEntries(lx, inner, [Key("a")], 1) == Success((map[], [] + errors));
    assert ForKey([], ["a"]) == [Key("a")];
  }
}
